=== FILE: README.md ===
# LangGraph course workflows in Dafny

This project models the deterministic core of a set of LangGraph workflows from a
course repository. Nodes are pure functions from a state record to a partial update.
The runtime merges each update into the state by overwriting keys. A small
edge-following executor walks each graph's wiring. The LLM, the JSON decoder,
the vector searches, the clock, the log or requirement file picked from disk, and
the operator's keyboard are all parameters of the model.

The modules follow the repository:

- `Wrappers`, `PyStr` and `Json` hold the Python behaviour the nodes rely on. This
  covers `strip`, `isalpha`, `in`, `split`, `join`, slices and `str(int)`, with ASCII
  character classes, plus JSON values and their truthiness.
- `Workflow` holds the runtime as the repository uses it. It has static and
  conditional edges, a fuel-bounded run that halts, pauses or crashes, and generic
  lemmas about runs: paths follow the wiring, chains run in order, and per-node
  records and tallies add up.
- `Memory` models `ConversationMemory` and `PersistentMemory` from `src/core/memory.py`.
  `Retrieval` holds the string assembly the nodes share: search queries, source labels,
  retrieved-context formatting, and the conversation block of the prompts.
- `ResponseSplit` models the three-part response splitter, its graph copies, and the
  inline variant in `src/agents_v2/log_analyzer_langchain.py`.
- `TestCaseRules`, `TestCaseGenerator`, `TestCaseGraph`, `TestCaseRagGraph` and
  `TestCaseMemory` model the test-case generator. That is validation, the retry
  counter, the approval dialogue, the state machine, the retrieval variant's wiring,
  and the memory-aware nodes.
- `LogAnalysis`, `LogAnalyzer`, `LogAnalyzerRag` and `LogAnalyzerMemory` model the
  three linear log-analysis pipelines and what they share.
- `IncidentResponse` models the hub-and-spoke incident team. `Greeting` models the
  greeting generator.

The code behaves as follows where its names or comments suggest otherwise:

- A failed `retry_generate` sets `validation_status` to "fail"; only a successful one
  resets it to "pending".
- In the prompt builders, only the conversation and the past-memory sections get a
  placeholder when empty ("First interaction"/"First analysis", "No past patterns
  yet"/"No past incidents yet"). An empty guidelines section stays empty.
- The incident specialists catch every exception of the model call. They still raise
  `KeyError` when `log_content` (first two agents), `steps_completed` or, after an
  exception, `errors` is absent. From the driver's start state they never raise.
- The order in which the supervisor dispatches the specialists lives in a module that
  is not part of this model. Only the wiring around it is proved.
- The plain log analyzer reads `state["log_content"]` inside its `try`, so an absent
  log becomes an "LLM error" entry. The two other analyzers read it before the `try`
  and raise.
- The driver starts the incident results as `None`. A specialist that reads one of
  them before it is set puts the text "None" in its prompt, not "".

## Model

| member | source | states |
|---|---|---|
| TestCaseRules.Missing | src/graph/test_case_generator/nodes.py:97-99 | a field is reported missing exactly when it is required and absent or falsy in the case |
| TestCaseRules.Elements | src/graph/test_case_generator/nodes.py:87 | iterating a batch visits a list's items, a string's characters one by one, or an object's keys in order |
| TestCaseRules.CheckCase | src/graph/test_case_generator/nodes.py:98-107 | one element passes exactly when it is a well-formed object; it raises exactly when it is an atom, a string holding one of the five names, or a list holding one as an item |
| TestCaseRules.ScanAllPass | src/graph/test_case_generator/nodes.py:98-107 | the validation loop passes a batch exactly when every element is an object with all five fields truthy and a list of two or more steps |
| TestCaseRules.ScanFirst | src/graph/test_case_generator/nodes.py:98-107 | otherwise the first element that does not pass decides: "fail", or the type error it raises |
| TestCaseRules.ScanObjects | src/graph/test_case_generator/nodes.py:98-107 | a list whose elements are all objects never makes the loop raise |
| TestCaseRules.Validate | src/graph/test_case_generator/nodes.py:85-110 | the verdict is "pass" or "fail", or a type error; "pass" exactly for a list of at least three well-formed objects; an atom raises at `len()`; fewer than three elements fail; a list of objects never raises |
| TestCaseRules.ScalarListRaises | src/graph/test_case_generator/nodes.py:92-99 | a list of three numbers raises "argument of type 'int' is not iterable" |
| TestCaseRules.ObjectBatch | src/graph/test_case_generator/nodes.py:92-99 | a single object of three or more keys is iterated over its keys: it raises exactly when the first key holds one of the five names, and never passes |
| TestCaseRules.TextBatch | src/graph/test_case_generator/nodes.py:92-99 | a string of three or more characters fails without raising |
| TestCaseRules.RouteAfterValidation | src/graph/test_case_generator/nodes.py:147-165 | the label is "preview" or "retry", and "retry" exactly when the status is "fail" and the count (default 0) is below 3 |
| TestCaseRules.RouteAfterApproval | src/graph/test_case_generator/nodes.py:247-262 | the label is "save" or "retry", and "retry" exactly for "rejected"; every other value, known or not, saves |
| TestCaseRules.ValidationRoutes | src/graph/test_case_generator/nodes.py:150-165 | "pass" previews for any count; a missing or "pending" status previews; a count of 3 or more always previews; "fail" below 3 retries |
| TestCaseRules.AttemptOf | src/graph/test_case_generator/nodes.py:43-58 | an attempt fails exactly when the call raises, the reply does not decode, or it decodes to a value without `len()`; the message carries "LLM error: " for the call and `len()`, "JSON parse error: " for the decoder; otherwise the decoded batch is kept whatever its shape |
| TestCaseRules.FailedAttemptFailsValidation | src/graph/test_case_generator/nodes.py:53-58 | a failed attempt leaves an empty batch, which fails validation, and exactly one error |
| TestCaseRules.ProducedHasLength | src/graph/test_case_generator/nodes.py:48-49 | a successful attempt never leaves an atom: its batch has a length |
| TestCaseRules.ValidBatchDetailsPrintable | src/graph/test_case_generator/nodes.py:223-244 | the full-details view never raises on a batch that passed validation |
| TestCaseRules.PreviewGuardsSave | src/graph/test_case_generator/nodes.py:168-187 | a non-empty batch the preview prints without raising is a list of objects |
| TestCaseRules.ValidBatchMayNotExport | src/graph/test_case_generator/nodes.py:74-80 | some batch passes validation yet breaks the CSV step join, since validation never looks at the step items |
| TestCaseRules.StripAll | src/graph/test_case_generator/nodes.py:198 | each line the dialogue sees is the typed line stripped, one for one |
| TestCaseRules.ClassifyMeans | src/graph/test_case_generator/nodes.py:200-220 | a line approves exactly when it is "1", rejects exactly when "2", and asks for details exactly when "3" |
| TestCaseRules.HumanApproval | src/graph/test_case_generator/nodes.py:189-220 | the dialogue reads at least one and at most all lines; a rejection reads at least two; no input raises EOFError |
| TestCaseRules.FeedbackOf | src/graph/test_case_generator/nodes.py:212 | the feedback is never empty, and a non-empty line is kept as typed |
| TestCaseRules.ApprovalFaults | src/graph/test_case_generator/nodes.py:197-220 | the dialogue raises only EOFError or the details view's type error, and its feedback is never empty |
| TestCaseRules.IgnoredLine | src/graph/test_case_generator/nodes.py:215-220 | a "3" whose details print, or an invalid choice, changes nothing except that one more line is read |
| TestCaseRules.FirstDecisiveApproves | src/graph/test_case_generator/nodes.py:197-205 | when the first "1" or "2" is a "1" at index k, the answer is approved, "Approved by user", after k + 1 lines |
| TestCaseRules.FirstDecisiveRejects | src/graph/test_case_generator/nodes.py:207-213 | when the first "1" or "2" is a "2", the answer is rejected with the next line as feedback, or the placeholder when it is empty |
| TestCaseRules.RejectWithoutFeedbackExhausts | src/graph/test_case_generator/nodes.py:207-208 | a "2" on the last line raises EOFError at the feedback prompt |
| TestCaseGenerator.ReadRequirement | src/graph/test_case_generator/nodes.py:31-36 | the update holds only the requirement text |
| TestCaseGenerator.Generation | src/graph/test_case_generator/nodes.py:43-58 | an absent requirement is caught inside the `try` as an "LLM error" carrying the KeyError text; otherwise the attempt is the call's |
| TestCaseGenerator.GenerateTests | src/graph/test_case_generator/nodes.py:39-58 | only `test_cases` and `errors` are written; no error exactly when the requirement is present, the call answers and the reply decodes to a value with a length, and then the batch is that value; otherwise exactly one error, with the "LLM error: " or "JSON parse error: " prefix, and an empty batch; an absent requirement gives the KeyError message |
| TestCaseGenerator.RetryGenerate | src/graph/test_case_generator/nodes.py:112-145 | the count is the old one (default 0) plus 1 in every branch; the batch and errors are those of a generation; "pending" with no error, else "fail" |
| TestCaseGenerator.ValidateTests | src/graph/test_case_generator/nodes.py:85-110 | only `validation_status` changes; the node succeeds exactly when the schema check on the batch (default empty) does, writes its verdict ("pass" exactly for a valid list of cases, otherwise "fail"), and otherwise raises the check's type error; a list of objects never raises |
| TestCaseGenerator.ValidateTestsShapes | src/graph/test_case_generator/nodes.py:85-110 | on a state holding a string of three or more characters the node writes "fail" without raising; on `[1, 2, 3]` it raises "argument of type 'int' is not iterable" |
| TestCaseGenerator.ShowPreview | src/graph/test_case_generator/nodes.py:168-187 | succeeds exactly when the batch can be enumerated and every element is an object whose steps have a length and whose expected text slices, and then resets approval to "pending" |
| TestCaseGenerator.HumanApprovalNode | src/graph/test_case_generator/nodes.py:189-220 | the update holds exactly the dialogue's decision and feedback, and it faults exactly when the dialogue does |
| TestCaseGenerator.SaveOutputs | src/graph/test_case_generator/nodes.py:61-83 | an absent batch raises; a falsy one is skipped; a list of cases is written exactly when its steps join; a batch of another shape is kept as raw output |
| TestCaseGraph.TablesCoverRouters | src/graph/test_case_generator/graph.py:39-59 | both label tables hold every label either router can return |
| TestCaseGraph.WiringShape | src/graph/test_case_generator/graph.py:33-65 | retry leads only to validate and preview only to approval; only read leads to generate, only approval to save, only save to the end; nothing leads to read |
| TestCaseGraph.GenerateOnlySecond | src/graph/test_case_generator/graph.py:34-36 | on every path from the entry, generate can only be the second node |
| TestCaseGraph.SaveOnlyAfterApproval | src/graph/test_case_generator/graph.py:52-65 | on every path, save comes straight after approval |
| TestCaseGraph.StepRoutes | src/graph/test_case_generator/graph.py:38-59 | no single step of the pipeline ends with an unknown label |
| TestCaseGraph.StepRetryCount | src/graph/test_case_generator/graph.py:61-62 | every step keeps `retry_count`, except retry, which adds exactly one and never raises |
| TestCaseGraph.SaveNeedsApproval | src/graph/test_case_generator/graph.py:52-59 | a step into save comes from approval with the decision "approved" |
| TestCaseGraph.RunNeverUnknownLabel | src/graph/test_case_generator/graph.py:38-59 | no run of the pipeline stops with an unknown label |
| TestCaseGraph.NodeFaults | src/graph/test_case_generator/graph.py:25-31 | the only faults a node raises are exhausted input, a type error or a missing key |
| TestCaseGraph.RunCountsRetries | src/graph/test_case_generator/graph.py:61-62 | along every run, `retry_count` grows by exactly the number of retry steps, so it never decreases |
| TestCaseGraph.RunShape | src/graph/test_case_generator/graph.py:33-65 | every run generates at most once, enters save only from approval, and halts only right after save |
| TestCaseGraph.FailingLoop | src/graph/test_case_generator/graph.py:38-62 | the failing loop with k retries left is k validate/retry rounds, then validate and preview |
| TestCaseGraph.FailingLoopRun | src/graph/test_case_generator/graph.py:38-62 | from validate with count r ≤ 3, when every batch is judged "fail", the run retries exactly 3 - r times and then previews |
| TestCaseGraph.FailingRound | src/graph/test_case_generator/graph.py:38-62 | a failed validation below the limit goes validate, retry, and back to validate with the next attempt's batch |
| TestCaseGraph.RetryAfterFail | src/graph/test_case_generator/graph.py:61-62 | the retry after a failure asks the model once more and counts the attempt |
| TestCaseGraph.FailingEnd | src/graph/test_case_generator/graph.py:38-46 | a failed validation at the limit goes to preview |
| TestCaseGraph.EntryReachesLoop | src/graph/test_case_generator/graph.py:34-36 | from the driver's state, read and generate lead to validate with the first attempt's batch |
| TestCaseGraph.FourAttemptsBeforePreview | src/graph/test_case_generator/graph.py:34-62 | from the driver's state, when every attempt is judged "fail", the model is called four times (1 generate + 3 retries) before the first preview |
| TestCaseGraph.RejectionNearLimit | src/graph/test_case_generator/graph.py:51-62 | a rejection with the count at 2 or more leads to exactly one retry and validate, then preview when the new batch validates (always for a list of objects), or a crash at validate when it raises |
| TestCaseGraph.RetryAtLimit | src/graph/test_case_generator/graph.py:61-62 | a retry with the count at 2 or more is the last: validate then previews the new batch, or raises on a batch it cannot index |
| TestCaseGraph.RejectionRetries | src/graph/test_case_generator/graph.py:52-59 | a "2" with any feedback routes approval to retry and leaves the count alone |
| TestCaseRagGraph.Tables | src/graph/testcase_rag/graph.py:41-53 | the two label tables are validate→{preview, retry} and approval→{save, retry} |
| TestCaseRagGraph.WiringShape | src/graph/testcase_rag/graph.py:33-56 | read leads only to retrieve, retrieve only to generate, retry only to validate; save→END is the only terminal edge; nothing leads to read |
| TestCaseRagGraph.FixedPrefix | src/graph/testcase_rag/graph.py:35-38 | every path starts read, retrieve, generate, and never enters any of them again |
| TestCaseRagGraph.PathCounts | src/graph/testcase_rag/graph.py:35-38 | on every path retrieve and generate occur at most once, and exactly once from the third node on |
| TestCaseRagGraph.RunShape | src/graph/testcase_rag/graph.py:35-38 | every run enters retrieve and generate at most once each, and exactly once each, in order, once past three nodes |
| TestCaseRagGraph.SaveOnlyAfterApproval | src/graph/testcase_rag/graph.py:49-56 | on every path, save comes straight after approval |
| TestCaseRagGraph.RunSaves | src/graph/testcase_rag/graph.py:49-56 | every run enters save only from approval and halts only right after save |
| TestCaseRagGraph.RunNeverUnknownLabel | src/graph/testcase_rag/graph.py:41-53 | no run stops with an unknown label while the routers return only their own labels |
| TestCaseMemory.ReadRequirement | src/graph/testcase_memory/nodes.py:39-44 | the update holds only the requirement text |
| TestCaseMemory.LoadMemories | src/graph/testcase_memory/nodes.py:46-71 | needs the requirement; the update holds only the buffer's messages and the past patterns, which are the formatted recall for the 200-character preview (top_k 2), "" exactly when the recall finds nothing |
| TestCaseMemory.RetrieveContext | src/graph/testcase_memory/nodes.py:74-100 | needs the requirement and string sources; the update holds only the context, which is the labelled hits for the 200-character preview (top_k 3) joined by "\n---\n", "" exactly when the search finds nothing |
| TestCaseMemory.PromptSections | src/graph/testcase_memory/nodes.py:113-137 | four sections in the order conversation, guidelines, past patterns, requirement |
| TestCaseMemory.PromptSeesMemories | src/graph/testcase_memory/nodes.py:46-137 | after read, load and retrieve, the prompt's guidelines section holds the formatted hits and its past-patterns section the formatted recall or "No past patterns yet", from any earlier state |
| TestCaseMemory.PromptLayout | src/graph/testcase_memory/nodes.py:121-137 | the prompt opens with the conversation section, closes with the requirement, and holds the two sections between |
| TestCaseMemory.PromptPlaceholders | src/graph/testcase_memory/nodes.py:114-132 | "First interaction" stands for the conversation exactly when there is no history; "No past patterns yet" replaces empty patterns |
| TestCaseMemory.PromptReadsOnlyContext | src/graph/testcase_memory/nodes.py:104-137 | the prompt depends only on the requirement, the context, the patterns and the history |
| TestCaseMemory.AttemptUpdate | src/graph/testcase_memory/nodes.py:148-170 | an attempt's update: its batch and errors, "pending" exactly when it succeeded, and the given count |
| TestCaseMemory.GenerateTests | src/graph/testcase_memory/nodes.py:104-170 | needs the requirement; copies the count (default 0); the batch with "pending" on success, an empty batch and one error with "fail" otherwise |
| TestCaseMemory.GenerationMemory | src/graph/testcase_memory/nodes.py:139-170 | success leaves the request and count notes as the buffer's last two messages under its cap; failure leaves the buffer unchanged |
| TestCaseMemory.RetryGenerate | src/graph/testcase_memory/nodes.py:242-288 | needs the requirement; the count is the old one plus 1 in every branch; the batch and errors are the attempt's, "pending" or "fail" |
| TestCaseMemory.RetryReadsOnlyRequirementAndContext | src/graph/testcase_memory/nodes.py:242-262 | two states with the same requirement and context retry alike, apart from the count |
| TestCaseMemory.RetryCountsOneMore | src/graph/testcase_memory/nodes.py:242-288 | from any state a retry leaves the count exactly one above what a generation leaves |
| TestCaseMemory.ValidateTests | src/graph/testcase_memory/nodes.py:215-240 | the schema check's outcome on the batch (default empty): its verdict as the status when it returns, its type error when it raises; "pass" exactly for a valid list of cases; only the status changes; a list of objects never raises |
| TestCaseMemory.Priorities | src/graph/testcase_memory/nodes.py:200 | the summarized set holds exactly the cases' priorities: each one, and nothing else |
| TestCaseMemory.LeadingIds | src/graph/testcase_memory/nodes.py:198 | the summary lists the ids of the first five cases (all of them when fewer), in order |
| TestCaseMemory.IdNamed | src/graph/testcase_memory/nodes.py:194-200 | the stored interaction text contains the id of each of the first five cases |
| TestCaseMemory.PriorityNamed | src/graph/testcase_memory/nodes.py:194-200 | the stored interaction text contains every priority the set's iteration lists |
| TestCaseMemory.InteractionNames | src/graph/testcase_memory/nodes.py:194-200 | when the iteration lists the whole set, the stored text contains each of the first five ids and every case's priority |
| TestCaseMemory.SaveOutputs | src/graph/testcase_memory/nodes.py:173-212 | an absent batch raises; a falsy one stores nothing; a list of cases stores exactly one interaction with agent, type, count = batch size and timestamp, exactly when its steps join and its summary builds; any other truthy batch raises |
| Memory.AddMessage | src/core/memory.py:21-32 | the buffer is the old messages plus the new one, cut to the newest `max_messages`; with a cap of 1 or more it never exceeds the cap |
| Memory.Recent | src/core/memory.py:42 | `messages[-n:]`: the newest min(n, len) for n ≥ 1, all for 0, all but the oldest k for -k, always a suffix |
| Memory.GetContext | src/core/memory.py:40-48 | the context is "" exactly when there are no recent messages |
| Memory.ContextLines | src/core/memory.py:40-48 | without newlines in messages, the context splits back into one "role: content" line per recent message, most recent last |
| Memory.Clear | src/core/memory.py:50-53 | no messages remain and the cap is unchanged |
| Memory.AddAllKeepsNewest | src/core/memory.py:28-32 | after any run of appends the buffer is the newest `max_messages` of all messages, in order, never more |
| Memory.OverflowKeepsLast | src/core/memory.py:28-32 | appending capacity + n messages to an empty buffer leaves exactly the last capacity, in order |
| Memory.StoreInteraction | src/core/memory.py:66-81 | exactly one record is added; absent metadata is {}; a timestamp is added only when absent, and every supplied key is kept |
| Memory.RetrieveSimilar | src/core/memory.py:86-101 | one record per hit, in hit order, with its content and metadata, and similarity = 1 - score |
| Memory.SimilarityReversesDistance | src/core/memory.py:97 | a smaller distance always gives the higher similarity |
| Memory.PersistentContext | src/core/memory.py:103-108 | "" exactly when the search found nothing |
| Memory.PersistentContextCitesEveryHit | src/core/memory.py:110-117 | for each hit, the text "[Past Interaction <n> - <stamp>]\\n<content>\\n" occurs in the context, with its 1-based number, its stored timestamp or "Unknown", and its content |
| Retrieval.Query | src/graph/log_analyzer_rag/nodes.py:45-53 | the query is the lead followed by at most the first n characters of the text |
| Retrieval.QueryReadsPreview | src/graph/log_analyzer_rag/nodes.py:44-53 | texts that agree on their first n characters give the same query |
| Retrieval.SourceLabel | src/graph/log_analyzer_rag/nodes.py:58 | the label is a suffix of the source without "/", and is the whole source or follows a "/" |
| Retrieval.LastPieceAfterSlash | src/graph/log_analyzer_rag/nodes.py:58 | the last piece of the split is the whole source or comes right after a "/" |
| Retrieval.SourceLabelUnique | src/graph/log_analyzer_rag/nodes.py:58 | any suffix with the three label properties is the label |
| Retrieval.SourceLabelPlain | src/graph/log_analyzer_rag/nodes.py:58 | a source without "/" is its own label |
| Retrieval.RetrievedContext | src/graph/log_analyzer_rag/nodes.py:56-65 | the labelled parts in hit order joined by "\n---\n"; "" exactly when there are no hits; a non-string source raises |
| Retrieval.ContextCitesEveryHit | src/graph/log_analyzer_rag/nodes.py:56-65 | every hit's labelled part occurs in the context |
| Retrieval.HistoryLine | src/graph/testcase_memory/nodes.py:117 | a history line is the role, ": ", at most 100 characters of content, and "..." |
| Retrieval.RecentHistory | src/graph/testcase_memory/nodes.py:116 | the newest three messages (or fewer), in order |
| Retrieval.ConversationContext | src/graph/testcase_memory/nodes.py:114-118 | "" exactly without history; otherwise the recent lines joined by newlines, ending in "..." |
| Retrieval.ConversationContextLines | src/graph/testcase_memory/nodes.py:114-118 | without newlines in the lines, the block splits back into at most three lines, one per recent message, newest last |
| Retrieval.FourSections | src/graph/testcase_memory/nodes.py:121-137 | a four-section prompt opens with its first section, closes with its last, and holds the two between |
| Retrieval.ConversationSection | src/graph/testcase_memory/nodes.py:121-122 | the section is the placeholder without history and the block otherwise |
| ResponseSplit.SummaryOf | src/graph/log_analyzer/nodes.py:116-119 | the summary is the default or a stripped piece |
| ResponseSplit.SplitResponse | src/graph/log_analyzer/nodes.py:95-121 | without "```json": the whole response, {} and the default; otherwise the stripped prefix, the parsed or fallback block, and the summary |
| ResponseSplit.SummaryBetweenMarkers | src/graph/log_analyzer/nodes.py:117-119 | the summary is the stripped text between the first and second "---EXECUTIVE---" |
| ResponseSplit.SplitShapes | src/graph/log_analyzer/nodes.py:97-104 | the text is the whole response or a stripped prefix, and the summary the default or a stripped piece |
| ResponseSplit.SplitComposed | src/graph/log_analyzer/nodes.py:102-119 | a response assembled as text, fenced block, marker and summary splits back into those pieces, stripped and parsed |
| ResponseSplit.OpeningFenceAt | src/graph/log_analyzer/nodes.py:103-105 | the text before the first fence and the remainder after it are recovered from an assembled response |
| ResponseSplit.UnclosedFenceKeepsDefaults | src/graph/log_analyzer/nodes.py:108 | with an opening fence and no closing one, the JSON and the summary keep their defaults |
| ResponseSplit.InlineSplit | src/agents_v2/log_analyzer_langchain.py:100-122 | no fence: the whole response and the parsed sentinel; unclosed: the stripped prefix and the sentinel; closed: the parsed block |
| ResponseSplit.InlineAgreesWithGraph | src/agents_v2/log_analyzer_langchain.py:100-116 | for every response the inline split and the graph copy give the same text and summary, and the same JSON when both fences are present |
| ResponseSplit.InlineSentinelWhenNoBlock | src/agents_v2/log_analyzer_langchain.py:101-122 | without a complete block the inline split gives {"error": "No JSON generated"} where the graph copy gives {} |
| LogAnalysis.UserTurn | src/graph/log_analyzer/nodes.py:22-25 | the user turn is the fixed lead followed by the content |
| LogAnalysis.AnalysisOf | src/graph/log_analyzer/nodes.py:38-64 | no error exactly when the model answered; then the three parts of the split; otherwise "", {}, "" and one "LLM error: " entry |
| LogAnalysis.SaveFiles | src/graph/log_analyzer/nodes.py:67-92 | errors block every write; otherwise the three parts are written, and the first absent one raises, in the order text, JSON, summary |
| LogAnalysis.SaveSeesAnalysis | src/graph/log_analyzer/nodes.py:47-72 | right after an analysis, saving writes exactly when the model answered, and writes the split parts |
| LogAnalyzer.ReadLog | src/graph/log_analyzer/nodes.py:30-35 | the update holds only the log text |
| LogAnalyzer.AnalysisUpdate | src/graph/log_analyzer/nodes.py:50-64 | the update holds exactly the four output keys of an analysis |
| LogAnalyzer.AnalyzeLog | src/graph/log_analyzer/nodes.py:38-64 | the analysis of the model's answer to the log; an absent log becomes an "LLM error" entry for the KeyError |
| LogAnalyzer.SaveOutputs | src/graph/log_analyzer/nodes.py:67-92 | writes nothing exactly when errors are present; otherwise writes the three outputs, and an absent one raises |
| LogAnalyzer.RunOrder | src/graph/log_analyzer/graph.py:15-23 | every run enters read, analyze, save in that order and nothing else, and halts only after all three |
| LogAnalyzer.Pipeline | src/graph/log_analyzer/graph.py:20-23 | the pipeline halts after three nodes; an answer writes exactly one set of files with the split parts; an exception writes none and leaves one error |
| LogAnalyzerRag.Guides | src/graph/log_analyzer_rag/nodes.py:50-65 | the guides format exactly when every source is readable, raise a type error otherwise, and are "" exactly without hits |
| LogAnalyzerRag.RetrieveContext | src/graph/log_analyzer_rag/nodes.py:39-69 | needs the log; the update holds only the guides for its 500-character preview |
| LogAnalyzerRag.RetrievalReadsPreview | src/graph/log_analyzer_rag/nodes.py:44-53 | logs that agree on their first 500 characters retrieve the same guides |
| LogAnalyzerRag.RagPrompt | src/graph/log_analyzer_rag/nodes.py:80-88 | the prompt is the guides header, the guides, the rule and log header, and the log, in that order |
| LogAnalyzerRag.RagPromptRecovers | src/graph/log_analyzer_rag/nodes.py:80-88 | given the guides' length, the prompt gives back both the guides and the log |
| LogAnalyzerRag.AnalysisUpdate | src/graph/log_analyzer_rag/nodes.py:95-109 | the update holds exactly the four output keys of an analysis |
| LogAnalyzerRag.AnalyzeLog | src/graph/log_analyzer_rag/nodes.py:72-109 | raises exactly when the log is absent; otherwise only the four outputs, from the model's answer to the guides-and-log prompt |
| LogAnalyzerRag.SaveOutputs | src/graph/log_analyzer_rag/nodes.py:111-136 | writes nothing exactly when errors are present; otherwise writes the three outputs, and an absent one raises |
| LogAnalyzerRag.SaveAfterAnalysis | src/graph/log_analyzer_rag/nodes.py:90-116 | after an analysis, saving succeeds, writes exactly when the model answered, and writes the split parts |
| LogAnalyzerMemory.ReadLog | src/graph/log_analyzer_memory/nodes.py:37-42 | the update holds only the log text |
| LogAnalyzerMemory.LoadMemories | src/graph/log_analyzer_memory/nodes.py:44-70 | needs the log; only the history and past incidents for the 300-character preview with top_k 2, "" exactly when none are found |
| LogAnalyzerMemory.RetrieveContext | src/graph/log_analyzer_memory/nodes.py:73-103 | the same guides as the retrieval pipeline's node |
| LogAnalyzerMemory.PromptSections | src/graph/log_analyzer_memory/nodes.py:123-139 | four sections in the order conversation, guides, past incidents, log |
| LogAnalyzerMemory.PromptLayout | src/graph/log_analyzer_memory/nodes.py:123-139 | the prompt opens with the conversation section, closes with the log section, and holds the two sections between |
| LogAnalyzerMemory.PromptPlaceholders | src/graph/log_analyzer_memory/nodes.py:115-134 | "First analysis" stands for the conversation exactly without history; "No past incidents yet" replaces empty incidents |
| LogAnalyzerMemory.PromptSeesMemories | src/graph/log_analyzer_memory/nodes.py:106-139 | after read, load_memory and retrieve, the prompt is built from the buffer, the incidents and the guides found for the log |
| LogAnalyzerMemory.AnalysisUpdate | src/graph/log_analyzer_memory/nodes.py:151-165 | the update holds exactly the four output keys of an analysis |
| LogAnalyzerMemory.AnalyzeLog | src/graph/log_analyzer_memory/nodes.py:106-165 | needs the log; the analysis of the answer; only an answer appends the request and result notes to the buffer |
| LogAnalyzerMemory.AnalysisMemory | src/graph/log_analyzer_memory/nodes.py:141-165 | an answer leaves the two notes as the buffer's last messages under its cap; an exception leaves the buffer unchanged |
| LogAnalyzerMemory.Listed | src/graph/log_analyzer_memory/nodes.py:200-201 | a list gives at most its first n items, all strings; a string its first n characters; anything else cannot be joined |
| LogAnalyzerMemory.StoreIncident | src/graph/log_analyzer_memory/nodes.py:190-211 | stores exactly when the report is an object whose root causes and recommendations (default []) slice and join, that is, each is a string or a list whose first three (resp. two) items are strings; then one interaction is stored, holding the summary text, with agent, type, error_count (default 0), severity (default "unknown") and timestamp; otherwise a type error |
| LogAnalyzerMemory.SaveOutputs | src/graph/log_analyzer_memory/nodes.py:167-214 | with errors nothing is written or stored; otherwise it succeeds exactly when the three outputs are present and the incident stores, writing the three files and storing the incident; the first missing output raises KeyError, and a bad report raises the store's type error |
| LogAnalyzerMemory.InteractionLists | src/graph/log_analyzer_memory/nodes.py:196-201 | the stored text lists at most three root causes and two recommendations, and ends with the recommendations line |
| LogAnalyzerMemory.RunOrder | src/graph/log_analyzer_memory/graph.py:14-26 | every run enters the five nodes in order, each at most once, halts only after save, and analyzes only after load_memory and retrieve |
| IncidentResponse.Field | src/graph/incident_response/agents/root_cause_investigator.py:19 | an absent result formats as "", a `None` one as "None", and a text as itself |
| IncidentResponse.Contribute | src/graph/incident_response/agents/log_analyzer.py:20-38 | an answer adds the name to the steps and leaves errors out; an exception adds the name and one prefixed error; the missing-key faults |
| IncidentResponse.LogAnalyzerAgent | src/graph/incident_response/agents/log_analyzer.py:15-39 | needs the log; the analysis or "Error: ...", steps plus "log_analyzer", and only after an exception errors plus "Log Analyzer: ..." |
| IncidentResponse.RootCauseInvestigatorAgent | src/graph/incident_response/agents/root_cause_investigator.py:15-43 | needs the log; reads the analysis by default ""; steps plus "root_cause_investigator"; errors only after an exception |
| IncidentResponse.SolutionRecommenderAgent | src/graph/incident_response/agents/solution_recommender.py:15-43 | reads the root cause and analysis by default ""; steps plus "solution_recommender"; errors only after an exception |
| IncidentResponse.SpecialistsNeverRaise | src/graph/incident_response/agents/log_analyzer.py:20-38 | with the log, the steps and the errors present, no specialist raises, and an answer leaves errors unchanged |
| IncidentResponse.InitPromptsReadNone | src/graph/drivers/run_incident_response.py:32-41 | from the driver's state, an unset result reads "None" in the prompts, and the first specialist leaves only its name in the steps |
| IncidentResponse.SolutionReadsOnlyResults | src/graph/incident_response/agents/solution_recommender.py:19-27 | states that agree on the root cause, analysis, steps and errors get the same update |
| IncidentResponse.RouterLabels | src/graph/incident_response/graph.py:38-47 | the three specialist names go to their nodes, "FINISH" to the compiler, and any other label faults |
| IncidentResponse.LabelTargets | src/graph/incident_response/graph.py:41-46 | the router's label map targets exactly the three specialists and the compiler, and nothing else |
| IncidentResponse.WiringShape | src/graph/incident_response/graph.py:35-55 | specialists lead only to the router; only the router leads to specialists and the compiler; only the compiler to the end |
| IncidentResponse.HubPath | src/graph/incident_response/graph.py:49-52 | on every path specialists and the compiler are entered from the router, and the router from a specialist |
| IncidentResponse.RunShape | src/graph/incident_response/graph.py:35-55 | every run starts at the router, has the hub shape, and halts only after the compiler |
| IncidentResponse.StepsRecordVisits | src/graph/incident_response/graph.py:49-52 | from a ready state the final steps are the initial ones plus the names of the specialists entered, one per visit, in order |
| Greeting.ValidateName | src/graph/greeting_generator/nodes.py:7-12 | needs the name; only name and validity change; the name is trimmed, and valid exactly when non-empty and all letters |
| Greeting.ValidatedName | src/graph/greeting_generator/nodes.py:9-10 | the new name is the old one with only surrounding whitespace cut; all-space names and names with a non-letter are invalid |
| Greeting.ValidateIdempotent | src/graph/greeting_generator/nodes.py:9-12 | validating twice gives the same update and state as validating once |
| Greeting.GreetingText | src/graph/greeting_generator/nodes.py:17 | the greeting is "Hello, ", the name, and "! Welcome to LangGraph!" |
| Greeting.GreetingRecovers | src/graph/greeting_generator/nodes.py:17 | the greeting gives back the name, so distinct names get distinct greetings |
| Greeting.GenerateGreeting | src/graph/greeting_generator/nodes.py:14-19 | needs the name; only the greeting changes, and it greets exactly that name |
| Greeting.AddTimestamp | src/graph/greeting_generator/nodes.py:21-25 | only the timestamp changes, to the clock's reading |
| Greeting.RunOrder | src/graph/greeting_generator/graph.py:13-21 | every run enters validate, greet, timestamp in order and nothing else, and halts only after all three |
| Greeting.Pipeline | src/graph/greeting_generator/graph.py:18-21 | without a name the run stops at validate; with one it halts with the trimmed name, its validity, its greeting (valid or not) and the time |

## Left out

- The LLM, JSON decoding, vector search, the clock, the file picked from disk and the operator's keyboard are parameters. Logging, `print`, `mkdir` and the file writes are left out, and writes are modelled only as the values written.
- The LangGraph runtime is not in the repository. `Workflow` assumes a shallow key-overwrite merge and an edge-following executor. It uses fuel in place of the recursion limit, and a paused run stands for a run that hit that limit.
- `supervisor_router`, `supervisor_compile` and `route_next` are not part of this model. They are parameters of `IncidentResponse`, so the order and the number of specialist visits are not claimed.
- `src/graph/testcase_rag/nodes.py`, `src/core/utils.py` and the prompt template texts are not part of this model. Only the retrieval test-case graph's wiring is modelled, and the incident prompts are modelled by their filled-in fields.
- `str.strip` and `str.isalpha` are modelled for ASCII only.
- `PersistentMemory` keeps `collection_name` but it selects nothing, because `load_vector_store()` takes no collection.
- Chroma's restriction of metadata values to scalars is not checked.
- Python's iteration order of the priority set in the test-case memory summary is a parameter.
- The pandas CSV export is modelled only by its one fault on a list of cases: the steps join on a non-string item. `json.dumps` and the CSV layout are not modelled.
- TestCaseGenerator.SaveOutputs: for a truthy batch that is not a list of objects, whether `pd.DataFrame` accepts it depends on pandas, which is not modelled; the result only records that the raw batch was written. The memory-aware `save_outputs` raises on such a batch in every case, at the table or at the summary's `.get` or slice, and the model states that.
- JSON numbers are integers only. A reply with floating-point values is not modelled, so `not tc["priority"]` on `0.0` and `str(3.0)` in stored texts are not covered.
- JSON decoding keeps an object reply only as its key sequence, which is all the nodes read of it before they raise.
- `Json.Show` stands in for `str()` of lists and objects inside the stored incident text, which Python renders in its own repr format.
- `AttributeError` from `.get` on a non-object report, case or preview element is modelled as a type error.
- Files written before a later `KeyError` or type error in the same `save_outputs` call are not recorded.
- The shared memory objects are module-level singletons in the source. They are threaded through the model as explicit values, and list aliasing between `get_history` and the buffer is not modelled.
- Similarity is `1 - score` on reals standing for the distances, with no floating-point rounding.
- Greeting.AddTimestamp: the "%Y-%m-%d %H:%M:%S" format of the clock reading is not modelled, because the reading itself is a parameter.
- IncidentResponse.StepsRecordVisits: it assumes the router and the compiler never write `steps_completed`, since the supervisor is not part of this model.
- TestCaseGraph.FourAttemptsBeforePreview: it assumes every attempt fails validation with "fail" rather than raising, and that no operator input is consumed before the first preview.
- Nothing bounds the number of reject-and-retry rounds in the source; the model proves that every rejection retries, and not that runs terminate.

=== FILE: greeting.dfy ===
/** The greeting generator (src/graph/greeting_generator/nodes.py and graph.py): clean
    up and check a name, greet it, and stamp the result. The clock's formatted reading
    is a parameter. */
module Greeting {
  import opened Wrappers
  import opened PyStr
  import opened Workflow

  /** `GreetingState`: every key may be absent. */
  datatype State = State(
    name: Option<string>,
    isValid: Option<bool>,
    greeting: Option<string>,
    timestamp: Option<string>)

  /** `{}`: the empty update. */
  const Blank: State := State(None, None, None, None)

  /** The runtime's shallow merge: every key the update holds overwrites the state's. */
  function Merge(s: State, u: State): State {
    State(
      s.name.Overwrite(u.name),
      s.isValid.Overwrite(u.isValid),
      s.greeting.Overwrite(u.greeting),
      s.timestamp.Overwrite(u.timestamp))
  }

  /** `validate_name`: `state["name"]` must exist. The update holds the name without
      its surrounding whitespace, and whether that is a non-empty run of letters. */
  function ValidateName(s: State): (r: Result<State, Fault>)
    ensures r.Failure? <==> s.name.None?
    ensures r.Failure? ==> r.error == MissingKey("name")
    ensures r.Success? ==>
      && r.value.(name := None, isValid := None) == Blank
      && r.value.name.Some? && r.value.isValid.Some?
      && Trimmed(r.value.name.value)
      && (r.value.isValid.value <==>
            |r.value.name.value| > 0 && forall i :: 0 <= i < |r.value.name.value| ==> IsLetter(r.value.name.value[i]))
  {
    match s.name
    case None => Failure(MissingKey("name"))
    case Some(raw) =>
      var name := Strip(raw);
      Success(Blank.(name := Some(name), isValid := Some(|name| > 0 && IsAlpha(name))))
  }

  /** The validated name is the given one with whitespace cut from both ends only: it
      sits in the raw name at the first non-space, with nothing but whitespace before
      and after it. A name of only whitespace becomes "" and is invalid, and so is any
      name with a space or another non-letter inside. */
  lemma ValidatedName(s: State)
    requires s.name.Some?
    ensures var raw := s.name.value; var u := ValidateName(s).value;
      var n := u.name.value; var k := Leading(raw);
      && k + |n| <= |raw| && n == raw[k..k + |n|]
      && AllSpace(raw[..k]) && AllSpace(raw[k + |n|..])
      && (AllSpace(raw) ==> n == "" && !u.isValid.value)
      && (forall i :: 0 <= i < |n| && !IsLetter(n[i]) ==> !u.isValid.value)
  {
    var raw := s.name.value;
    StripPads(raw);
  }

  /** Validating twice gives what validating once gives. */
  lemma ValidateIdempotent(s: State)
    requires s.name.Some?
    ensures var t := Merge(s, ValidateName(s).value);
      ValidateName(t) == ValidateName(s) && Merge(t, ValidateName(t).value) == t
  {
    StripIdempotent(s.name.value);
  }

  const GreetLead: string := "Hello, "
  const GreetTail: string := "! Welcome to LangGraph!"

  /** The greeting for a name: the lead, the name, and the welcome, in that order. */
  function GreetingText(name: string): (g: string)
    ensures |g| == |GreetLead| + |name| + |GreetTail|
    ensures g[..|GreetLead|] == GreetLead
    ensures g[|GreetLead|..|GreetLead| + |name|] == name
    ensures g[|GreetLead| + |name|..] == GreetTail
  {
    GreetLead + name + GreetTail
  }

  /** The name a greeting was made for: what lies between the lead and the welcome. */
  function GreetedName(g: string): (name: string)
    requires |g| >= |GreetLead| + |GreetTail|
    ensures |name| == |g| - |GreetLead| - |GreetTail|
  {
    g[|GreetLead|..|g| - |GreetTail|]
  }

  /** The greeting gives back the name it was made for, so two names never get the same
      greeting. */
  lemma GreetingRecovers(name: string)
    ensures GreetedName(GreetingText(name)) == name
  {
    var g := GreetingText(name);
    assert |g| - |GreetTail| == |GreetLead| + |name|;
  }

  /** `generate_greeting`: `state["name"]` must exist; the update holds only the
      greeting, whether or not the name was found valid. */
  function GenerateGreeting(s: State): (r: Result<State, Fault>)
    ensures r.Failure? <==> s.name.None?
    ensures r.Failure? ==> r.error == MissingKey("name")
    ensures r.Success? ==>
      && r.value.(greeting := None) == Blank
      && r.value.greeting.Some?
      && GreetLead <= r.value.greeting.value
      && |r.value.greeting.value| >= |GreetLead| + |GreetTail|
      && GreetedName(r.value.greeting.value) == s.name.value
  {
    match s.name
    case None => Failure(MissingKey("name"))
    case Some(name) =>
      GreetingRecovers(name);
      Success(Blank.(greeting := Some(GreetingText(name))))
  }

  /** `add_timestamp`, with the clock's "%Y-%m-%d %H:%M:%S" reading as a parameter: the
      update holds only the timestamp, and no key is read. */
  function AddTimestamp(s: State, now: string): (u: State)
    ensures u.(timestamp := None) == Blank && u.timestamp == Some(now)
  {
    Blank.(timestamp := Some(now))
  }

  // ---------------------------------------------------------------------------
  // The graph
  // ---------------------------------------------------------------------------

  datatype Node = Validate | Greet | Stamp

  const Entry: Node := Validate

  /** The edge table of `build_graph`: validate, greet, timestamp, end. */
  function Wiring(n: Node): Edge<Node> {
    match n
    case Validate => Static(To(Greet))
    case Greet => Static(To(Stamp))
    case Stamp => Static(End)
  }

  const Order: seq<Node> := [Validate, Greet, Stamp]

  /** One node acting on the state. */
  function Step(now: string, n: Node, s: State): Result<Out<State>, Fault> {
    var update := match n
      case Validate => ValidateName(s)
      case Greet => GenerateGreeting(s)
      case Stamp => Success(AddTimestamp(s, now));
    match update
    case Failure(f) => Failure(f)
    case Success(u) => Success(Out(Merge(s, u), ""))
  }

  /** Every run, whatever the nodes do, enters validate, greet and timestamp in that
      order and nothing else, halts only after all three, and pauses only short of
      three steps. */
  lemma RunOrder<S>(exec: (Node, S) -> Result<Out<S>, Fault>, s: S, fuel: nat)
    ensures var r := Run(Wiring, exec, Entry, s, fuel);
      && r.trace <= Order
      && (r.Halted? ==> r.trace == Order)
      && (r.Paused? ==> fuel < |Order|)
  {
    assert IsChain(Wiring, Order);
    ChainRun(Wiring, exec, Order, 0, s, fuel);
  }

  /** The whole graph: without a name it stops at validation; with one it halts after
      the three nodes holding the cleaned name, its validity, the greeting for the
      cleaned name (valid or not) and the timestamp. */
  lemma Pipeline(now: string, s: State, fuel: nat)
    requires fuel >= |Order|
    ensures var r := Run(Wiring, (n, t) => Step(now, n, t), Entry, s, fuel);
      && (s.name.None? ==> r == Crashed(MissingKey("name"), s, [Validate]))
      && (s.name.Some? ==>
            var name := Strip(s.name.value);
            && r.Halted? && r.trace == Order
            && r.state == State(Some(name), Some(IsAlpha(name)), Some(GreetingText(name)), Some(now)))
  {
    var exec := (n, t) => Step(now, n, t);
    if s.name.Some? {
      var s1 := Merge(s, ValidateName(s).value);
      var s2 := Merge(s1, GenerateGreeting(s1).value);
      var s3 := Merge(s2, AddTimestamp(s2, now));
      RunStops(Wiring, exec, Stamp, s2, fuel - 2);
      assert Run(Wiring, exec, Stamp, s2, fuel - 2) == Halted(s3, [Stamp]);
      RunThrough(Wiring, exec, Greet, s1, fuel - 1, Out(s2, ""), Stamp);
      RunThrough(Wiring, exec, Validate, s, fuel, Out(s1, ""), Greet);
    }
  }
}

=== FILE: incident_response.dfy ===
/** The incident-response team (src/graph/incident_response/graph.py, state.py and
    agents/): a router in the middle, three specialists that each report back to it,
    and a compiler that writes the final report. The specialists' model calls are a
    parameter. The router, its routing function and the compiler are the
    supervisor's, which is not part of this model: they are parameters too. */
module IncidentResponse {
  import opened Wrappers
  import opened Workflow

  /** `IncidentState`: every key may be absent, and the three `Optional[str]` results
      may also be present as `None` (the driver starts them so). */
  datatype State = State(
    logContent: Option<string>,
    nextAgent: Option<string>,
    logAnalysis: Option<Option<string>>,
    rootCause: Option<Option<string>>,
    solution: Option<Option<string>>,
    incidentReport: Option<string>,
    stepsCompleted: Option<seq<string>>,
    errors: Option<seq<string>>)

  /** `{}`: the empty update. */
  const Blank: State := State(None, None, None, None, None, None, None, None)

  /** The runtime's shallow merge: every key the update holds overwrites the state's. */
  function Merge(s: State, u: State): State {
    State(
      s.logContent.Overwrite(u.logContent),
      s.nextAgent.Overwrite(u.nextAgent),
      s.logAnalysis.Overwrite(u.logAnalysis),
      s.rootCause.Overwrite(u.rootCause),
      s.solution.Overwrite(u.solution),
      s.incidentReport.Overwrite(u.incidentReport),
      s.stepsCompleted.Overwrite(u.stepsCompleted),
      s.errors.Overwrite(u.errors))
  }

  /** `str.format` of `state.get(key, "")`: an absent key gives "", a present `None`
      gives "None". */
  function Field(v: Option<Option<string>>): (t: string)
    ensures v.None? ==> t == ""
    ensures v == Some(None) ==> t == "None"
    ensures v.Some? && v.value.Some? ==> t == v.value.value
  {
    match v
    case None => ""
    case Some(None) => "None"
    case Some(Some(text)) => text
  }

  /** The three prompt templates with their fields filled in; the template texts
      themselves are fixed and not modelled. */
  datatype Prompt =
    | LogPrompt(log: string)
    | RootCausePrompt(analysis: string, log: string)
    | SolutionPrompt(rootCause: string, analysis: string)

  /** What one specialist hands back: its text, the extended steps, and (only after an
      exception) the extended errors. */
  datatype Contribution = Contribution(text: string, steps: seq<string>, errors: Option<seq<string>>)

  /** The `try`/`except` every specialist shares. An answer becomes the text and adds
      the agent's name to the steps; an exception becomes "Error: ..." as the text,
      adds the name all the same, and adds "<Agent>: ..." to the errors. Reading an
      absent `steps_completed` inside the `try` is caught and read again in the
      `except`, where it raises; an absent `errors` raises only in the `except`. */
  function Contribute(steps: Option<seq<string>>, errors: Option<seq<string>>, name: string,
                      lead: string, answer: LlmOutcome)
    : (r: Result<Contribution, Fault>)
    ensures r.Failure? <==> steps.None? || (answer.Raised? && errors.None?)
    ensures r.Failure? ==> r.error == (if steps.None? then MissingKey("steps_completed") else MissingKey("errors"))
    ensures r.Success? ==> r.value.steps == steps.value + [name]
    ensures r.Success? && answer.Reply? ==> r.value.text == answer.text && r.value.errors.None?
    ensures r.Success? && answer.Raised? ==>
      r.value.text == "Error: " + answer.msg && r.value.errors == Some(errors.value + [lead + answer.msg])
  {
    if steps.None? then Failure(MissingKey("steps_completed"))
    else
      match answer
      case Reply(text) => Success(Contribution(text, steps.value + [name], None))
      case Raised(msg) =>
        if errors.None? then Failure(MissingKey("errors"))
        else Success(Contribution("Error: " + msg, steps.value + [name], Some(errors.value + [lead + msg])))
  }

  /** `log_analyzer_agent`: `state["log_content"]` must exist. The update holds the
      analysis (or "Error: ..."), the steps with "log_analyzer" added, and, only after
      an exception, the errors with "Log Analyzer: ..." added. */
  function LogAnalyzerAgent(s: State, call: Prompt -> LlmOutcome): (r: Result<State, Fault>)
    ensures s.logContent.None? ==> r == Failure(MissingKey("log_content"))
    ensures s.logContent.Some? ==>
      var answer := call(LogPrompt(s.logContent.value));
      && (r.Failure? <==> s.stepsCompleted.None? || (answer.Raised? && s.errors.None?))
      && (r.Success? ==>
            && r.value.(logAnalysis := None, stepsCompleted := None, errors := None) == Blank
            && r.value.stepsCompleted == Some(s.stepsCompleted.value + ["log_analyzer"])
            && (answer.Reply? ==> r.value.logAnalysis == Some(Some(answer.text)) && r.value.errors.None?)
            && (answer.Raised? ==>
                  && r.value.logAnalysis == Some(Some("Error: " + answer.msg))
                  && r.value.errors == Some(s.errors.value + ["Log Analyzer: " + answer.msg])))
  {
    match s.logContent
    case None => Failure(MissingKey("log_content"))
    case Some(log) =>
      match Contribute(s.stepsCompleted, s.errors, "log_analyzer", "Log Analyzer: ", call(LogPrompt(log)))
      case Failure(f) => Failure(f)
      case Success(c) => Success(Blank.(logAnalysis := Some(Some(c.text)), stepsCompleted := Some(c.steps), errors := c.errors))
  }

  /** `root_cause_investigator_agent`: the analysis so far (default "") and
      `state["log_content"]`, which must exist, fill the prompt. The update holds the
      root cause (or "Error: ..."), the steps with "root_cause_investigator" added, and,
      only after an exception, the errors with "Root Cause Investigator: ..." added. */
  function RootCauseInvestigatorAgent(s: State, call: Prompt -> LlmOutcome): (r: Result<State, Fault>)
    ensures s.logContent.None? ==> r == Failure(MissingKey("log_content"))
    ensures s.logContent.Some? ==>
      var answer := call(RootCausePrompt(Field(s.logAnalysis), s.logContent.value));
      && (r.Failure? <==> s.stepsCompleted.None? || (answer.Raised? && s.errors.None?))
      && (r.Success? ==>
            && r.value.(rootCause := None, stepsCompleted := None, errors := None) == Blank
            && r.value.stepsCompleted == Some(s.stepsCompleted.value + ["root_cause_investigator"])
            && (answer.Reply? ==> r.value.rootCause == Some(Some(answer.text)) && r.value.errors.None?)
            && (answer.Raised? ==>
                  && r.value.rootCause == Some(Some("Error: " + answer.msg))
                  && r.value.errors == Some(s.errors.value + ["Root Cause Investigator: " + answer.msg])))
  {
    match s.logContent
    case None => Failure(MissingKey("log_content"))
    case Some(log) =>
      var answer := call(RootCausePrompt(Field(s.logAnalysis), log));
      match Contribute(s.stepsCompleted, s.errors, "root_cause_investigator", "Root Cause Investigator: ", answer)
      case Failure(f) => Failure(f)
      case Success(c) => Success(Blank.(rootCause := Some(Some(c.text)), stepsCompleted := Some(c.steps), errors := c.errors))
  }

  /** `solution_recommender_agent`: the root cause and the analysis (each default "")
      fill the prompt; the log is not read. The update holds the solution (or
      "Error: ..."), the steps with "solution_recommender" added, and, only after an
      exception, the errors with "Solution Recommender: ..." added. */
  function SolutionRecommenderAgent(s: State, call: Prompt -> LlmOutcome): (r: Result<State, Fault>)
    ensures var answer := call(SolutionPrompt(Field(s.rootCause), Field(s.logAnalysis)));
      && (r.Failure? <==> s.stepsCompleted.None? || (answer.Raised? && s.errors.None?))
      && (r.Success? ==>
            && r.value.(solution := None, stepsCompleted := None, errors := None) == Blank
            && r.value.stepsCompleted == Some(s.stepsCompleted.value + ["solution_recommender"])
            && (answer.Reply? ==> r.value.solution == Some(Some(answer.text)) && r.value.errors.None?)
            && (answer.Raised? ==>
                  && r.value.solution == Some(Some("Error: " + answer.msg))
                  && r.value.errors == Some(s.errors.value + ["Solution Recommender: " + answer.msg])))
  {
    var answer := call(SolutionPrompt(Field(s.rootCause), Field(s.logAnalysis)));
    match Contribute(s.stepsCompleted, s.errors, "solution_recommender", "Solution Recommender: ", answer)
    case Failure(f) => Failure(f)
    case Success(c) => Success(Blank.(solution := Some(Some(c.text)), stepsCompleted := Some(c.steps), errors := c.errors))
  }

  /** The state the driver starts the team from. */
  predicate Ready(s: State) {
    s.logContent.Some? && s.stepsCompleted.Some? && s.errors.Some?
  }

  /** From a ready state no specialist raises, whatever the model does: every
      exception of the call is caught, and the success update leaves the errors alone. */
  lemma SpecialistsNeverRaise(s: State, call: Prompt -> LlmOutcome)
    requires Ready(s)
    ensures LogAnalyzerAgent(s, call).Success?
    ensures RootCauseInvestigatorAgent(s, call).Success?
    ensures SolutionRecommenderAgent(s, call).Success?
    ensures call(LogPrompt(s.logContent.value)).Reply? ==>
      Merge(s, LogAnalyzerAgent(s, call).value).errors == s.errors
  {
  }

  /** The state the incident driver starts from: the three results present as `None`,
      empty steps and errors. */
  function InitState(log: string): State {
    State(Some(log), Some(""), Some(None), Some(None), Some(None), Some(""), Some([]), Some([]))
  }

  /** From the driver's state, a specialist that runs before the result it reads exists
      sees the text "None" in its prompt, not "" (the key is present, its value is
      `None`); and the first specialist leaves exactly its own name in the steps. */
  lemma InitPromptsReadNone(log: string, call: Prompt -> LlmOutcome)
    ensures Ready(InitState(log))
    ensures RootCauseInvestigatorAgent(InitState(log), call).Success?
    ensures call(RootCausePrompt("None", log)).Reply? ==>
      RootCauseInvestigatorAgent(InitState(log), call).value.rootCause == Some(Some(call(RootCausePrompt("None", log)).text))
    ensures SolutionRecommenderAgent(InitState(log), call).Success?
    ensures call(SolutionPrompt("None", "None")).Raised? ==>
      SolutionRecommenderAgent(InitState(log), call).value.errors ==
        Some(["Solution Recommender: " + call(SolutionPrompt("None", "None")).msg])
    ensures LogAnalyzerAgent(InitState(log), call).value.stepsCompleted == Some(["log_analyzer"])
  {
    var s := InitState(log);
    SpecialistsNeverRaise(s, call);
    assert Field(s.logAnalysis) == "None" && Field(s.rootCause) == "None";
    assert [] + ["log_analyzer"] == ["log_analyzer"];
    if call(SolutionPrompt("None", "None")).Raised? {
      var e := "Solution Recommender: " + call(SolutionPrompt("None", "None")).msg;
      assert [] + [e] == [e];
    }
  }

  /** Two states that agree on the root cause, the analysis, the steps and the errors
      get the same recommendation: the log, the report and the routing are not read. */
  lemma SolutionReadsOnlyResults(s: State, t: State, call: Prompt -> LlmOutcome)
    requires s.rootCause == t.rootCause && s.logAnalysis == t.logAnalysis
    requires s.stepsCompleted == t.stepsCompleted && s.errors == t.errors
    ensures SolutionRecommenderAgent(s, call) == SolutionRecommenderAgent(t, call)
  {
  }

  // ---------------------------------------------------------------------------
  // The graph
  // ---------------------------------------------------------------------------

  datatype Node = Router | Analyzer | Investigator | Recommender | Compile

  const Entry: Node := Router

  predicate IsSpecialist(n: Node) {
    n == Analyzer || n == Investigator || n == Recommender
  }

  /** The name a specialist adds to the steps; nothing for the other nodes. */
  function StepEntry(n: Node): (e: seq<string>)
    ensures |e| == if IsSpecialist(n) then 1 else 0
  {
    match n
    case Analyzer => ["log_analyzer"]
    case Investigator => ["root_cause_investigator"]
    case Recommender => ["solution_recommender"]
    case _ => []
  }

  /** The router's label table. */
  const Labels: map<string, Target<Node>> := map[
    "log_analyzer" := To(Analyzer),
    "root_cause_investigator" := To(Investigator),
    "solution_recommender" := To(Recommender),
    "FINISH" := To(Compile)]

  /** The edge table of `build_incident_response_graph`. */
  function Wiring(n: Node): Edge<Node> {
    match n
    case Router => Conditional(Labels)
    case Analyzer => Static(To(Router))
    case Investigator => Static(To(Router))
    case Recommender => Static(To(Router))
    case Compile => Static(End)
  }

  /** The router's labels: the three specialist names lead to the same-named nodes,
      "FINISH" to the compiler, and every other label is a fault. */
  lemma RouterLabels(key: string)
    ensures Route(Wiring(Router), key).Failure? <==>
      key !in {"log_analyzer", "root_cause_investigator", "solution_recommender", "FINISH"}
    ensures key == "log_analyzer" ==> Route(Wiring(Router), key) == Success(To(Analyzer))
    ensures key == "root_cause_investigator" ==> Route(Wiring(Router), key) == Success(To(Investigator))
    ensures key == "solution_recommender" ==> Route(Wiring(Router), key) == Success(To(Recommender))
    ensures key == "FINISH" ==> Route(Wiring(Router), key) == Success(To(Compile))
  {
  }

  /** Who leads where: a specialist only back to the router, the router only to the
      specialists and the compiler, and only the compiler to the end. */
  lemma WiringShape(n: Node)
    ensures IsSpecialist(n) ==> Successors(Wiring(n)) == {To(Router)}
    ensures To(Router) in Successors(Wiring(n)) <==> IsSpecialist(n)
    ensures To(Compile) in Successors(Wiring(n)) <==> n == Router
    ensures End in Successors(Wiring(n)) <==> n == Compile
    ensures forall m :: IsSpecialist(m) ==> (To(m) in Successors(Wiring(n)) <==> n == Router)
  {
    if n == Router {
      LabelTargets();
    }
  }

  /** The router's label map reaches exactly the three specialists and the compiler. */
  lemma LabelTargets()
    ensures Labels.Values == {To(Analyzer), To(Investigator), To(Recommender), To(Compile)}
  {
    assert Labels["log_analyzer"] == To(Analyzer);
    assert Labels["root_cause_investigator"] == To(Investigator);
    assert Labels["solution_recommender"] == To(Recommender);
    assert Labels["FINISH"] == To(Compile);
    forall v | v in Labels.Values ensures v in {To(Analyzer), To(Investigator), To(Recommender), To(Compile)} {
      var k :| k in Labels && Labels[k] == v;
    }
  }

  /** On every path, specialists never hand over to each other: each one is entered
      straight from the router, and the router (after the first node) straight from a
      specialist; the compiler is entered straight from the router. */
  lemma HubPath(p: seq<Node>)
    requires IsPath(Wiring, p)
    ensures forall i :: 0 < i < |p| && (IsSpecialist(p[i]) || p[i] == Compile) ==> p[i - 1] == Router
    ensures forall i :: 0 < i < |p| && p[i] == Router ==> IsSpecialist(p[i - 1])
  {
    forall i | 0 < i < |p| ensures (IsSpecialist(p[i]) || p[i] == Compile) ==> p[i - 1] == Router
                             ensures p[i] == Router ==> IsSpecialist(p[i - 1]) {
      WiringShape(p[i - 1]);
    }
  }

  /** Every run from the router, whatever the nodes do, has the hub shape, and a run
      that halts ends with the compiler, entered from the router on "FINISH". */
  lemma RunShape<S>(exec: (Node, S) -> Result<Out<S>, Fault>, s: S, fuel: nat)
    ensures var t := Run(Wiring, exec, Entry, s, fuel).trace;
      && (fuel > 0 ==> t[0] == Router)
      && (forall i :: 0 < i < |t| && (IsSpecialist(t[i]) || t[i] == Compile) ==> t[i - 1] == Router)
      && (forall i :: 0 < i < |t| && t[i] == Router ==> IsSpecialist(t[i - 1]))
    ensures var r := Run(Wiring, exec, Entry, s, fuel);
      r.Halted? ==> r.trace[|r.trace| - 1] == Compile
  {
    var r := Run(Wiring, exec, Entry, s, fuel);
    RunFollowsWiring(Wiring, exec, Entry, s, fuel);
    HubPath(r.trace);
    if r.Halted? {
      WiringShape(r.trace[|r.trace| - 1]);
    }
  }

  /** One node acting on the state. The router's update, its routing function and the
      compiler's update are the supervisor's. */
  function Step(call: Prompt -> LlmOutcome, router: State -> Result<State, Fault>,
                routeNext: State -> string, compile: State -> Result<State, Fault>,
                n: Node, s: State): Result<Out<State>, Fault>
  {
    var update := match n
      case Router => router(s)
      case Analyzer => LogAnalyzerAgent(s, call)
      case Investigator => RootCauseInvestigatorAgent(s, call)
      case Recommender => SolutionRecommenderAgent(s, call)
      case Compile => compile(s);
    match update
    case Failure(f) => Failure(f)
    case Success(u) =>
      var t := Merge(s, u);
      Success(Out(t, if n == Router then routeNext(t) else ""))
  }

  /** Whatever the supervisor decides, as long as it does not write the steps itself:
      a run from a ready state ends with the steps extended by the names of the
      specialists it entered, in the order it entered them, one per visit. */
  lemma StepsRecordVisits(call: Prompt -> LlmOutcome, router: State -> Result<State, Fault>,
                          routeNext: State -> string, compile: State -> Result<State, Fault>,
                          s: State, fuel: nat)
    requires Ready(s)
    requires forall t :: router(t).Success? ==> router(t).value.stepsCompleted.None?
    requires forall t :: compile(t).Success? ==> compile(t).value.stepsCompleted.None?
    ensures var exec := (n, t) => Step(call, router, routeNext, compile, n, t);
      var r := Run(Wiring, exec, Entry, s, fuel);
      r.state.stepsCompleted == Some(s.stepsCompleted.value + Records(r.trace, StepEntry))
  {
    var exec := (n, t) => Step(call, router, routeNext, compile, n, t);
    var inv := (t: State) => Ready(t);
    var log := (t: State) => t.stepsCompleted.GetOr([]);
    forall n, t | inv(t) && exec(n, t).Success?
      ensures inv(exec(n, t).value.state) && log(exec(n, t).value.state) == log(t) + StepEntry(n)
    {
      StepKeepsReady(call, router, routeNext, compile, n, t);
    }
    forall n, t | inv(t) && exec(n, t).Failure? ensures StepEntry(n) == [] {
      SpecialistsNeverRaise(t, call);
    }
    RunRecords(Wiring, exec, inv, log, StepEntry, Entry, s, fuel);
  }

  /** One step from a ready state keeps it ready and adds exactly the node's entry to
      the steps. */
  lemma StepKeepsReady(call: Prompt -> LlmOutcome, router: State -> Result<State, Fault>,
                       routeNext: State -> string, compile: State -> Result<State, Fault>,
                       n: Node, t: State)
    requires Ready(t)
    requires router(t).Success? ==> router(t).value.stepsCompleted.None?
    requires compile(t).Success? ==> compile(t).value.stepsCompleted.None?
    requires Step(call, router, routeNext, compile, n, t).Success?
    ensures var t' := Step(call, router, routeNext, compile, n, t).value.state;
      Ready(t') && t'.stepsCompleted.value == t.stepsCompleted.value + StepEntry(n)
  {
  }
}

=== FILE: json.dfy ===
/** JSON values as `json.loads` produces them, with Python's truthiness and `str()`.
    Decoding itself is not modelled here: every node receives the decoder as an
    oracle. Floating-point numbers are not modelled. */
module Json {
  import opened PyStr

  datatype Json =
    | JNull
    | JBool(b: bool)
    | JInt(i: int)
    | JStr(s: string)
    | JList(items: seq<Json>)
    | JObject(fields: map<string, Json>)

  /** Python's `bool(v)`: `None`, `False`, `0`, and empty strings, lists and dicts are false. */
  predicate Truthy(j: Json) {
    match j
    case JNull => false
    case JBool(b) => b
    case JInt(i) => i != 0
    case JStr(s) => |s| > 0
    case JList(items) => |items| > 0
    case JObject(fields) => |fields| > 0
  }

  /** `{}`. */
  const EmptyObject: Json := JObject(map[])

  /** `{"error": msg}`, the fallback objects the analyzers store. */
  function ErrorObject(msg: string): Json {
    JObject(map["error" := JStr(msg)])
  }

  /** Python's `str(v)` for scalars; lists and dicts get a fixed stand-in rendering. */
  function Show(j: Json): string {
    match j
    case JNull => "None"
    case JBool(b) => if b then "True" else "False"
    case JInt(i) => IntToString(i)
    case JStr(s) => s
    case JList(_) => "[...]"
    case JObject(_) => "{...}"
  }

  /** `d.get(key, default)` on a JSON object. */
  function Get(fields: map<string, Json>, key: string, default: Json): Json {
    if key in fields then fields[key] else default
  }
}

=== FILE: log_analysis.dfy ===
/** What the three log-analyzer graphs (src/graph/log_analyzer, log_analyzer_rag and
    log_analyzer_memory) share, written once: the user turn of the prompt template,
    the result mapping of `analyze_log`, and the errors guard and the three reads of
    `save_outputs`. The three node files hold textually identical copies of these. */
module LogAnalysis {
  import opened Wrappers
  import opened Json
  import opened Workflow
  import opened ResponseSplit

  /** The user turn of the prompt template: a literal backslash-n pair twice (the
      template string writes `\\n`), then the text. */
  const UserLead: string := "Analyze this log:\\n\\n"

  function UserTurn(content: string): (turn: string)
    ensures UserLead <= turn && turn[|UserLead|..] == content
  {
    UserLead + content
  }

  /** The lead of the one error entry an exception leaves. */
  const LlmErrorLead: string := "LLM error: "

  /** The four keys `analyze_log` returns. */
  datatype Analysis = Analysis(text: string, json: Json, summary: string, errors: seq<string>)

  /** `analyze_log`'s result for one model call: the three parts of the reply and no
      error, or empty parts and exactly one "LLM error: ..." entry when the call raised.
      A JSON block that does not parse is no error: it only becomes the fallback object. */
  function AnalysisOf(answer: LlmOutcome, parse: string -> Option<Json>): (a: Analysis)
    ensures a.errors == [] <==> answer.Reply?
    ensures answer.Reply? ==>
      Report(a.text, a.json, a.summary) == SplitResponse(answer.text, parse)
    ensures answer.Raised? ==>
      a == Analysis("", EmptyObject, "", [LlmErrorLead + answer.msg])
  {
    match answer
    case Reply(text) =>
      var rep := SplitResponse(text, parse);
      Analysis(rep.text, rep.json, rep.summary, [])
    case Raised(msg) => Analysis("", EmptyObject, "", [LlmErrorLead + msg])
  }

  /** The three files `save_outputs` writes: the text report, the JSON report and the
      executive summary. */
  datatype Files = Files(text: string, json: Json, summary: string)

  /** `state.get("errors")` is truthy. */
  predicate Blocked(errors: Option<seq<string>>) {
    errors.Some? && |errors.value| > 0
  }

  /** The guard and the reads of `save_outputs`: with errors, nothing is written;
      otherwise `state[...]` reads the three outputs in turn, and the first absent one
      raises. */
  function SaveFiles(errors: Option<seq<string>>, text: Option<string>, json: Option<Json>,
                     summary: Option<string>)
    : (r: Result<Option<Files>, Fault>)
    ensures r == Success(None) <==> Blocked(errors)
    ensures r.Success? && r.value.Some? <==> !Blocked(errors) && text.Some? && json.Some? && summary.Some?
    ensures r.Success? && r.value.Some? ==> r.value.value == Files(text.value, json.value, summary.value)
    ensures r.Failure? ==>
      || (text.None? && r.error == MissingKey("analysis_text"))
      || (text.Some? && json.None? && r.error == MissingKey("analysis_json"))
      || (text.Some? && json.Some? && summary.None? && r.error == MissingKey("executive_summary"))
  {
    if Blocked(errors) then Success(None)
    else if text.None? then Failure(MissingKey("analysis_text"))
    else if json.None? then Failure(MissingKey("analysis_json"))
    else if summary.None? then Failure(MissingKey("executive_summary"))
    else Success(Some(Files(text.value, json.value, summary.value)))
  }

  /** Saving right after an analysis: the files are written exactly when the model
      answered, and they hold the three parts of the answer; after an exception
      nothing is written. */
  lemma SaveSeesAnalysis(answer: LlmOutcome, parse: string -> Option<Json>)
    ensures var a := AnalysisOf(answer, parse);
      var r := SaveFiles(Some(a.errors), Some(a.text), Some(a.json), Some(a.summary));
      && r.Success?
      && (r.value.Some? <==> answer.Reply?)
      && (answer.Reply? ==>
            var rep := SplitResponse(answer.text, parse);
            r.value.value == Files(rep.text, rep.json, rep.summary))
  {
  }
}

=== FILE: log_analyzer.dfy ===
/** The plain log-analysis pipeline (src/graph/log_analyzer/nodes.py and graph.py):
    read a log, have the model analyze it, and write the three parts of the answer to
    files unless the analysis recorded an error. The log file's text, the model call
    and the JSON decoder are parameters; the files written are collected in a world
    next to the state. */
module LogAnalyzer {
  import opened Wrappers
  import opened Json
  import opened Workflow
  import opened ResponseSplit
  import opened LogAnalysis

  /** `LogAnalyzerState`: every key may be absent. */
  datatype State = State(
    logContent: Option<string>,
    analysisText: Option<string>,
    analysisJson: Option<Json>,
    executiveSummary: Option<string>,
    errors: Option<seq<string>>)

  /** `{}`: the empty update. */
  const Blank: State := State(None, None, None, None, None)

  /** The runtime's shallow merge: every key the update holds overwrites the state's. */
  function Merge(s: State, u: State): State {
    State(
      s.logContent.Overwrite(u.logContent),
      s.analysisText.Overwrite(u.analysisText),
      s.analysisJson.Overwrite(u.analysisJson),
      s.executiveSummary.Overwrite(u.executiveSummary),
      s.errors.Overwrite(u.errors))
  }

  /** `read_log`, with the picked file's text as a parameter: the update holds only
      the log. */
  function ReadLog(text: string): (u: State)
    ensures u.logContent == Some(text) && u.(logContent := None) == Blank
  {
    Blank.(logContent := Some(text))
  }

  /** An analysis as the update `analyze_log` returns: exactly the four output keys. */
  function AnalysisUpdate(a: Analysis): (u: State)
    ensures u.logContent.None?
    ensures u.analysisText == Some(a.text) && u.analysisJson == Some(a.json)
    ensures u.executiveSummary == Some(a.summary) && u.errors == Some(a.errors)
  {
    State(None, Some(a.text), Some(a.json), Some(a.summary), Some(a.errors))
  }

  /** `analyze_log`: `state["log_content"]` is read inside the `try`, and a `KeyError`
      is an `Exception` too, so an absent log also ends in the "LLM error" branch, with
      the message `str(KeyError('log_content'))`. The model sees the log in the
      template's user turn. */
  function AnalyzeLog(s: State, call: string -> LlmOutcome, parse: string -> Option<Json>): (u: State)
    ensures s.logContent.Some? ==> u == AnalysisUpdate(AnalysisOf(call(UserTurn(s.logContent.value)), parse))
    ensures s.logContent.None? ==>
      u == AnalysisUpdate(AnalysisOf(Raised("'log_content'"), parse))
  {
    match s.logContent
    case Some(log) => AnalysisUpdate(AnalysisOf(call(UserTurn(log)), parse))
    case None => AnalysisUpdate(AnalysisOf(Raised("'log_content'"), parse))
  }

  /** `save_outputs`: the update is always `{}`; what matters is what it writes. With
      errors it writes nothing; otherwise it writes the three outputs, raising on the
      first that is absent. */
  function SaveOutputs(s: State): (r: Result<Option<Files>, Fault>)
    ensures r == Success(None) <==> Blocked(s.errors)
    ensures r.Failure? ==> r.error.MissingKey?
    ensures r.Success? && r.value.Some? ==>
      && s.analysisText.Some? && s.analysisJson.Some? && s.executiveSummary.Some?
      && r.value.value == Files(s.analysisText.value, s.analysisJson.value, s.executiveSummary.value)
    ensures !Blocked(s.errors) && s.analysisText.Some? && s.analysisJson.Some? && s.executiveSummary.Some?
      ==> r.Success? && r.value.Some?
  {
    SaveFiles(s.errors, s.analysisText, s.analysisJson, s.executiveSummary)
  }

  // ---------------------------------------------------------------------------
  // The graph
  // ---------------------------------------------------------------------------

  datatype Node = Read | Analyze | Save

  const Entry: Node := Read

  /** The edge table of `build_graph`: read, analyze, save, end. */
  function Wiring(n: Node): Edge<Node> {
    match n
    case Read => Static(To(Analyze))
    case Analyze => Static(To(Save))
    case Save => Static(End)
  }

  const Order: seq<Node> := [Read, Analyze, Save]

  /** The state and the files written so far. */
  datatype World = World(state: State, written: seq<Files>)

  /** One node of the pipeline acting on the world. */
  function Step(log: string, call: string -> LlmOutcome, parse: string -> Option<Json>,
                n: Node, w: World): Result<Out<World>, Fault>
  {
    match n
    case Read => Success(Out(w.(state := Merge(w.state, ReadLog(log))), ""))
    case Analyze => Success(Out(w.(state := Merge(w.state, AnalyzeLog(w.state, call, parse))), ""))
    case Save =>
      match SaveOutputs(w.state)
      case Failure(f) => Failure(f)
      case Success(None) => Success(Out(w, ""))
      case Success(Some(files)) => Success(Out(w.(written := w.written + [files]), ""))
  }

  /** Every run, whatever the nodes do, enters read, analyze and save in that order and
      nothing else, halts only after save, and pauses only short of three steps. */
  lemma RunOrder<S>(exec: (Node, S) -> Result<Out<S>, Fault>, s: S, fuel: nat)
    ensures var r := Run(Wiring, exec, Entry, s, fuel);
      && r.trace <= Order
      && (r.Halted? ==> r.trace == Order)
      && (r.Paused? ==> fuel < |Order|)
  {
    assert IsChain(Wiring, Order);
    ChainRun(Wiring, exec, Order, 0, s, fuel);
  }

  /** The whole pipeline on a log: it halts after the three nodes; when the model
      answers, exactly one set of files is written and it holds the three parts of the
      answer; when the model raises, nothing is written and the state keeps exactly one
      "LLM error" entry. */
  lemma Pipeline(log: string, call: string -> LlmOutcome, parse: string -> Option<Json>,
                 s: State, fuel: nat)
    requires fuel >= |Order|
    ensures var exec := (n, w) => Step(log, call, parse, n, w);
      var r := Run(Wiring, exec, Entry, World(s, []), fuel);
      var answer := call(UserTurn(log));
      && r.Halted? && r.trace == Order
      && (answer.Reply? ==>
            var rep := SplitResponse(answer.text, parse);
            r.state.written == [Files(rep.text, rep.json, rep.summary)])
      && (answer.Raised? ==>
            r.state.written == [] && r.state.state.errors == Some([LlmErrorLead + answer.msg]))
  {
    var exec := (n, w) => Step(log, call, parse, n, w);
    var w0 := World(s, []);
    var w1 := w0.(state := Merge(s, ReadLog(log)));
    var w2 := w1.(state := Merge(w1.state, AnalyzeLog(w1.state, call, parse)));
    SaveSeesAnalysis(call(UserTurn(log)), parse);
    var w3 := Step(log, call, parse, Save, w2).value.state;
    RunStops(Wiring, exec, Save, w2, fuel - 2);
    RunThrough(Wiring, exec, Analyze, w1, fuel - 1, Out(w2, ""), Save);
    RunThrough(Wiring, exec, Read, w0, fuel, Out(w1, ""), Analyze);
    assert Run(Wiring, exec, Save, w2, fuel - 2) == Halted(w3, [Save]);
  }
}

=== FILE: log_analyzer_memory.dfy ===
/** The memory-aware log-analysis pipeline (src/graph/log_analyzer_memory/nodes.py,
    state.py and graph.py): the retrieval-augmented pipeline with a conversation buffer
    of at most 20 messages and a long-term incident store, both module-level
    singletons threaded through the nodes here as values. The searches, the model
    call, the JSON decoder and the clock are parameters. */
module LogAnalyzerMemory {
  import opened Wrappers
  import opened PyStr
  import opened Json
  import opened Workflow
  import opened Memory
  import opened Retrieval
  import opened ResponseSplit
  import opened LogAnalysis
  import LogAnalyzerRag

  /** `LogAnalyzerState`: every key may be absent. */
  datatype State = State(
    logContent: Option<string>,
    retrievedContext: Option<string>,
    conversationHistory: Option<seq<Message>>,
    pastIncidents: Option<string>,
    analysisText: Option<string>,
    analysisJson: Option<Json>,
    executiveSummary: Option<string>,
    errors: Option<seq<string>>)

  /** `{}`: the empty update. */
  const Blank: State := State(None, None, None, None, None, None, None, None)

  /** The runtime's shallow merge: every key the update holds overwrites the state's. */
  function Merge(s: State, u: State): State {
    State(
      s.logContent.Overwrite(u.logContent),
      s.retrievedContext.Overwrite(u.retrievedContext),
      s.conversationHistory.Overwrite(u.conversationHistory),
      s.pastIncidents.Overwrite(u.pastIncidents),
      s.analysisText.Overwrite(u.analysisText),
      s.analysisJson.Overwrite(u.analysisJson),
      s.executiveSummary.Overwrite(u.executiveSummary),
      s.errors.Overwrite(u.errors))
  }

  /** The cap of the conversation buffer and the store's collection name. */
  const ConversationCap: int := 20
  const CollectionName: string := "log_analyzer_memory"

  /** The two singletons as the module creates them. */
  const InitConversation: ConversationMemory := NewConversationMemory(ConversationCap)
  const InitStore: PersistentMemory := PersistentMemory(CollectionName, [])

  /** `read_log`, with the picked file's text as a parameter. */
  function ReadLog(text: string): (u: State)
    ensures u.logContent == Some(text) && u.(logContent := None) == Blank
  {
    Blank.(logContent := Some(text))
  }

  // ---------------------------------------------------------------------------
  // load_memories and retrieve_context
  // ---------------------------------------------------------------------------

  /** The long-term query: the lead and the first 300 characters of the log. */
  function IncidentQuery(log: string): string {
    Query("past incidents similar to: ", log, 300)
  }

  const IncidentTopK: nat := 2

  /** `load_memories`: `state["log_content"]` must exist; the update holds only the
      conversation buffer's messages and the formatted past incidents, empty exactly
      when the long-term search for the log's preview found nothing. */
  function LoadMemories(s: State, conv: ConversationMemory, recall: LogAnalyzerRag.Search)
    : (r: Result<State, Fault>)
    ensures r.Failure? <==> s.logContent.None?
    ensures r.Failure? ==> r.error == MissingKey("log_content")
    ensures r.Success? ==>
      && r.value.(conversationHistory := None, pastIncidents := None) == Blank
      && r.value.conversationHistory == Some(GetHistory(conv))
      && r.value.pastIncidents.Some?
      && (r.value.pastIncidents.value == "" <==> |recall(IncidentQuery(s.logContent.value))(IncidentTopK)| == 0)
  {
    match s.logContent
    case None => Failure(MissingKey("log_content"))
    case Some(log) =>
      var past := PersistentContext(recall(IncidentQuery(log))(IncidentTopK));
      Success(Blank.(conversationHistory := Some(GetHistory(conv)), pastIncidents := Some(past)))
  }

  /** `retrieve_context`: the same node as in the retrieval-augmented pipeline. */
  function RetrieveContext(s: State, search: LogAnalyzerRag.Search): (r: Result<State, Fault>)
    ensures s.logContent.None? ==> r == Failure(MissingKey("log_content"))
    ensures s.logContent.Some? ==>
      var g := LogAnalyzerRag.Guides(s.logContent.value, search);
      && (r.Success? <==> g.Success?)
      && (r.Failure? ==> r.error == g.error)
      && (r.Success? ==> r.value == Blank.(retrievedContext := Some(g.value)))
  {
    match s.logContent
    case None => Failure(MissingKey("log_content"))
    case Some(log) =>
      match LogAnalyzerRag.Guides(log, search)
      case Failure(f) => Failure(f)
      case Success(ctx) => Success(Blank.(retrievedContext := Some(ctx)))
  }

  // ---------------------------------------------------------------------------
  // analyze_log
  // ---------------------------------------------------------------------------

  const FirstAnalysis: string := "First analysis"
  const NoPastIncidents: string := "No past incidents yet"
  const LogSectionHeader: string := "Now analyze this log:\n"

  /** The four sections of the prompt, in order: conversation, guides, past incidents,
      log. Absent keys read as empty. */
  function PromptSections(log: string, s: State): (ps: seq<string>)
    ensures |ps| == 4
  {
    [ "Context from our conversation:\n"
        + OrPlaceholder(ConversationContext(s.conversationHistory.GetOr([])), FirstAnalysis),
      "Troubleshooting guides:\n" + s.retrievedContext.GetOr(""),
      "Past similar incidents:\n" + OrPlaceholder(s.pastIncidents.GetOr(""), NoPastIncidents),
      LogSectionHeader + log ]
  }

  /** The message of `analyze_log`: the sections separated by rules. */
  function AnalysisPrompt(log: string, s: State): string {
    Join(SectionBreak, PromptSections(log, s))
  }

  /** The layout of the prompt: it opens with the conversation section, closes with the
      log, and holds the guides and past-incidents sections. */
  lemma PromptLayout(log: string, s: State)
    ensures var p := AnalysisPrompt(log, s); var ps := PromptSections(log, s);
      && ps[0] <= p
      && |LogSectionHeader + log| <= |p| && p[|p| - |LogSectionHeader + log|..] == LogSectionHeader + log
      && (exists k: nat :: IsAt(p, ps[1], k))
      && (exists k: nat :: IsAt(p, ps[2], k))
  {
    var ps := PromptSections(log, s);
    assert ps[3] == LogSectionHeader + log;
    FourSections(SectionBreak, ps);
  }

  /** The placeholders: "First analysis" stands for the conversation exactly when there
      is no history, and "No past incidents yet" replaces empty past incidents. */
  lemma PromptPlaceholders(s: State)
    ensures OrPlaceholder(ConversationContext(s.conversationHistory.GetOr([])), FirstAnalysis) == FirstAnalysis
      <==> |s.conversationHistory.GetOr([])| == 0
    ensures s.pastIncidents.GetOr("") == "" ==> OrPlaceholder(s.pastIncidents.GetOr(""), NoPastIncidents) == NoPastIncidents
    ensures s.pastIncidents.GetOr("") != "" ==> OrPlaceholder(s.pastIncidents.GetOr(""), NoPastIncidents) == s.pastIncidents.value
  {
    assert FirstAnalysis[|FirstAnalysis| - 3..] == "sis";
    ConversationSection(s.conversationHistory.GetOr([]), FirstAnalysis);
  }

  /** After read, load_memory and retrieve, the prompt is built from the buffer's
      messages, the past incidents found for the log and the guides found for it,
      whatever the state held before. */
  lemma PromptSeesMemories(s: State, log: string, conv: ConversationMemory,
                           recall: LogAnalyzerRag.Search, search: LogAnalyzerRag.Search)
    requires LogAnalyzerRag.Guides(log, search).Success?
    ensures var s1 := Merge(s, ReadLog(log));
      var s2 := Merge(s1, LoadMemories(s1, conv, recall).value);
      var s3 := Merge(s2, RetrieveContext(s2, search).value);
      && s3.logContent == Some(log)
      && s3.conversationHistory == Some(GetHistory(conv))
      && s3.pastIncidents == Some(PersistentContext(recall(IncidentQuery(log))(IncidentTopK)))
      && s3.retrievedContext == Some(LogAnalyzerRag.Guides(log, search).value)
  {
  }

  /** The two messages a successful analysis leaves in the conversation buffer. */
  function RequestNote(log: string): string {
    "Analyze log: " + Prefix(log, 100) + "..."
  }

  function ResultNote(textLength: nat): string {
    "Analyzed log with " + NatToString(textLength) + " chars"
  }

  /** An analysis as the update `analyze_log` returns: exactly the four output keys. */
  function AnalysisUpdate(a: Analysis): (u: State)
    ensures u.(analysisText := None, analysisJson := None, executiveSummary := None, errors := None) == Blank
    ensures u.analysisText == Some(a.text) && u.analysisJson == Some(a.json)
    ensures u.executiveSummary == Some(a.summary) && u.errors == Some(a.errors)
  {
    Blank.(analysisText := Some(a.text), analysisJson := Some(a.json),
           executiveSummary := Some(a.summary), errors := Some(a.errors))
  }

  /** `analyze_log`: `state["log_content"]` is read before the `try` and must exist.
      The update is the shared analysis of the model's answer to the four-section
      prompt. Only an answer writes to the conversation buffer: the request, then the
      length of the text report, each stamped by the clock. */
  function AnalyzeLog(s: State, conv: ConversationMemory, call: string -> LlmOutcome,
                      parse: string -> Option<Json>, t1: string, t2: string)
    : (r: Result<(State, ConversationMemory), Fault>)
    ensures r.Failure? <==> s.logContent.None?
    ensures r.Failure? ==> r.error == MissingKey("log_content")
    ensures r.Success? ==>
      var answer := call(UserTurn(AnalysisPrompt(s.logContent.value, s)));
      var a := AnalysisOf(answer, parse);
      && r.value.0 == AnalysisUpdate(a)
      && (answer.Raised? ==> r.value.1 == conv)
      && (answer.Reply? ==>
            r.value.1 == AddAll(conv, [Message("user", RequestNote(s.logContent.value), t1),
                                       Message("agent", ResultNote(|a.text|), t2)]))
  {
    match s.logContent
    case None => Failure(MissingKey("log_content"))
    case Some(log) =>
      var answer := call(UserTurn(AnalysisPrompt(log, s)));
      var a := AnalysisOf(answer, parse);
      if answer.Raised? then Success((AnalysisUpdate(a), conv))
      else
        var msgs := [Message("user", RequestNote(log), t1), Message("agent", ResultNote(|a.text|), t2)];
        Success((AnalysisUpdate(a), AddAll(conv, msgs)))
  }

  /** An answered analysis leaves the buffer holding its newest messages with the
      request and the report length as the last two; an exception leaves the buffer as
      it was. */
  lemma AnalysisMemory(s: State, conv: ConversationMemory, call: string -> LlmOutcome,
                       parse: string -> Option<Json>, t1: string, t2: string)
    requires conv.maxMessages >= 2 && |conv.messages| <= conv.maxMessages
    requires s.logContent.Some?
    ensures var (u, conv') := AnalyzeLog(s, conv, call, parse, t1, t2).value;
      && conv'.maxMessages == conv.maxMessages
      && |conv'.messages| <= conv.maxMessages
      && (u.errors.value != [] ==> conv' == conv)
      && (u.errors.value == [] ==>
            && |conv'.messages| == (if |conv.messages| + 2 <= conv.maxMessages then |conv.messages| + 2 else conv.maxMessages)
            && conv'.messages[|conv'.messages| - 2] == Message("user", RequestNote(s.logContent.value), t1)
            && conv'.messages[|conv'.messages| - 1] == Message("agent", ResultNote(|u.analysisText.value|), t2))
  {
    var (u, conv') := AnalyzeLog(s, conv, call, parse, t1, t2).value;
    if u.errors.value == [] {
      AddPairKeepsNewest(conv, Message("user", RequestNote(s.logContent.value), t1),
                         Message("agent", ResultNote(|u.analysisText.value|), t2));
    }
  }

  // ---------------------------------------------------------------------------
  // save_outputs
  // ---------------------------------------------------------------------------

  /** `', '.join(v[:n])` needs the first `n` entries as strings: a list gives its first
      `n` items, which must be strings; a string gives its first `n` characters; any
      other value cannot be sliced and joined. */
  function Listed(v: Json, n: nat): (r: Option<seq<string>>)
    ensures r.Some? ==> |r.value| <= n
    ensures v.JList? ==>
      var m := if |v.items| < n then |v.items| else n;
      && (r.Some? <==> forall i :: 0 <= i < m ==> v.items[i].JStr?)
      && (r.Some? ==> |r.value| == m && forall i :: 0 <= i < m ==> r.value[i] == v.items[i].s)
    ensures v.JStr? ==> r.Some? && r.value == seq(|Prefix(v.s, n)|, i requires 0 <= i < |Prefix(v.s, n)| => [v.s[i]])
    ensures !v.JList? && !v.JStr? ==> r.None?
  {
    match v
    case JList(items) =>
      var m := if |items| < n then |items| else n;
      if forall i :: 0 <= i < m ==> items[i].JStr? then
        Some(seq(m, i requires 0 <= i < m && items[i].JStr? => items[i].s))
      else None
    case JStr(s) =>
      var p := Prefix(s, n);
      Some(seq(|p|, i requires 0 <= i < |p| => [s[i]]))
    case _ => None
  }

  /** The text stored in long-term memory: a head with the count, the severity, the
      log preview and the root causes, then the recommendations line. */
  function Interaction(log: string, errorCount: Json, severity: Json, causes: seq<string>,
                       recommendations: seq<string>): string {
    InteractionHead(log, errorCount, severity, causes) + RecommendationLine(recommendations)
  }

  function InteractionHead(log: string, errorCount: Json, severity: Json, causes: seq<string>): string {
    "Analyzed log with " + Show(errorCount) + " errors (severity: " + Show(severity) + ")\n\n"
      + "Log preview: " + Prefix(log, 200) + "\n\n"
      + "Root causes: " + Join(", ", causes) + "\n"
  }

  function RecommendationLine(recommendations: seq<string>): string {
    "Recommendations: " + Join(", ", recommendations)
  }

  /** The metadata `save_outputs` attaches. */
  function IncidentMetadata(errorCount: Json, severity: Json): map<string, Json> {
    map["agent" := JStr("log_analyzer"), "type" := JStr("incident_analysis"),
        "error_count" := errorCount, "severity" := severity]
  }

  /** The long-term half of `save_outputs`: the report must be an object (`.get`), and
      its root causes and recommendations must slice and join; then exactly one
      interaction is stored, whose metadata names the agent and the kind, and carries
      the report's error count (default 0), its severity (default "unknown") and the
      time. */
  function StoreIncident(store: PersistentMemory, log: string, report: Json, now: string)
    : (r: Result<PersistentMemory, Fault>)
    ensures r.Failure? ==> r.error.TypeError?
    ensures r.Success? <==>
      && report.JObject?
      && Listed(Get(report.fields, "root_causes", JList([])), 3).Some?
      && Listed(Get(report.fields, "recommendations", JList([])), 2).Some?
    ensures r.Success? ==>
      && |r.value.records| == |store.records| + 1
      && r.value.records[..|store.records|] == store.records
      && r.value.collectionName == store.collectionName
      && r.value.records[|store.records|].metadata
         == map["agent" := JStr("log_analyzer"), "type" := JStr("incident_analysis"),
                "error_count" := Get(report.fields, "error_count", JInt(0)),
                "severity" := Get(report.fields, "severity", JStr("unknown")),
                "timestamp" := JStr(now)]
      && r.value.records[|store.records|].text
         == Interaction(log, Get(report.fields, "error_count", JInt(0)),
                        Get(report.fields, "severity", JStr("unknown")),
                        Listed(Get(report.fields, "root_causes", JList([])), 3).value,
                        Listed(Get(report.fields, "recommendations", JList([])), 2).value)
  {
    match report
    case JObject(fields) =>
      var errorCount := Get(fields, "error_count", JInt(0));
      var severity := Get(fields, "severity", JStr("unknown"));
      var causes := Listed(Get(fields, "root_causes", JList([])), 3);
      var recs := Listed(Get(fields, "recommendations", JList([])), 2);
      if causes.None? || recs.None? then Failure(TypeError("join"))
      else
        var text := Interaction(log, errorCount, severity, causes.value, recs.value);
        Success(StoreInteraction(store, text, Some(IncidentMetadata(errorCount, severity)), now))
    case _ => Failure(TypeError("get"))
  }

  /** `save_outputs`: with errors, nothing is written and nothing stored; otherwise the
      three files are written and then the incident is stored. */
  function SaveOutputs(s: State, store: PersistentMemory, now: string)
    : (r: Result<(Option<Files>, PersistentMemory), Fault>)
    ensures Blocked(s.errors) <==> r == Success((None, store))
    ensures r.Success? && r.value.0.Some? ==>
      && s.analysisText.Some? && s.analysisJson.Some? && s.executiveSummary.Some?
      && r.value.0.value == Files(s.analysisText.value, s.analysisJson.value, s.executiveSummary.value)
      && Success(r.value.1) == StoreIncident(store, s.logContent.GetOr(""), s.analysisJson.value, now)
    ensures r.Success? ==> r.value.0.Some? || r.value.1 == store
    ensures !Blocked(s.errors) ==>
      (r.Success? <==>
         && s.analysisText.Some? && s.analysisJson.Some? && s.executiveSummary.Some?
         && StoreIncident(store, s.logContent.GetOr(""), s.analysisJson.value, now).Success?)
    ensures !Blocked(s.errors) && r.Success? ==> r.value.0.Some?
    ensures r.Failure? ==>
      || (s.analysisText.None? && r.error == MissingKey("analysis_text"))
      || (s.analysisText.Some? && s.analysisJson.None? && r.error == MissingKey("analysis_json"))
      || (s.analysisText.Some? && s.analysisJson.Some? && s.executiveSummary.None?
          && r.error == MissingKey("executive_summary"))
      || (s.analysisText.Some? && s.analysisJson.Some? && s.executiveSummary.Some?
          && StoreIncident(store, s.logContent.GetOr(""), s.analysisJson.value, now)
             == Failure(r.error))
  {
    match SaveFiles(s.errors, s.analysisText, s.analysisJson, s.executiveSummary)
    case Failure(f) => Failure(f)
    case Success(None) => Success((None, store))
    case Success(Some(files)) =>
      match StoreIncident(store, s.logContent.GetOr(""), s.analysisJson.value, now)
      case Failure(f) => Failure(f)
      case Success(store') => Success((Some(files), store'))
  }

  /** The stored interaction lists at most three root causes and two recommendations,
      and closes with the recommendations line. */
  lemma InteractionLists(log: string, errorCount: Json, severity: Json, fields: map<string, Json>)
    requires Listed(Get(fields, "root_causes", JList([])), 3).Some?
    requires Listed(Get(fields, "recommendations", JList([])), 2).Some?
    ensures var causes := Listed(Get(fields, "root_causes", JList([])), 3).value;
      var recs := Listed(Get(fields, "recommendations", JList([])), 2).value;
      var text := Interaction(log, errorCount, severity, causes, recs);
      var tail := RecommendationLine(recs);
      && |causes| <= 3 && |recs| <= 2
      && |tail| <= |text| && text[|text| - |tail|..] == tail
  {
    var causes := Listed(Get(fields, "root_causes", JList([])), 3).value;
    var recs := Listed(Get(fields, "recommendations", JList([])), 2).value;
    var head := InteractionHead(log, errorCount, severity, causes);
    var tail := RecommendationLine(recs);
    assert (head + tail)[|head|..] == tail;
  }

  // ---------------------------------------------------------------------------
  // The graph
  // ---------------------------------------------------------------------------

  datatype Node = Read | LoadMemory | Retrieve | Analyze | Save

  const Entry: Node := Read

  /** The edge table of `build_graph`: read, load_memory, retrieve, analyze, save, end. */
  function Wiring(n: Node): Edge<Node> {
    match n
    case Read => Static(To(LoadMemory))
    case LoadMemory => Static(To(Retrieve))
    case Retrieve => Static(To(Analyze))
    case Analyze => Static(To(Save))
    case Save => Static(End)
  }

  const Order: seq<Node> := [Read, LoadMemory, Retrieve, Analyze, Save]

  /** Every run, whatever the nodes do, enters the five nodes in order and nothing
      else, each at most once; it halts only after save; and analyze runs only after
      load_memory and retrieve have both finished. */
  lemma RunOrder<S>(exec: (Node, S) -> Result<Out<S>, Fault>, s: S, fuel: nat)
    ensures var r := Run(Wiring, exec, Entry, s, fuel);
      && r.trace <= Order
      && (r.Halted? ==> r.trace == Order)
      && (r.Paused? ==> fuel < |Order|)
      && (Analyze in r.trace ==> |r.trace| >= 4 && r.trace[..3] == [Read, LoadMemory, Retrieve])
  {
    assert IsChain(Wiring, Order);
    ChainRun(Wiring, exec, Order, 0, s, fuel);
    var t := Run(Wiring, exec, Entry, s, fuel).trace;
    if Analyze in t {
      var i :| 0 <= i < |t| && t[i] == Analyze;
      assert Order[i] == Analyze;
      assert t[..3] == Order[..3];
    }
  }
}

=== FILE: log_analyzer_rag.dfy ===
/** The nodes of the retrieval-augmented log-analysis pipeline
    (src/graph/log_analyzer_rag/nodes.py and state.py): before the analysis, the first
    500 characters of the log are sent to the knowledge-base search, and the guides it
    returns are put in front of the log in the prompt. The search, the model call and
    the JSON decoder are parameters. */
module LogAnalyzerRag {
  import opened Wrappers
  import opened PyStr
  import opened Json
  import opened Workflow
  import opened Memory
  import opened Retrieval
  import opened ResponseSplit
  import opened LogAnalysis

  /** `LogAnalyzerState`: every key may be absent. */
  datatype State = State(
    logContent: Option<string>,
    retrievedContext: Option<string>,
    analysisText: Option<string>,
    analysisJson: Option<Json>,
    executiveSummary: Option<string>,
    errors: Option<seq<string>>)

  /** `{}`: the empty update. */
  const Blank: State := State(None, None, None, None, None, None)

  /** The runtime's shallow merge: every key the update holds overwrites the state's. */
  function Merge(s: State, u: State): State {
    State(
      s.logContent.Overwrite(u.logContent),
      s.retrievedContext.Overwrite(u.retrievedContext),
      s.analysisText.Overwrite(u.analysisText),
      s.analysisJson.Overwrite(u.analysisJson),
      s.executiveSummary.Overwrite(u.executiveSummary),
      s.errors.Overwrite(u.errors))
  }

  /** A similarity search: the hits for a query and a `top_k`. */
  type Search = string -> nat -> seq<Hit>

  /** The knowledge-base query: the lead and the first 500 characters of the log. */
  function GuideQuery(log: string): string {
    Query("troubleshooting guide for: ", log, 500)
  }

  const GuideTopK: nat := 3

  /** The guides `retrieve_context` formats for a log: raises when a hit's source is
      not a string, and is empty exactly when the search found nothing. */
  function Guides(log: string, search: Search): (r: Result<string, Fault>)
    ensures var hits := search(GuideQuery(log))(GuideTopK);
      && (r.Success? <==> SourcesReadable(hits))
      && (r.Failure? ==> r.error.TypeError?)
      && (r.Success? ==> (r.value == "" <==> |hits| == 0))
  {
    RetrievedContext(search(GuideQuery(log))(GuideTopK))
  }

  /** `retrieve_context`: `state["log_content"]` must exist; the update holds only the
      formatted guides. */
  function RetrieveContext(s: State, search: Search): (r: Result<State, Fault>)
    ensures s.logContent.None? ==> r == Failure(MissingKey("log_content"))
    ensures s.logContent.Some? ==>
      var g := Guides(s.logContent.value, search);
      && (r.Success? <==> g.Success?)
      && (r.Failure? ==> r.error == g.error)
      && (r.Success? ==> r.value == Blank.(retrievedContext := Some(g.value)))
  {
    match s.logContent
    case None => Failure(MissingKey("log_content"))
    case Some(log) =>
      match Guides(log, search)
      case Failure(f) => Failure(f)
      case Success(ctx) => Success(Blank.(retrievedContext := Some(ctx)))
  }

  /** Two logs that agree on their first 500 characters retrieve the same guides:
      nothing past the preview reaches the search. */
  lemma RetrievalReadsPreview(s: State, t: State, search: Search)
    requires s.logContent.Some? && t.logContent.Some?
    requires |s.logContent.value| >= 500 && |t.logContent.value| >= 500
    requires s.logContent.value[..500] == t.logContent.value[..500]
    ensures RetrieveContext(s, search) == RetrieveContext(t, search)
  {
    QueryReadsPreview("troubleshooting guide for: ", s.logContent.value, t.logContent.value, 500);
  }

  const GuidesHeader: string := "Based on the following troubleshooting guides:\n\n"
  const LogHeader: string := "\n\n---\n\nNow analyze this log:\n\n"

  /** The message of `analyze_log`: the guides header, the guides, a rule, and the
      log, in that order. */
  function RagPrompt(context: string, log: string): (p: string)
    ensures |p| == |GuidesHeader| + |context| + |LogHeader| + |log|
    ensures p[..|GuidesHeader|] == GuidesHeader
    ensures p[|GuidesHeader|..|GuidesHeader| + |context|] == context
    ensures p[|GuidesHeader| + |context|..|p| - |log|] == LogHeader
    ensures p[|p| - |log|..] == log
  {
    GuidesHeader + context + LogHeader + log
  }

  /** Once the length of the guides is known, the prompt gives back both the guides and
      the log. */
  lemma RagPromptRecovers(c1: string, l1: string, c2: string, l2: string)
    requires |c1| == |c2| && RagPrompt(c1, l1) == RagPrompt(c2, l2)
    ensures c1 == c2 && l1 == l2
  {
    var p := RagPrompt(c1, l1);
    assert c1 == p[|GuidesHeader|..|GuidesHeader| + |c1|] == c2;
    assert l1 == p[|p| - |l1|..] == l2;
  }

  /** An analysis as the update `analyze_log` returns: exactly the four output keys. */
  function AnalysisUpdate(a: Analysis): (u: State)
    ensures u.logContent.None? && u.retrievedContext.None?
    ensures u.analysisText == Some(a.text) && u.analysisJson == Some(a.json)
    ensures u.executiveSummary == Some(a.summary) && u.errors == Some(a.errors)
  {
    State(None, None, Some(a.text), Some(a.json), Some(a.summary), Some(a.errors))
  }

  /** `analyze_log`: `state["log_content"]` is read before the `try` and must exist;
      absent guides read as "". The model sees the guides and the log through the
      template's user turn. */
  function AnalyzeLog(s: State, call: string -> LlmOutcome, parse: string -> Option<Json>)
    : (r: Result<State, Fault>)
    ensures r.Failure? <==> s.logContent.None?
    ensures r.Failure? ==> r.error == MissingKey("log_content")
    ensures r.Success? ==>
      var answer := call(UserTurn(RagPrompt(s.retrievedContext.GetOr(""), s.logContent.value)));
      && r.value.(analysisText := None, analysisJson := None, executiveSummary := None, errors := None) == Blank
      && r.value == AnalysisUpdate(AnalysisOf(answer, parse))
  {
    match s.logContent
    case None => Failure(MissingKey("log_content"))
    case Some(log) =>
      Success(AnalysisUpdate(AnalysisOf(call(UserTurn(RagPrompt(s.retrievedContext.GetOr(""), log))), parse)))
  }

  /** `save_outputs`: the errors guard and the three writes, as in the plain pipeline. */
  function SaveOutputs(s: State): (r: Result<Option<Files>, Fault>)
    ensures r == Success(None) <==> Blocked(s.errors)
    ensures r.Failure? ==> r.error.MissingKey?
    ensures r.Success? && r.value.Some? ==>
      && s.analysisText.Some? && s.analysisJson.Some? && s.executiveSummary.Some?
      && r.value.value == Files(s.analysisText.value, s.analysisJson.value, s.executiveSummary.value)
    ensures !Blocked(s.errors) && s.analysisText.Some? && s.analysisJson.Some? && s.executiveSummary.Some?
      ==> r.Success? && r.value.Some?
  {
    SaveFiles(s.errors, s.analysisText, s.analysisJson, s.executiveSummary)
  }

  /** `save_outputs` after `analyze_log`, from any state holding a log: the guard lets
      the files through exactly when the model answered, and they hold the three parts
      of the answer. */
  lemma SaveAfterAnalysis(s: State, call: string -> LlmOutcome, parse: string -> Option<Json>)
    requires s.logContent.Some?
    ensures var t := Merge(s, AnalyzeLog(s, call, parse).value);
      var answer := call(UserTurn(RagPrompt(s.retrievedContext.GetOr(""), s.logContent.value)));
      && SaveOutputs(t).Success?
      && (SaveOutputs(t).value.Some? <==> answer.Reply?)
      && (answer.Reply? ==>
            var rep := SplitResponse(answer.text, parse);
            SaveOutputs(t).value.value == Files(rep.text, rep.json, rep.summary))
  {
    SaveSeesAnalysis(call(UserTurn(RagPrompt(s.retrievedContext.GetOr(""), s.logContent.value))), parse);
  }
}

=== FILE: memory.dfy ===
/** Short-term and long-term agent memory (src/core/memory.py).

    `ConversationMemory` is a bounded recency buffer of messages. `PersistentMemory`
    appends interactions to a similarity-searched store; the search itself belongs to
    the vector store, so retrieval takes the store's hits as input. Timestamps come
    from the clock and are parameters. */
module Memory {
  import opened Wrappers
  import opened PyStr
  import opened Json

  // ---------------------------------------------------------------------------
  // ConversationMemory
  // ---------------------------------------------------------------------------

  /** `max_messages` when the caller gives none. */
  const DefaultMaxMessages: int := 20

  datatype Message = Message(role: string, content: string, timestamp: string)

  datatype ConversationMemory = ConversationMemory(messages: seq<Message>, maxMessages: int)

  /** A fresh buffer: no messages yet. */
  function NewConversationMemory(maxMessages: int): ConversationMemory {
    ConversationMemory([], maxMessages)
  }

  /** The last `min(n, |s|)` elements of `s`, in order. */
  function LastN<T>(n: nat, s: seq<T>): seq<T> {
    if n < |s| then s[|s| - n..] else s
  }

  /** `add_message`: append, then keep `messages[-max_messages:]` when the buffer is over
      its cap. With a positive cap the buffer keeps the newest `max_messages` messages;
      with a cap of 0 the slice `[-0:]` keeps everything; a negative cap `-k` drops the
      `k` oldest. */
  function AddMessage(m: ConversationMemory, role: string, content: string, timestamp: string)
    : (r: ConversationMemory)
    ensures r.maxMessages == m.maxMessages
    ensures var all := m.messages + [Message(role, content, timestamp)];
      && (m.maxMessages >= 1 ==> r.messages == LastN(m.maxMessages, all))
      && (m.maxMessages == 0 ==> r.messages == all)
      && (m.maxMessages < 0 ==> r.messages == all[if -m.maxMessages < |all| then -m.maxMessages else |all|..])
    ensures m.maxMessages >= 1 ==>
      && 1 <= |r.messages| <= m.maxMessages
      && r.messages[|r.messages| - 1] == Message(role, content, timestamp)
  {
    var all := m.messages + [Message(role, content, timestamp)];
    if |all| > m.maxMessages then m.(messages := SliceFrom(all, -m.maxMessages))
    else m.(messages := all)
  }

  /** `get_history`: the stored messages themselves. */
  function GetHistory(m: ConversationMemory): seq<Message> {
    m.messages
  }

  /** One line of `get_context`: `role: content`. */
  function RenderMessage(msg: Message): string {
    msg.role + ": " + msg.content
  }

  /** `messages[-num_messages:]`: the newest `num_messages` messages (all of them for
      0, since `-0` is `0`; all but the oldest `k` for `-k`), in stored order. */
  function Recent(m: ConversationMemory, numMessages: int): (r: seq<Message>)
    ensures numMessages >= 1 ==> |r| == if numMessages < |m.messages| then numMessages else |m.messages|
    ensures numMessages == 0 ==> r == m.messages
    ensures numMessages < 0 ==> |r| == if -numMessages < |m.messages| then |m.messages| + numMessages else 0
    ensures r == m.messages[|m.messages| - |r|..]
  {
    SliceFrom(m.messages, -numMessages)
  }

  /** One rendered line per message. */
  function Lines(msgs: seq<Message>): (ls: seq<string>)
    ensures |ls| == |msgs|
    ensures forall i :: 0 <= i < |msgs| ==> ls[i] == RenderMessage(msgs[i])
  {
    seq(|msgs|, i requires 0 <= i < |msgs| => RenderMessage(msgs[i]))
  }

  /** `get_context(num_messages)`: the recent messages, one `role: content` line each,
      joined by newlines, most recent last; empty exactly when there are none. */
  function GetContext(m: ConversationMemory, numMessages: int): (r: string)
    ensures r == "" <==> |Recent(m, numMessages)| == 0
  {
    var lines := Lines(Recent(m, numMessages));
    if |lines| == 0 then ""
    else
      assert |lines[0]| > 0;
      JoinNonEmpty("\n", lines);
      Join("\n", lines)
  }

  /** When no role or content holds a newline, the context splits back, line by line,
      into the rendered recent messages. */
  lemma ContextLines(m: ConversationMemory, numMessages: int)
    requires forall i :: 0 <= i < |m.messages| ==> !Contains(RenderMessage(m.messages[i]), "\n")
    requires |Recent(m, numMessages)| > 0
    ensures Split(GetContext(m, numMessages), "\n") == Lines(Recent(m, numMessages))
  {
    var recent := Recent(m, numMessages);
    var lines := Lines(recent);
    var k := |m.messages| - |recent|;
    forall i | 0 <= i < |lines| ensures !Contains(lines[i], "\n") && EndsClear(lines[i], "\n") {
      assert recent[i] == m.messages[k + i];
      EndsClearSingle(lines[i], "\n");
    }
    JoinSplit("\n", lines);
  }

  /** `clear`: empty the buffer, keep the cap. */
  function Clear(m: ConversationMemory): (r: ConversationMemory)
    ensures r.messages == [] && r.maxMessages == m.maxMessages
  {
    m.(messages := [])
  }

  /** A run of `add_message` calls, oldest first. */
  function AddAll(m: ConversationMemory, msgs: seq<Message>): ConversationMemory
    decreases |msgs|
  {
    if |msgs| == 0 then m
    else
      var last := msgs[|msgs| - 1];
      AddMessage(AddAll(m, msgs[..|msgs| - 1]), last.role, last.content, last.timestamp)
  }

  lemma LastNAppend<T>(n: nat, s: seq<T>, x: T)
    requires n >= 1
    ensures LastN(n, LastN(n, s) + [x]) == LastN(n, s + [x])
  {
  }

  /** After any run of appends to a buffer within its positive cap, the buffer holds the
      newest `max_messages` of everything it has seen, in order; in particular it never
      holds more than `max_messages`. */
  lemma {:induction false} AddAllKeepsNewest(m: ConversationMemory, msgs: seq<Message>)
    requires m.maxMessages >= 1 && |m.messages| <= m.maxMessages
    ensures AddAll(m, msgs).messages == LastN(m.maxMessages, m.messages + msgs)
    ensures |AddAll(m, msgs).messages| <= m.maxMessages
    ensures AddAll(m, msgs).maxMessages == m.maxMessages
    decreases |msgs|
  {
    if |msgs| == 0 {
      assert m.messages + msgs == m.messages;
    } else {
      var init := msgs[..|msgs| - 1];
      var last := msgs[|msgs| - 1];
      AddAllKeepsNewest(m, init);
      LastNAppend(m.maxMessages, m.messages + init, last);
      assert m.messages + msgs == (m.messages + init) + [last];
    }
  }

  /** Two appends to a buffer whose cap is at least two: the buffer grows by two up to
      its cap, and the two new messages are its last two, in order. */
  lemma AddPairKeepsNewest(m: ConversationMemory, first: Message, second: Message)
    requires m.maxMessages >= 2 && |m.messages| <= m.maxMessages
    ensures var r := AddAll(m, [first, second]);
      && r.maxMessages == m.maxMessages
      && |r.messages| == (if |m.messages| + 2 <= m.maxMessages then |m.messages| + 2 else m.maxMessages)
      && r.messages[|r.messages| - 2] == first
      && r.messages[|r.messages| - 1] == second
  {
    var msgs := [first, second];
    AddAllKeepsNewest(m, msgs);
    var all := m.messages + msgs;
    assert all[|all| - 2] == first && all[|all| - 1] == second;
  }

  /** Appending `max_messages + n` messages to an empty buffer leaves exactly the last
      `max_messages` of them. */
  lemma {:induction false} OverflowKeepsLast(maxMessages: int, msgs: seq<Message>)
    requires maxMessages >= 1 && |msgs| >= maxMessages
    ensures AddAll(NewConversationMemory(maxMessages), msgs).messages == msgs[|msgs| - maxMessages..]
  {
    var m0 := NewConversationMemory(maxMessages);
    AddAllKeepsNewest(m0, msgs);
    LastNSuffix(maxMessages, m0.messages, msgs);
  }

  lemma LastNSuffix<T>(n: nat, empty: seq<T>, s: seq<T>)
    requires empty == [] && n <= |s|
    ensures LastN(n, empty + s) == s[|s| - n..]
  {
    assert empty + s == s;
    if n == |s| {
      assert s[0..] == s;
    }
  }

  // ---------------------------------------------------------------------------
  // PersistentMemory
  // ---------------------------------------------------------------------------

  /** One text written to the vector store with its metadata. */
  datatype StoredText = StoredText(text: string, metadata: map<string, Json>)

  /** The store's contents as seen through this memory, oldest first. */
  datatype PersistentMemory = PersistentMemory(collectionName: string, records: seq<StoredText>)

  /** `store_interaction`: a missing metadata mapping counts as `{}`, a "timestamp" is
      added only when absent, and exactly one text is added to the store. */
  function StoreInteraction(pm: PersistentMemory, interaction: string,
                            metadata: Option<map<string, Json>>, now: string)
    : (r: PersistentMemory)
    ensures r.collectionName == pm.collectionName
    ensures |r.records| == |pm.records| + 1 && r.records[..|pm.records|] == pm.records
    ensures var stored := r.records[|pm.records|];
      var given := metadata.GetOr(map[]);
      && stored.text == interaction
      && stored.metadata.Keys == given.Keys + {"timestamp"}
      && (forall k :: k in given ==> stored.metadata[k] == given[k])
      && ("timestamp" !in given ==> stored.metadata["timestamp"] == JStr(now))
  {
    var given := metadata.GetOr(map[]);
    var md := if "timestamp" !in given then given["timestamp" := JStr(now)] else given;
    pm.(records := pm.records + [StoredText(interaction, md)])
  }

  /** One `(document, distance)` pair returned by the store's similarity search. */
  datatype Hit = Hit(content: string, metadata: map<string, Json>, score: real)

  /** One entry of `retrieve_similar`'s result. */
  datatype Retrieved = Retrieved(content: string, metadata: map<string, Json>, similarity: real)

  /** `retrieve_similar`: one record per hit, in hit order, with `similarity = 1 - score`. */
  function RetrieveSimilar(hits: seq<Hit>): (r: seq<Retrieved>)
    ensures |r| == |hits|
    ensures forall i :: 0 <= i < |r| ==>
      r[i].content == hits[i].content && r[i].metadata == hits[i].metadata
      && r[i].similarity + hits[i].score == 1.0
  {
    seq(|hits|, i requires 0 <= i < |hits| =>
      Retrieved(hits[i].content, hits[i].metadata, 1.0 - hits[i].score))
  }

  /** A smaller distance always ranks as the more similar record. */
  lemma SimilarityReversesDistance(hits: seq<Hit>, i: nat, j: nat)
    requires i < |hits| && j < |hits| && hits[i].score < hits[j].score
    ensures RetrieveSimilar(hits)[i].similarity > RetrieveSimilar(hits)[j].similarity
  {
  }

  /** The provenance header and body of the `i`-th (1-based) past interaction. The `\\n`
      pairs are a literal backslash and `n`, as the source's f-string writes them. */
  function PastInteractionPart(i: nat, r: Retrieved): string {
    "[Past Interaction " + NatToString(i) + " - " + Show(Get(r.metadata, "timestamp", JStr("Unknown")))
      + "]\\n" + r.content + "\\n"
  }

  /** `get_context`: "" when the search found nothing, otherwise the numbered parts
      joined by `\n---\n`. */
  function PersistentContext(hits: seq<Hit>): (r: string)
    ensures r == "" <==> |hits| == 0
  {
    var results := RetrieveSimilar(hits);
    if |results| == 0 then ""
    else
      var parts := seq(|results|, i requires 0 <= i < |results| => PastInteractionPart(i + 1, results[i]));
      JoinNonEmpty("\n---\n", parts);
      Join("\n---\n", parts)
  }

  /** How a stored interaction's time shows in the context: its timestamp, or
      "Unknown" when the metadata has none. */
  function StampOf(md: map<string, Json>): string {
    if "timestamp" in md then Show(md["timestamp"]) else "Unknown"
  }

  /** The context cites every hit: the `i`-th (numbered from one) appears with its
      stored timestamp, or "Unknown" when the metadata has none, followed by its
      content. */
  lemma PersistentContextCitesEveryHit(hits: seq<Hit>, i: nat)
    requires i < |hits|
    ensures var cited := "[Past Interaction " + NatToString(i + 1) + " - "
        + StampOf(hits[i].metadata) + "]\\n" + hits[i].content + "\\n";
      exists k: nat :: IsAt(PersistentContext(hits), cited, k)
  {
    var results := RetrieveSimilar(hits);
    var parts := seq(|results|, j requires 0 <= j < |results| => PastInteractionPart(j + 1, results[j]));
    assert PersistentContext(hits) == Join("\n---\n", parts);
    assert results[i].content == hits[i].content && results[i].metadata == hits[i].metadata;
    var md := hits[i].metadata;
    var stamp := StampOf(md);
    assert Show(Get(md, "timestamp", JStr("Unknown"))) == stamp;
    assert parts[i] == PastInteractionPart(i + 1, results[i]);
    assert parts[i] == "[Past Interaction " + NatToString(i + 1) + " - "
        + StampOf(hits[i].metadata) + "]\\n" + hits[i].content + "\\n";
    JoinHasPart("\n---\n", parts, i);
  }
}

=== FILE: pystr.dfy ===
/** The slice of Python's `str` and `list` semantics the workflow nodes rely on:
    `strip`, `isalpha`, `in`, `split`, `join`, `str(int)` and slices with Python's
    negative-index rules. Characters are restricted to ASCII classifications. */
module PyStr {
  import opened Wrappers

  // ---------------------------------------------------------------------------
  // Whitespace, strip and isalpha
  // ---------------------------------------------------------------------------

  /** `c.isspace()` for the ASCII range: space, \t, \n, \v, \f, \r and \x1c-\x1f. */
  predicate IsSpace(c: char) {
    c == ' ' || ('\U{0009}' <= c <= '\U{000D}') || ('\U{001C}' <= c <= '\U{001F}')
  }

  predicate AllSpace(s: string) {
    forall i :: 0 <= i < |s| ==> IsSpace(s[i])
  }

  /** Neither end of `s` is whitespace. */
  predicate Trimmed(s: string) {
    |s| == 0 || (!IsSpace(s[0]) && !IsSpace(s[|s| - 1]))
  }

  /** Where the whitespace run that starts at index `i` of `s` ends. */
  function SpaceRunFrom(s: string, i: nat): (n: nat)
    requires i <= |s|
    ensures i <= n <= |s|
    ensures n < |s| ==> !IsSpace(s[n])
    decreases |s| - i
  {
    if i < |s| && IsSpace(s[i]) then SpaceRunFrom(s, i + 1) else i
  }

  /** Where the whitespace run that ends just before index `j` of `s` starts. */
  function SpaceRunTo(s: string, j: nat): (n: nat)
    requires j <= |s|
    ensures n <= j
    ensures n > 0 ==> !IsSpace(s[n - 1])
    decreases j
  {
    if j > 0 && IsSpace(s[j - 1]) then SpaceRunTo(s, j - 1) else j
  }

  /** Everything between `i` and the end of its run is whitespace. */
  lemma {:induction false} SpaceRunFromSpaces(s: string, i: nat)
    requires i <= |s|
    ensures forall m :: i <= m < SpaceRunFrom(s, i) ==> IsSpace(s[m])
    decreases |s| - i
  {
    if i < |s| && IsSpace(s[i]) {
      SpaceRunFromSpaces(s, i + 1);
    }
  }

  lemma {:induction false} SpaceRunToSpaces(s: string, j: nat)
    requires j <= |s|
    ensures forall m :: SpaceRunTo(s, j) <= m < j ==> IsSpace(s[m])
    decreases j
  {
    if j > 0 && IsSpace(s[j - 1]) {
      SpaceRunToSpaces(s, j - 1);
    }
  }

  /** Uniqueness: a whitespace stretch from `i` to a non-space (or the end) is the run. */
  lemma {:induction false} SpaceRunFromIs(s: string, i: nat, n: nat)
    requires i <= n <= |s|
    requires forall m :: i <= m < n ==> IsSpace(s[m])
    requires n < |s| ==> !IsSpace(s[n])
    ensures SpaceRunFrom(s, i) == n
    decreases |s| - i
  {
    if i < n {
      SpaceRunFromIs(s, i + 1, n);
    }
  }

  lemma {:induction false} SpaceRunToIs(s: string, j: nat, n: nat)
    requires n <= j <= |s|
    requires forall m :: n <= m < j ==> IsSpace(s[m])
    requires n > 0 ==> !IsSpace(s[n - 1])
    ensures SpaceRunTo(s, j) == n
    decreases j
  {
    if n < j {
      SpaceRunToIs(s, j - 1, n);
    }
  }

  /** How many whitespace characters `s` starts with: the first `n` characters are
      whitespace (`LeadingSpaces`) and the next one, if any, is not. */
  function Leading(s: string): (n: nat)
    ensures n <= |s|
    ensures n < |s| ==> !IsSpace(s[n])
  {
    SpaceRunFrom(s, 0)
  }

  lemma LeadingSpaces(s: string)
    ensures AllSpace(s[..Leading(s)])
  {
    SpaceRunFromSpaces(s, 0);
  }

  /** How many whitespace characters `s` ends with: the last `n` characters are
      whitespace (`TrailingSpaces`) and the one before them, if any, is not. */
  function Trailing(s: string): (n: nat)
    ensures n <= |s|
    ensures n < |s| ==> !IsSpace(s[|s| - n - 1])
  {
    |s| - SpaceRunTo(s, |s|)
  }

  lemma TrailingSpaces(s: string)
    ensures AllSpace(s[|s| - Trailing(s)..])
  {
    SpaceRunToSpaces(s, |s|);
  }

  /** `s.lstrip()`. */
  function StripLeft(s: string): string {
    s[Leading(s)..]
  }

  /** `s.rstrip()`. */
  function StripRight(s: string): string {
    s[..|s| - Trailing(s)]
  }

  /** `s.strip()`: the result starts and ends with a non-space. */
  function Strip(s: string): (r: string)
    ensures Trimmed(r)
  {
    var l := StripLeft(s);
    StripRight(l)
  }

  /** What `strip` removed is whitespace on both sides of a contiguous piece of `s`. */
  lemma StripPads(s: string)
    ensures var k := Leading(s); var r := Strip(s);
      k + |r| <= |s| && r == s[k..k + |r|] && AllSpace(s[..k]) && AllSpace(s[k + |r|..])
  {
    var k := Leading(s);
    var t := Trailing(s[k..]);
    StripSlices(s, k, t);
    LeadingSpaces(s);
    TrailingSpaces(s[k..]);
    TrailingSuffix(s, k, t);
    PadsAround(s, k, t, Strip(s));
  }

  /** A slice of `s` with whitespace cut from both ends, stated by its length. */
  lemma PadsAround(s: string, k: nat, t: nat, r: string)
    requires k + t <= |s| && r == s[k..|s| - t]
    requires AllSpace(s[..k]) && AllSpace(s[|s| - t..])
    ensures k + |r| <= |s| && r == s[k..k + |r|] && AllSpace(s[..k]) && AllSpace(s[k + |r|..])
  {
  }

  /** `strip` keeps the slice between the leading and the trailing whitespace. */
  lemma StripSlices(s: string, k: nat, t: nat)
    requires k == Leading(s) && t == Trailing(s[k..])
    ensures k + t <= |s| && Strip(s) == s[k..|s| - t]
  {
    StripUnfolds(s);
    SliceOfSlice(s, k, |s| - t);
  }

  /** `strip` is `rstrip` applied to the result of `lstrip`. */
  lemma StripUnfolds(s: string)
    ensures var k := Leading(s); var t := Trailing(s[k..]);
      k + t <= |s| && Strip(s) == s[k..][..|s| - k - t]
  {
    var l := StripLeft(s);
    assert l == s[Leading(s)..];
    assert Strip(s) == StripRight(l);
  }

  lemma SliceOfSlice(s: string, i: nat, j: nat)
    requires i <= j <= |s|
    ensures s[i..][..j - i] == s[i..j]
  {
  }

  /** The trailing whitespace of `s[k..]` is a suffix of `s`. */
  lemma TrailingSuffix(s: string, k: nat, t: nat)
    requires k + t <= |s| && AllSpace(s[k..][|s| - k - t..])
    ensures AllSpace(s[|s| - t..])
  {
    assert s[k..][|s| - k - t..] == s[|s| - t..];
  }

  /** Leading whitespace followed by a non-space (or nothing) is exactly what `lstrip`
      drops. */
  lemma LeadingOf(a: string, t: string)
    requires AllSpace(a)
    requires |t| == 0 || !IsSpace(t[0])
    ensures Leading(a + t) == |a|
  {
    var s := a + t;
    forall m | 0 <= m < |a| ensures IsSpace(s[m]) {
      assert s[m] == a[m];
    }
    if |a| < |s| {
      assert s[|a|] == t[0];
    }
    SpaceRunFromIs(s, 0, |a|);
  }

  lemma TrailingOf(t: string, b: string)
    requires AllSpace(b)
    requires |t| == 0 || !IsSpace(t[|t| - 1])
    ensures Trailing(t + b) == |b|
  {
    var s := t + b;
    forall m | |t| <= m < |s| ensures IsSpace(s[m]) {
      assert s[m] == b[m - |t|];
    }
    if |t| > 0 {
      assert s[|t| - 1] == t[|t| - 1];
    }
    SpaceRunToIs(s, |s|, |t|);
  }

  lemma StripLeftSkips(a: string, t: string)
    requires AllSpace(a)
    requires |t| == 0 || !IsSpace(t[0])
    ensures StripLeft(a + t) == t
  {
    LeadingOf(a, t);
    assert (a + t)[|a|..] == t;
  }

  lemma StripRightSkips(t: string, b: string)
    requires AllSpace(b)
    requires |t| == 0 || !IsSpace(t[|t| - 1])
    ensures StripRight(t + b) == t
  {
    TrailingOf(t, b);
    assert (t + b)[..|t|] == t;
  }

  /** Uniqueness, the partner of `Strip`'s contract: whatever whitespace pads a trimmed
      string, `strip` gives that string back. */
  lemma StripUnique(a: string, r: string, b: string)
    requires AllSpace(a) && AllSpace(b) && Trimmed(r)
    ensures Strip(a + r + b) == r
  {
    if |r| == 0 {
      assert a + r + b == (a + b) + "";
      assert AllSpace(a + b) by {
        forall i | 0 <= i < |a + b| ensures IsSpace((a + b)[i]) {
          if i < |a| { assert (a + b)[i] == a[i]; } else { assert (a + b)[i] == b[i - |a|]; }
        }
      }
      StripLeftSkips(a + b, "");
      StripRightSkips("", "");
    } else {
      assert a + r + b == a + (r + b);
      StripLeftSkips(a, r + b);
      StripRightSkips(r, b);
    }
  }

  /** `strip` is idempotent. */
  lemma StripIdempotent(s: string)
    ensures Strip(Strip(s)) == Strip(s)
  {
    var r := Strip(s);
    assert r == "" + r + "";
    StripUnique("", r, "");
  }

  /** `c.isalpha()` for the ASCII range. */
  predicate IsLetter(c: char) {
    ('a' <= c <= 'z') || ('A' <= c <= 'Z')
  }

  /** `s.isalpha()`: non-empty and every character a letter. */
  predicate IsAlpha(s: string) {
    |s| > 0 && forall i :: 0 <= i < |s| ==> IsLetter(s[i])
  }

  // ---------------------------------------------------------------------------
  // Substring search: `sub in s` and `s.find(sub)`
  // ---------------------------------------------------------------------------

  /** `sub` occurs in `s` starting at index `i`. */
  predicate IsAt(s: string, sub: string, i: nat) {
    i + |sub| <= |s| && s[i..i + |sub|] == sub
  }

  lemma IsAtShift(s: string, sub: string)
    requires |s| > 0
    ensures forall j: nat :: j >= 1 ==> (IsAt(s, sub, j) <==> IsAt(s[1..], sub, j - 1))
  {
    forall j: nat | j >= 1 ensures IsAt(s, sub, j) <==> IsAt(s[1..], sub, j - 1) {
      if j + |sub| <= |s| {
        var x, y := s[j..j + |sub|], s[1..][j - 1..j - 1 + |sub|];
        assert |x| == |y|;
        forall k | 0 <= k < |x| ensures x[k] == y[k] {
          assert x[k] == s[j + k] && y[k] == s[1..][j - 1 + k];
        }
        assert x == y;
      }
    }
  }

  /** `s.find(sub)`: the first index where `sub` occurs, `None` for -1. */
  function IndexOf(s: string, sub: string): (r: Option<nat>)
    ensures r.Some? ==> IsAt(s, sub, r.value)
    ensures r.Some? ==> forall j: nat :: j < r.value ==> !IsAt(s, sub, j)
    ensures r.None? ==> forall j: nat :: !IsAt(s, sub, j)
    decreases |s|
  {
    if |s| < |sub| then None
    else if s[..|sub|] == sub then Some(0)
    else
      var rest := IndexOf(s[1..], sub);
      IsAtShift(s, sub);
      assert !IsAt(s, sub, 0);
      if rest.Some? then Some(rest.value + 1) else None
  }

  /** `sub in s`. */
  predicate Contains(s: string, sub: string) {
    IndexOf(s, sub).Some?
  }

  /** An occurrence of `sub` inside a prefix of `s` is an occurrence in `s`. */
  lemma IsAtPrefix(s: string, n: nat, sub: string, j: nat)
    requires n <= |s| && IsAt(s[..n], sub, j)
    ensures IsAt(s, sub, j) && j + |sub| <= n
  {
    assert s[..n][j..j + |sub|] == s[j..j + |sub|];
  }

  /** An occurrence inside the middle piece of a concatenation is an occurrence in
      the whole, shifted by the first piece. */
  lemma IsAtInfix(a: string, b: string, c: string, sub: string, k: nat)
    requires IsAt(b, sub, k)
    ensures IsAt(a + b + c, sub, |a| + k)
  {
    assert (a + b + c)[|a| + k..|a| + k + |sub|] == b[k..k + |sub|];
  }

  // ---------------------------------------------------------------------------
  // split and join
  // ---------------------------------------------------------------------------

  /** The text before the first `sep`, or all of `s` when there is none. */
  function Before(s: string, sep: string): (r: string)
    requires |sep| > 0
    ensures r <= s
    ensures !Contains(r, sep)
    ensures !Contains(s, sep) ==> r == s
  {
    match IndexOf(s, sep)
    case None => s
    case Some(i) =>
      var r := s[..i];
      assert !Contains(r, sep) by {
        if Contains(r, sep) {
          IsAtPrefix(s, i, sep, IndexOf(r, sep).value);
        }
      }
      r
  }

  /** The text after the first `sep`: `s.split(sep, 1)[1]`. */
  function After(s: string, sep: string): (r: string)
    requires |sep| > 0 && Contains(s, sep)
    ensures |r| + |sep| <= |s|
  {
    var i := IndexOf(s, sep).value;
    s[i + |sep|..]
  }

  /** `s` is the text before its first separator, the separator, and the text after. */
  lemma AfterDecomposes(s: string, sep: string)
    requires |sep| > 0 && Contains(s, sep)
    ensures s == Before(s, sep) + sep + After(s, sep)
  {
    var i := IndexOf(s, sep).value;
    assert s == s[..i] + s[i..i + |sep|] + s[i + |sep|..];
  }

  /** `sep` does not occur in `a` followed by all but the last character of `sep`: in
      `a + sep + b` the first occurrence of `sep` is the one right after `a`. */
  predicate EndsClear(a: string, sep: string)
    requires |sep| > 0
  {
    !Contains(a + sep[..|sep| - 1], sep)
  }

  /** The converse of `AfterDecomposes`: splitting `a + sep + b` once at its first
      separator gives back `a` and `b`. */
  lemma BeforeAfterOf(a: string, sep: string, b: string)
    requires |sep| > 0 && EndsClear(a, sep)
    ensures Contains(a + sep + b, sep)
    ensures Before(a + sep + b, sep) == a && After(a + sep + b, sep) == b
  {
    var s := a + sep + b;
    var p := a + sep[..|sep| - 1];
    assert s[|a|..|a| + |sep|] == sep;
    assert IsAt(s, sep, |a|);
    assert p == s[..|p|] by {
      assert s == p + ([sep[|sep| - 1]] + b);
    }
    forall j: nat | j < |a| ensures !IsAt(s, sep, j) {
      assert p[j..j + |sep|] == s[..|p|][j..j + |sep|];
      assert !IsAt(p, sep, j);
    }
    assert IndexOf(s, sep).value == |a|;
    assert s[..|a|] == a;
    assert s[|a| + |sep|..] == b;
  }

  /** `s.split(sep)` for a non-empty separator: the pieces between non-overlapping
      occurrences of `sep`, scanned left to right. */
  function Split(s: string, sep: string): (parts: seq<string>)
    requires |sep| > 0
    ensures |parts| >= 1
    ensures |parts| == 1 <==> !Contains(s, sep)
    decreases |s|
  {
    if Contains(s, sep) then [Before(s, sep)] + Split(After(s, sep), sep) else [s]
  }

  /** `sep.join(parts)`. */
  function Join(sep: string, parts: seq<string>): (r: string)
    ensures |parts| == 0 ==> r == ""
    ensures |parts| > 0 ==> parts[0] <= r
  {
    if |parts| == 0 then ""
    else if |parts| == 1 then parts[0]
    else parts[0] + sep + Join(sep, parts[1..])
  }

  /** Joining what `split` produced with the same separator gives back the input. */
  lemma {:induction false} SplitJoin(s: string, sep: string)
    requires |sep| > 0
    ensures Join(sep, Split(s, sep)) == s
    decreases |s|
  {
    if Contains(s, sep) {
      var rest := After(s, sep);
      AfterDecomposes(s, sep);
      SplitJoin(rest, sep);
      var parts := Split(s, sep);
      assert parts[1..] == Split(rest, sep);
    }
  }

  /** No piece produced by `split` contains the separator. */
  lemma {:induction false} SplitPiecesFree(s: string, sep: string)
    requires |sep| > 0
    ensures forall k :: 0 <= k < |Split(s, sep)| ==> !Contains(Split(s, sep)[k], sep)
    decreases |s|
  {
    var parts := Split(s, sep);
    if Contains(s, sep) {
      var rest := After(s, sep);
      SplitPiecesFree(rest, sep);
      var tail := Split(rest, sep);
      assert parts == [Before(s, sep)] + tail;
      assert parts[0] == Before(s, sep);
      forall k | 0 <= k < |parts| ensures !Contains(parts[k], sep) {
        if k > 0 {
          assert parts[k] == tail[k - 1];
        }
      }
    } else {
      assert parts == [s];
    }
  }

  /** Splitting a joined sequence gives the pieces back, provided no piece creates an
      earlier separator and the last piece holds none. */
  lemma {:induction false} JoinSplit(sep: string, parts: seq<string>)
    requires |sep| > 0 && |parts| > 0
    requires forall k :: 0 <= k < |parts| - 1 ==> EndsClear(parts[k], sep)
    requires !Contains(parts[|parts| - 1], sep)
    ensures Split(Join(sep, parts), sep) == parts
    decreases |parts|
  {
    if |parts| == 1 {
      assert Join(sep, parts) == parts[0];
    } else {
      var rest := parts[1..];
      assert forall k :: 0 <= k < |rest| - 1 ==> rest[k] == parts[k + 1];
      assert rest[|rest| - 1] == parts[|parts| - 1];
      JoinSplit(sep, rest);
      SplitCons(parts[0], sep, Join(sep, rest));
      assert parts == [parts[0]] + rest;
    }
  }

  /** Splitting `a + sep + b` yields `a`, then the pieces of `b`. */
  lemma SplitCons(a: string, sep: string, b: string)
    requires |sep| > 0 && EndsClear(a, sep)
    ensures Split(a + sep + b, sep) == [a] + Split(b, sep)
  {
    BeforeAfterOf(a, sep, b);
  }

  /** For a one-character separator, ending clear is just not containing it. */
  lemma EndsClearSingle(a: string, sep: string)
    requires |sep| == 1
    ensures EndsClear(a, sep) <==> !Contains(a, sep)
  {
    assert a + sep[..0] == a;
  }

  /** The first piece of `s.split(sep)` is the text before the first `sep`; the second,
      when there is one, the text between the first and the second occurrence (or up to
      the end). */
  lemma SplitHeads(s: string, sep: string)
    requires |sep| > 0
    ensures Split(s, sep)[0] == Before(s, sep)
    ensures Contains(s, sep) ==> Split(s, sep)[1] == Before(After(s, sep), sep)
  {
  }

  /** A joined sequence whose first piece is non-empty is non-empty. */
  lemma JoinNonEmpty(sep: string, parts: seq<string>)
    requires |parts| > 0 && |parts[0]| > 0
    ensures |Join(sep, parts)| > 0
  {
  }

  /** Joining two or more pieces is joining all but the last, the separator, and the
      last piece. */
  lemma {:induction false} JoinSnoc(sep: string, parts: seq<string>)
    requires |parts| >= 2
    ensures Join(sep, parts) == Join(sep, parts[..|parts| - 1]) + sep + parts[|parts| - 1]
    decreases |parts|
  {
    var init := parts[..|parts| - 1];
    if |parts| == 2 {
      assert init == [parts[0]];
      assert parts[1..] == [parts[1]];
    } else {
      var rest := parts[1..];
      JoinSnoc(sep, rest);
      assert rest[..|rest| - 1] == init[1..];
      assert rest[|rest| - 1] == parts[|parts| - 1];
      assert init[0] == parts[0];
    }
  }

  /** A joined sequence ends with its last piece. */
  lemma JoinLast(sep: string, parts: seq<string>)
    requires |parts| > 0
    ensures var r := Join(sep, parts); var last := parts[|parts| - 1];
      |last| <= |r| && r[|r| - |last|..] == last
  {
    var last := parts[|parts| - 1];
    if |parts| >= 2 {
      JoinSnoc(sep, parts);
      var front := Join(sep, parts[..|parts| - 1]) + sep;
      assert Join(sep, parts) == front + last;
      assert (front + last)[|front|..] == last;
    }
  }

  /** Every piece of a joined sequence occurs in it. */
  lemma {:induction false} JoinHasPart(sep: string, parts: seq<string>, i: nat)
    requires i < |parts|
    ensures exists k: nat :: IsAt(Join(sep, parts), parts[i], k)
    decreases i
  {
    var r := Join(sep, parts);
    if i == 0 {
      assert r[0..|parts[0]|] == parts[0];
      assert IsAt(r, parts[0], 0);
    } else {
      var rest := parts[1..];
      JoinHasPart(sep, rest, i - 1);
      var k: nat :| IsAt(Join(sep, rest), rest[i - 1], k);
      assert rest[i - 1] == parts[i];
      var front := parts[0] + sep;
      assert r == front + Join(sep, rest) + "";
      IsAtInfix(front, Join(sep, rest), "", parts[i], k);
    }
  }

  /** Every piece of a joined sequence occurs in any text that embeds the join. */
  lemma JoinedPartIn(a: string, sep: string, parts: seq<string>, c: string, i: nat)
    requires i < |parts|
    ensures exists k: nat :: IsAt(a + Join(sep, parts) + c, parts[i], k)
  {
    JoinHasPart(sep, parts, i);
    var k: nat :| IsAt(Join(sep, parts), parts[i], k);
    IsAtInfix(a, Join(sep, parts), c, parts[i], k);
  }

  // ---------------------------------------------------------------------------
  // Slices with Python's index rules
  // ---------------------------------------------------------------------------

  /** `s[:n]` for `n >= 0`. */
  function Prefix<T>(s: seq<T>, n: nat): (r: seq<T>)
    ensures |r| == if n < |s| then n else |s|
    ensures r <= s
  {
    if n < |s| then s[..n] else s
  }

  /** `s[start:]`, where a negative `start` counts from the end and is clamped to 0. */
  function SliceFrom<T>(s: seq<T>, start: int): (r: seq<T>)
    ensures start >= 0 ==> |r| == if start < |s| then |s| - start else 0
    ensures start < 0 ==> |r| == if -start < |s| then -start else |s|
    ensures r == s[|s| - |r|..]
  {
    if start < 0 then (if |s| + start < 0 then s else s[|s| + start..])
    else if start > |s| then [] else s[start..]
  }

  // ---------------------------------------------------------------------------
  // str(int)
  // ---------------------------------------------------------------------------

  predicate IsDigit(c: char) {
    '0' <= c <= '9'
  }

  function DigitChar(d: nat): (c: char)
    requires d < 10
    ensures IsDigit(c)
  {
    (d + '0' as int) as char
  }

  /** `str(n)` for a natural number: decimal digits, no leading zero. */
  function NatToString(n: nat): (r: string)
    ensures |r| >= 1 && (r[0] == '0' ==> n == 0)
    ensures forall i :: 0 <= i < |r| ==> IsDigit(r[i])
    decreases n
  {
    if n < 10 then [DigitChar(n)] else NatToString(n / 10) + [DigitChar(n % 10)]
  }

  /** `int(s)` for a string of decimal digits; the inverse of `NatToString`. */
  function DigitsValue(s: string): nat
    requires forall i :: 0 <= i < |s| ==> IsDigit(s[i])
  {
    if |s| == 0 then 0
    else
      assert IsDigit(s[|s| - 1]);
      DigitsValue(s[..|s| - 1]) * 10 + (s[|s| - 1] as int - '0' as int)
  }

  lemma {:induction false} NatToStringRoundTrip(n: nat)
    ensures DigitsValue(NatToString(n)) == n
    decreases n
  {
    if n >= 10 {
      NatToStringRoundTrip(n / 10);
      var r := NatToString(n);
      assert r[..|r| - 1] == NatToString(n / 10);
    }
  }

  /** `str(i)` for any integer. */
  function IntToString(i: int): (r: string)
    ensures |r| >= 1
    ensures i >= 0 <==> IsDigit(r[0])
  {
    if i < 0 then "-" + NatToString(-i) else NatToString(i)
  }
}

=== FILE: response_split.dfy ===
/** The three-part analysis response: a free-text report, a fenced JSON block, and an
    executive summary after a marker (`_split_response` in the three log-analyzer
    graphs, and the inline copy in the LangChain log analyzer). `json.loads` is the
    oracle `parse`: `None` stands for `JSONDecodeError`. */
module ResponseSplit {
  import opened Wrappers
  import opened PyStr
  import opened Json

  const JsonFence: string := "```json"
  const Fence: string := "```"
  const ExecMarker: string := "---EXECUTIVE---"

  /** The summary kept when the response has none. */
  const DefaultSummary: string := "Executive summary not generated."

  /** The message of the object stored when the fenced block does not parse. */
  const ParseFailed: string := "Failed to parse JSON"

  /** The JSON text the inline variant starts from. */
  const NoJsonSentinel: string := "{\"error\": \"No JSON generated\"}"

  /** `(text_report, json_report, exec_summary)`. */
  datatype Report = Report(text: string, json: Json, summary: string)

  /** `json.loads(block)`, with a decode error caught as `{"error": "Failed to parse JSON"}`. */
  function ParseOrError(parse: string -> Option<Json>, block: string): Json {
    match parse(block)
    case Some(j) => j
    case None => ErrorObject(ParseFailed)
  }

  /** What follows the opening fence up to the next opening fence: `parts[1]` of
      `response.split("```json")`. */
  function Remainder(response: string): string
    requires Contains(response, JsonFence)
  {
    Before(After(response, JsonFence), JsonFence)
  }

  /** The summary found in the text after the closing fence: the piece between the
      first and the second marker, stripped, or the default. */
  function SummaryOf(afterJson: string): (r: string)
    ensures r == DefaultSummary || Trimmed(r)
  {
    if Contains(afterJson, ExecMarker) then Strip(Split(afterJson, ExecMarker)[1])
    else DefaultSummary
  }

  /** `_split_response`, written with `str.split` as the source does. */
  function SplitResponse(response: string, parse: string -> Option<Json>): (r: Report)
    ensures !Contains(response, JsonFence) ==> r == Report(response, EmptyObject, DefaultSummary)
    ensures Contains(response, JsonFence) ==>
      && r.text == Strip(Before(response, JsonFence))
      && (!Contains(Remainder(response), Fence) ==>
            r.json == EmptyObject && r.summary == DefaultSummary)
      && (Contains(Remainder(response), Fence) ==>
            var rem := Remainder(response);
            && r.json == ParseOrError(parse, Strip(Before(rem, Fence)))
            && r.summary == SummaryOf(After(rem, Fence)))
  {
    if Contains(response, JsonFence) then
      var parts := Split(response, JsonFence);
      SplitHeads(response, JsonFence);
      var text := Strip(parts[0]);
      var remainder := parts[1];
      if Contains(remainder, Fence) then
        SplitHeads(remainder, Fence);
        var block := Strip(Split(remainder, Fence)[0]);
        Report(text, ParseOrError(parse, block), SummaryOf(After(remainder, Fence)))
      else Report(text, EmptyObject, DefaultSummary)
    else Report(response, EmptyObject, DefaultSummary)
  }

  /** The summary piece is the text between the first and second marker. */
  lemma SummaryBetweenMarkers(afterJson: string)
    requires Contains(afterJson, ExecMarker)
    ensures SummaryOf(afterJson) == Strip(Before(After(afterJson, ExecMarker), ExecMarker))
  {
    SplitHeads(afterJson, ExecMarker);
  }

  /** Every summary the splitter returns is the default or a stripped piece, and every
      text is the whole response or a stripped prefix. */
  lemma SplitShapes(response: string, parse: string -> Option<Json>)
    ensures var r := SplitResponse(response, parse);
      && (r.summary == DefaultSummary || Trimmed(r.summary))
      && (r.text == response || Trimmed(r.text))
  {
  }

  /** A response assembled from its pieces, the way the analyzer prompt asks for it,
      splits back into those pieces: the text before the fence, the parsed block, and
      the summary after the marker, each stripped. The side conditions say that no
      separator shows up earlier than intended. */
  lemma {:induction false} SplitComposed(t: string, block: string, mid: string, summary: string,
                                         parse: string -> Option<Json>)
    requires EndsClear(t, JsonFence)
    requires !Contains(block + Fence + (mid + ExecMarker + summary), JsonFence)
    requires EndsClear(block, Fence)
    requires EndsClear(mid, ExecMarker)
    requires !Contains(summary, ExecMarker)
    ensures SplitResponse(t + JsonFence + (block + Fence + (mid + ExecMarker + summary)), parse)
      == Report(Strip(t), ParseOrError(parse, Strip(block)), Strip(summary))
  {
    var afterJson := mid + ExecMarker + summary;
    var tail := block + Fence + afterJson;
    OpeningFenceAt(t, tail);
    BeforeAfterOf(block, Fence, afterJson);
    BeforeAfterOf(mid, ExecMarker, summary);
    SummaryBetweenMarkers(afterJson);
  }

  /** The remainder of `t + "```json" + tail` is all of `tail` when `tail` holds no
      further opening fence. */
  lemma OpeningFenceAt(t: string, tail: string)
    requires EndsClear(t, JsonFence) && !Contains(tail, JsonFence)
    ensures Contains(t + JsonFence + tail, JsonFence)
    ensures Before(t + JsonFence + tail, JsonFence) == t
    ensures Remainder(t + JsonFence + tail) == tail
  {
    BeforeAfterOf(t, JsonFence, tail);
  }

  /** An opening fence with no closing fence after it leaves the JSON and summary at
      their defaults, whatever the decoder would say. */
  lemma UnclosedFenceKeepsDefaults(t: string, rest: string, parse: string -> Option<Json>)
    requires EndsClear(t, JsonFence)
    requires !Contains(rest, Fence)
    ensures var r := SplitResponse(t + JsonFence + rest, parse);
      r.json == EmptyObject && r.summary == DefaultSummary && r.text == Strip(t)
  {
    BeforeAfterOf(t, JsonFence, rest);
    assert Remainder(t + JsonFence + rest) <= rest;
    assert !Contains(Remainder(t + JsonFence + rest), Fence) by {
      var rem := Remainder(t + JsonFence + rest);
      if Contains(rem, Fence) {
        IsAtPrefix(rest, |rem|, Fence, IndexOf(rem, Fence).value);
      }
    }
  }

  // ---------------------------------------------------------------------------
  // The inline copy in the LangChain log analyzer
  // ---------------------------------------------------------------------------

  /** The inline split: the JSON text starts as the sentinel, is replaced by the fenced
      block when both fences are present, and is parsed once at the end. */
  function InlineSplit(response: string, parse: string -> Option<Json>): (r: Report)
    ensures !Contains(response, JsonFence) ==>
      r == Report(response, ParseOrError(parse, NoJsonSentinel), DefaultSummary)
    ensures Contains(response, JsonFence) && !Contains(Remainder(response), Fence) ==>
      r.json == ParseOrError(parse, NoJsonSentinel) && r.summary == DefaultSummary
    ensures Contains(response, JsonFence) && Contains(Remainder(response), Fence) ==>
      r.json == ParseOrError(parse, Strip(Before(Remainder(response), Fence)))
  {
    var jsonText := NoJsonSentinel;
    if Contains(response, JsonFence) then
      var parts := Split(response, JsonFence);
      SplitHeads(response, JsonFence);
      var remainder := parts[1];
      if Contains(remainder, Fence) then
        SplitHeads(remainder, Fence);
        var block := Strip(Split(remainder, Fence)[0]);
        Report(Strip(parts[0]), ParseOrError(parse, block), SummaryOf(After(remainder, Fence)))
      else Report(Strip(parts[0]), ParseOrError(parse, jsonText), DefaultSummary)
    else Report(response, ParseOrError(parse, jsonText), DefaultSummary)
  }

  /** Both copies agree on the text and the summary for every response, and on the JSON
      whenever both fences are present. */
  lemma InlineAgreesWithGraph(response: string, parse: string -> Option<Json>)
    ensures InlineSplit(response, parse).text == SplitResponse(response, parse).text
    ensures InlineSplit(response, parse).summary == SplitResponse(response, parse).summary
    ensures Contains(response, JsonFence) && Contains(Remainder(response), Fence) ==>
      InlineSplit(response, parse).json == SplitResponse(response, parse).json
  {
  }

  /** With a decoder that reads the sentinel correctly, a response without a complete
      fenced block yields `{"error": "No JSON generated"}`, where the graph copy yields
      `{}`. */
  lemma InlineSentinelWhenNoBlock(response: string, parse: string -> Option<Json>)
    requires parse(NoJsonSentinel) == Some(ErrorObject("No JSON generated"))
    requires !Contains(response, JsonFence) || !Contains(Remainder(response), Fence)
    ensures InlineSplit(response, parse).json == ErrorObject("No JSON generated")
    ensures SplitResponse(response, parse).json == EmptyObject
  {
  }
}

=== FILE: retrieval.dfy ===
/** The string assembly the retrieval- and memory-aware pipelines share: search
    queries built from a bounded preview, the provenance label and part format of
    `retrieve_context`, and the recent-conversation block of the prompt builders.
    The copies in src/graph/testcase_memory/nodes.py, src/graph/log_analyzer_rag/nodes.py
    and src/graph/log_analyzer_memory/nodes.py are textually identical; they are
    written once here. */
module Retrieval {
  import opened Wrappers
  import opened PyStr
  import opened Json
  import opened Workflow
  import opened Memory

  // ---------------------------------------------------------------------------
  // Search queries
  // ---------------------------------------------------------------------------

  /** `f"{lead}{text[:n]}"`: a fixed lead followed by at most `n` characters of `text`. */
  function Query(lead: string, text: string, n: nat): (q: string)
    ensures lead <= q && q[|lead|..] <= text
    ensures |q| == |lead| + (if |text| < n then |text| else n)
  {
    lead + Prefix(text, n)
  }

  /** Two texts that agree on their first `n` characters give the same query: nothing
      past the preview reaches the search. */
  lemma QueryReadsPreview(lead: string, a: string, b: string, n: nat)
    requires |a| >= n && |b| >= n && a[..n] == b[..n]
    ensures Query(lead, a, n) == Query(lead, b, n)
  {
  }

  // ---------------------------------------------------------------------------
  // retrieve_context
  // ---------------------------------------------------------------------------

  /** `source.split('/')[-1]`: the text after the last "/", or all of it when there is
      no "/". */
  function SourceLabel(source: string): (name: string)
    ensures !Contains(name, "/")
    ensures |name| <= |source| && name == source[|source| - |name|..]
    ensures |name| == |source| || source[|source| - |name| - 1] == '/'
  {
    LastPieceFree(source);
    LastPieceSuffix(source);
    LastPieceAfterSlash(source);
    LastPiece(source)
  }

  /** The last piece of `source.split('/')`. */
  function LastPiece(source: string): string {
    var parts := Split(source, "/");
    parts[|parts| - 1]
  }

  /** The last piece holds no "/". */
  lemma LastPieceFree(source: string)
    ensures !Contains(LastPiece(source), "/")
  {
    var parts := Split(source, "/");
    SplitPiecesFree(source, "/");
    assert !Contains(parts[|parts| - 1], "/");
  }

  /** The last piece is a suffix of the source. */
  lemma LastPieceSuffix(source: string)
    ensures |LastPiece(source)| <= |source|
    ensures LastPiece(source) == source[|source| - |LastPiece(source)|..]
  {
    var parts := Split(source, "/");
    SplitJoin(source, "/");
    SuffixOfJoin("/", parts, source);
  }

  lemma SuffixOfJoin(sep: string, parts: seq<string>, s: string)
    requires |parts| > 0 && Join(sep, parts) == s
    ensures |parts[|parts| - 1]| <= |s| && s[|s| - |parts[|parts| - 1]|..] == parts[|parts| - 1]
  {
    JoinLast(sep, parts);
  }

  /** The last piece of a split is the whole text or comes right after a "/". */
  lemma LastPieceAfterSlash(source: string)
    ensures var parts := Split(source, "/"); var name := parts[|parts| - 1];
      |name| == |source| || (|name| < |source| && source[|source| - |name| - 1] == '/')
  {
    var parts := Split(source, "/");
    SplitJoin(source, "/");
    if |parts| >= 2 {
      JoinSnoc("/", parts);
      var front := Join("/", parts[..|parts| - 1]);
      assert source == front + "/" + parts[|parts| - 1];
      assert source[|front|] == '/';
    } else {
      assert source == parts[0];
    }
  }

  /** The three properties of `SourceLabel` pin it down: a suffix without "/" that is
      either the whole source or preceded by "/" is the label. */
  lemma SourceLabelUnique(source: string, t: string)
    requires !Contains(t, "/")
    requires |t| <= |source| && t == source[|source| - |t|..]
    requires |t| == |source| || source[|source| - |t| - 1] == '/'
    ensures t == SourceLabel(source)
  {
    var name := SourceLabel(source);
    if |t| < |name| {
      LongerSuffixHasSlash(source, name, t);
      assert false;
    } else if |name| < |t| {
      LongerSuffixHasSlash(source, t, name);
      assert false;
    }
  }

  /** Of two suffixes, the longer one holds the "/" that precedes the shorter. */
  lemma LongerSuffixHasSlash(source: string, a: string, b: string)
    requires |a| <= |source| && a == source[|source| - |a|..]
    requires |b| < |a| && source[|source| - |b| - 1] == '/'
    ensures Contains(a, "/")
  {
    var j := |a| - |b| - 1;
    assert a[j] == '/';
    assert a[j..j + 1] == "/";
    assert IsAt(a, "/", j);
  }

  /** A source without "/" is its own label. */
  lemma SourceLabelPlain(source: string)
    requires !Contains(source, "/")
    ensures SourceLabel(source) == source
  {
    SourceLabelUnique(source, source);
  }

  /** `doc.metadata.get('source', 'Unknown')`, which must be a string for `.split`. */
  function SourceOf(metadata: map<string, Json>): Result<string, Fault> {
    match Get(metadata, "source", JStr("Unknown"))
    case JStr(s) => Success(s)
    case _ => Failure(TypeError("source"))
  }

  /** One part of the retrieved context: the source label, a literal backslash-n (the
      f-string writes `\\n`), the document text, and a real newline. */
  function SourcePart(name: string, content: string): string {
    "[Source: " + name + "]\\n" + content + "\n"
  }

  /** What `retrieve_context` sends through the search: documents with metadata and a
      distance. */
  predicate SourcesReadable(hits: seq<Hit>) {
    forall i :: 0 <= i < |hits| ==> Readable(hits[i])
  }

  /** The hit's source is a string (or absent). */
  predicate Readable(hit: Hit) {
    SourceOf(hit.metadata).Success?
  }

  /** The part for one hit whose source is readable. */
  function PartOf(hit: Hit): (part: string)
    requires Readable(hit)
    ensures |part| > 0
  {
    SourcePart(SourceLabel(SourceOf(hit.metadata).value), hit.content)
  }

  /** The parts, one per hit, in hit order. */
  function Parts(hits: seq<Hit>): (ps: seq<string>)
    requires SourcesReadable(hits)
    ensures |ps| == |hits|
    ensures forall i :: 0 <= i < |hits| ==> ps[i] == PartOf(hits[i])
  {
    seq(|hits|, i requires 0 <= i < |hits| => PartOf(hits[i]))
  }

  /** `retrieve_context`'s formatting: the parts joined by `\n---\n`, empty exactly when
      the search returned nothing. The loop raises on the first hit whose source is not
      a string, before anything is returned. */
  function RetrievedContext(hits: seq<Hit>): (r: Result<string, Fault>)
    ensures r.Success? <==> SourcesReadable(hits)
    ensures r.Failure? ==> r.error.TypeError?
    ensures r.Success? ==> (r.value == "" <==> |hits| == 0)
  {
    if !SourcesReadable(hits) then Failure(TypeError("source"))
    else
      var ps := Parts(hits);
      if |ps| == 0 then Success("")
      else
        JoinNonEmpty("\n---\n", ps);
        Success(Join("\n---\n", ps))
  }

  /** Every hit is cited: its labelled part occurs in the retrieved context. */
  lemma ContextCitesEveryHit(hits: seq<Hit>, i: nat)
    requires SourcesReadable(hits) && i < |hits|
    ensures var part := SourcePart(SourceLabel(SourceOf(hits[i].metadata).value), hits[i].content);
      exists k: nat :: IsAt(RetrievedContext(hits).value, part, k)
  {
    var ps := Parts(hits);
    assert RetrievedContext(hits).value == Join("\n---\n", ps);
    JoinHasPart("\n---\n", ps, i);
  }

  // ---------------------------------------------------------------------------
  // The recent-conversation block of the prompt builders
  // ---------------------------------------------------------------------------

  /** How many messages the block shows, and how much of each. */
  const RecentCount: nat := 3
  const ContentPreview: nat := 100

  /** `f"{msg['role']}: {msg['content'][:100]}..."`. */
  function HistoryLine(msg: Message): (line: string)
    ensures msg.role + ": " <= line
    ensures |line| <= |msg.role| + 2 + ContentPreview + 3
    ensures |line| >= 3 && line[|line| - 3..] == "..."
  {
    var line := msg.role + ": " + Prefix(msg.content, ContentPreview) + "...";
    assert line[|line| - 3..] == "...";
    line
  }

  /** One line per message. */
  function HistoryLines(msgs: seq<Message>): (ls: seq<string>)
    ensures |ls| == |msgs|
    ensures forall i :: 0 <= i < |msgs| ==> ls[i] == HistoryLine(msgs[i])
  {
    seq(|msgs|, i requires 0 <= i < |msgs| => HistoryLine(msgs[i]))
  }

  /** `conv_history[-3:]`: the newest three messages, in order. */
  function RecentHistory(history: seq<Message>): (r: seq<Message>)
    ensures |r| == if |history| < RecentCount then |history| else RecentCount
    ensures r == history[|history| - |r|..]
  {
    LastN(RecentCount, history)
  }

  /** The conversation block: empty without history, otherwise the recent lines
      joined by newlines, ending in the last line's "...". */
  function ConversationContext(history: seq<Message>): (r: string)
    ensures r == "" <==> |history| == 0
    ensures |history| > 0 ==> |r| >= 3 && r[|r| - 3..] == "..."
  {
    if |history| == 0 then ""
    else
      var lines := HistoryLines(RecentHistory(history));
      JoinLast("\n", lines);
      Join("\n", lines)
  }

  /** When no rendered line holds a newline, the block splits back into one line per
      recent message: at most three, the newest last. */
  lemma ConversationContextLines(history: seq<Message>)
    requires |history| > 0
    requires forall i :: 0 <= i < |history| ==> !Contains(HistoryLine(history[i]), "\n")
    ensures var lines := Split(ConversationContext(history), "\n");
      && lines == HistoryLines(RecentHistory(history))
      && 1 <= |lines| <= RecentCount
      && lines[|lines| - 1] == HistoryLine(history[|history| - 1])
  {
    var recent := RecentHistory(history);
    var lines := HistoryLines(recent);
    var k := |history| - |recent|;
    forall i | 0 <= i < |lines| ensures !Contains(lines[i], "\n") && EndsClear(lines[i], "\n") {
      assert recent[i] == history[k + i];
      EndsClearSingle(lines[i], "\n");
    }
    JoinSplit("\n", lines);
  }

  /** The rule between two sections of a prompt. */
  const SectionBreak: string := "\n\n---\n\n"

  /** A four-section prompt opens with its first section, closes with its last, and
      holds the two in between. */
  lemma FourSections(sep: string, ps: seq<string>)
    requires |ps| == 4
    ensures var p := Join(sep, ps);
      && ps[0] <= p
      && |ps[3]| <= |p| && p[|p| - |ps[3]|..] == ps[3]
      && (exists k: nat :: IsAt(p, ps[1], k))
      && (exists k: nat :: IsAt(p, ps[2], k))
  {
    JoinLast(sep, ps);
    JoinHasPart(sep, ps, 1);
    JoinHasPart(sep, ps, 2);
  }

  /** `text if text else placeholder`, for a section of the prompt. */
  function OrPlaceholder(text: string, placeholder: string): string {
    if text != "" then text else placeholder
  }

  /** The conversation section: the placeholder without history, otherwise the block.
      A placeholder that does not end in "..." appears exactly when there is no
      history. */
  lemma ConversationSection(history: seq<Message>, placeholder: string)
    requires |placeholder| < 3 || placeholder[|placeholder| - 3..] != "..."
    ensures OrPlaceholder(ConversationContext(history), placeholder) == placeholder <==> |history| == 0
  {
  }
}

=== FILE: testcase_generator.dfy ===
/** The nodes of the test-case pipeline with human approval
    (src/graph/test_case_generator/nodes.py and state.py). Every node returns a partial
    update of the same shape as the state; absent keys are `None`. The model call is
    the oracle `call`, the decoder the oracle `decode`, the requirement file's text
    and the operator's lines are parameters. */
module TestCaseGenerator {
  import opened Wrappers
  import opened PyStr
  import opened Json
  import opened Workflow
  import opened TestCaseRules

  /** `TestCaseState`: every key may be absent. */
  datatype State = State(
    requirement: Option<string>,
    testCases: Option<Batch>,
    errors: Option<seq<string>>,
    validationStatus: Option<string>,
    retryCount: Option<int>,
    humanApproval: Option<string>,
    humanFeedback: Option<string>)

  /** `{}`: the empty update. */
  const Blank: State := State(None, None, None, None, None, None, None)

  /** The driver's initial state (src/graph/drivers/run_test_case_pipeline.py). */
  const InitState: State :=
    State(Some(""), Some(NoCases), Some([]), Some(Pending), Some(0), Some(Pending), Some(""))

  /** The runtime's shallow merge: every key the update holds overwrites the state's. */
  function Merge(s: State, u: State): State {
    State(
      s.requirement.Overwrite(u.requirement),
      s.testCases.Overwrite(u.testCases),
      s.errors.Overwrite(u.errors),
      s.validationStatus.Overwrite(u.validationStatus),
      s.retryCount.Overwrite(u.retryCount),
      s.humanApproval.Overwrite(u.humanApproval),
      s.humanFeedback.Overwrite(u.humanFeedback))
  }

  /** Merging the empty update changes nothing, and merging the same update twice is
      merging it once. */
  lemma MergeLaws(s: State, u: State)
    ensures Merge(s, Blank) == s
    ensures Merge(Merge(s, u), u) == Merge(s, u)
    ensures Merge(Blank, u) == u
  {
  }

  /** The `retry_count` the routers and `retry_generate` read. */
  function RetryCountOf(s: State): int {
    s.retryCount.GetOr(0)
  }

  /** `read_requirement`, with the picked file's text as a parameter. */
  function ReadRequirement(text: string): (u: State)
    ensures Merge(Blank, u).requirement == Some(text)
  {
    Blank.(requirement := Some(text))
  }

  /** The generation inside the `try`: `state["requirement"]` is read inside it, so a
      missing requirement is caught as an "LLM error" carrying the `KeyError` text. */
  function Generation(requirement: Option<string>, call: string -> LlmOutcome,
                      decode: string -> Decoded): (a: Attempt)
    ensures requirement.None? ==> a == Failed(LlmErrorPrefix + "'requirement'")
    ensures requirement.Some? ==> a == AttemptOf(call(requirement.value), decode)
  {
    match requirement
    case None => Failed(LlmErrorPrefix + "'requirement'")
    case Some(req) => AttemptOf(call(req), decode)
  }

  /** `generate_tests`: writes only `test_cases` and `errors`; the decoded batch and no
      error on success, an empty batch and exactly one prefixed error otherwise. */
  function GenerateTests(s: State, call: string -> LlmOutcome, decode: string -> Decoded): (u: State)
    ensures u.requirement.None? && u.validationStatus.None? && u.retryCount.None?
    ensures u.humanApproval.None? && u.humanFeedback.None?
    ensures u.testCases.Some? && u.errors.Some?
    ensures |u.errors.value| <= 1
    ensures u.errors.value == [] <==>
      && s.requirement.Some? && call(s.requirement.value).Reply?
      && decode(call(s.requirement.value).text).Loaded?
      && !decode(call(s.requirement.value).text).batch.Scalar?
    ensures u.errors.value == [] ==> u.testCases.value == decode(call(s.requirement.value).text).batch
    ensures u.errors.value != [] ==>
      && |u.errors.value| == 1 && u.testCases.value == NoCases
      && (LlmErrorPrefix <= u.errors.value[0] || JsonErrorPrefix <= u.errors.value[0])
    ensures s.requirement.None? ==> u.errors.value == [LlmErrorPrefix + "'requirement'"]
  {
    var a := Generation(s.requirement, call, decode);
    Blank.(testCases := Some(BatchOf(a)), errors := Some(ErrorsOf(a)))
  }

  /** `retry_generate`: the same generation, plus `retry_count` one above the old value
      (default 0) in every branch, and status "pending" on success, "fail" otherwise. */
  function RetryGenerate(s: State, call: string -> LlmOutcome, decode: string -> Decoded): (u: State)
    ensures u.retryCount == Some(RetryCountOf(s) + 1)
    ensures u.requirement.None? && u.humanApproval.None? && u.humanFeedback.None?
    ensures u.testCases.Some? && u.errors.Some? && |u.errors.value| <= 1
    ensures u.validationStatus == Some(if u.errors.value == [] then Pending else Fail)
    ensures |u.errors.value| == 1 ==> u.testCases.value == NoCases
    ensures u.testCases == GenerateTests(s, call, decode).testCases
    ensures u.errors == GenerateTests(s, call, decode).errors
  {
    var a := Generation(s.requirement, call, decode);
    Blank.(testCases := Some(BatchOf(a)), errors := Some(ErrorsOf(a)),
           retryCount := Some(RetryCountOf(s) + 1),
           validationStatus := Some(if a.Produced? then Pending else Fail))
  }

  /** The batch the nodes after generation read: `state.get("test_cases", [])`. */
  function BatchIn(s: State): Batch {
    s.testCases.GetOr(NoCases)
  }

  /** `validate_tests`: writes only `validation_status`, "pass" exactly when the batch
      (default empty) is a valid list of cases. A list of objects never raises; other
      shapes can raise the `TypeError` of `len()` or of the field lookups. */
  function ValidateTests(s: State): (r: Result<State, Fault>)
    ensures r.Success? ==> Merge(s, r.value) == s.(validationStatus := r.value.validationStatus)
    ensures r.Success? ==> r.value.validationStatus == Some(Pass) || r.value.validationStatus == Some(Fail)
    ensures r.Success? && r.value.validationStatus == Some(Pass) <==> AllValid(BatchIn(s))
    ensures IsRecords(BatchIn(s)) ==> r.Success?
    ensures r.Failure? ==> r.error.TypeError?
    ensures r.Success? <==> Validate(BatchIn(s)).Success?
    ensures r.Success? ==> r.value.validationStatus == Some(Validate(BatchIn(s)).value)
    ensures r.Failure? ==> r.error == Validate(BatchIn(s)).error
  {
    match Validate(BatchIn(s))
    case Success(v) => Success(Blank.(validationStatus := Some(v)))
    case Failure(f) => Failure(f)
  }

  /** The node on the shapes a reply can decode to: a string of three or more
      characters is judged "fail" without raising, and `[1, 2, 3]` raises at the
      first field lookup. */
  lemma ValidateTestsShapes(s: State, t: string)
    ensures s.testCases == Some(Text(t)) && |t| >= MinCases ==>
      ValidateTests(s) == Success(Blank.(validationStatus := Some(Fail)))
    ensures s.testCases == Some(Items([JInt(1), JInt(2), JInt(3)])) ==>
      ValidateTests(s) == Failure(TypeError("argument of type 'int' is not iterable"))
  {
    if |t| >= MinCases {
      TextBatch(t);
    }
    ScalarListRaises();
  }

  /** `show_preview`: prints every case and sets `human_approval` back to "pending";
      a case whose steps have no length or whose expected text cannot be sliced raises. */
  function ShowPreview(s: State): (r: Result<State, Fault>)
    ensures r.Success? <==> PreviewPrintable(BatchIn(s))
    ensures r.Success? ==> r.value == Blank.(humanApproval := Some(Pending))
    ensures r.Failure? ==> r.error.TypeError?
  {
    if PreviewPrintable(BatchIn(s)) then Success(Blank.(humanApproval := Some(Pending)))
    else Failure(TypeError("preview"))
  }

  /** `human_approval`: the operator's decision and feedback, and how many lines it read.
      Each line is stripped as it is read. */
  function HumanApprovalNode(s: State, input: seq<string>): (r: Result<(State, nat), Fault>)
    ensures r.Success? ==> 1 <= r.value.1 <= |input|
    ensures r.Success? ==> var u := r.value.0;
      && u.humanFeedback.Some? && u.humanFeedback.value != ""
      && (u.humanApproval == Some("approved") || u.humanApproval == Some("rejected"))
      && Merge(s, u) == s.(humanApproval := u.humanApproval, humanFeedback := u.humanFeedback)
    ensures r.Failure? <==> HumanApproval(BatchIn(s), StripAll(input)).Failure?
    ensures r.Success? ==> var a := HumanApproval(BatchIn(s), StripAll(input)).value;
      r.value == (Blank.(humanApproval := Some(DecisionText(a.decision)), humanFeedback := Some(a.feedback)), a.consumed)
    ensures r.Failure? ==> r.error == InputExhausted || r.error.TypeError?
  {
    ApprovalFaults(BatchIn(s), StripAll(input));
    match HumanApproval(BatchIn(s), StripAll(input))
    case Failure(f) => Failure(f)
    case Success(a) =>
      Success((Blank.(humanApproval := Some(DecisionText(a.decision)), humanFeedback := Some(a.feedback)), a.consumed))
  }

  /** What `save_outputs` did with the files: nothing, both files for a list of
      cases, or the raw JSON for a batch of another shape, whose table the model does
      not follow. */
  datatype Saved = Skipped | Wrote(cases: seq<Record>) | Unshaped(batch: Batch)

  /** `save_outputs`: `state["test_cases"]` must exist; a falsy batch is skipped; a
      list of cases is written as raw JSON and as CSV, and the CSV export raises on a
      step that is not a string. The update is always empty. */
  function SaveOutputs(s: State): (r: Result<Saved, Fault>)
    ensures s.testCases.None? <==> r == Failure(MissingKey("test_cases"))
    ensures r == Success(Skipped) <==> s.testCases.Some? && !BatchTruthy(s.testCases.value)
    ensures s.testCases.Some? && BatchTruthy(s.testCases.value) && IsRecords(s.testCases.value) ==>
      (r.Success? <==> CsvExportable(RecordsOf(s.testCases.value)))
    ensures r.Failure? ==> r.error == MissingKey("test_cases") || r.error.TypeError?
    ensures r.Success? && r.value.Wrote? ==>
      Batched(r.value.cases) == s.testCases.value && |r.value.cases| > 0
    ensures r.Success? && r.value.Unshaped? ==> r.value.batch == s.testCases.value && !IsRecords(r.value.batch)
  {
    match s.testCases
    case None => Failure(MissingKey("test_cases"))
    case Some(b) =>
      if !BatchTruthy(b) then Success(Skipped)
      else if !IsRecords(b) then Success(Unshaped(b))
      else if !CsvExportable(RecordsOf(b)) then Failure(TypeError("steps join"))
      else Success(Wrote(RecordsOf(b)))
  }
}

=== FILE: testcase_graph.dfy ===
/** The wiring of the test-case pipeline (src/graph/test_case_generator/graph.py) and
    what it guarantees when run: read, generate and validate once, loop through retry
    while validation fails and retries remain, then preview, ask the operator, and
    either save or retry again. */
module TestCaseGraph {
  import opened Wrappers
  import opened PyStr
  import opened Workflow
  import opened TestCaseRules
  import opened TestCaseGenerator

  datatype Node = Read | Generate | Validate | Retry | Preview | Approval | Save

  const Entry: Node := Read

  /** The edge table of `build_graph`. */
  function Wiring(n: Node): Edge<Node> {
    match n
    case Read => Static(To(Generate))
    case Generate => Static(To(Validate))
    case Validate => Conditional(map["preview" := To(Preview), "retry" := To(Retry)])
    case Preview => Static(To(Approval))
    case Approval => Conditional(map["save" := To(Save), "retry" := To(Retry)])
    case Retry => Static(To(Validate))
    case Save => Static(End)
  }

  /** What the nodes cannot compute themselves: the requirement file's text, the model's
      answer to its `i`-th call, and the decoder. */
  datatype Env = Env(requirementText: string, llm: nat -> string -> LlmOutcome, decode: string -> Decoded)

  /** The state plus the oracle cursors: model calls made so far, the operator's
      remaining lines, and the batches written by `save_outputs`. */
  datatype World = World(st: State, calls: nat, input: seq<string>, written: seq<seq<Record>>)

  function InitWorld(input: seq<string>): World {
    World(InitState, 0, input, [])
  }

  /** One node: run it, merge its update, and let the router look at the merged state. */
  function ExecNode(env: Env, n: Node, w: World): Result<Out<World>, Fault> {
    match n
    case Read => Success(ReadStep(env, w))
    case Generate => Success(GenerateStep(env, w))
    case Validate => ValidateStep(w)
    case Retry => Success(RetryStep(env, w))
    case Preview => PreviewStep(w)
    case Approval => ApprovalStep(w)
    case Save => SaveStep(w)
  }

  function ReadStep(env: Env, w: World): Out<World> {
    Out(w.(st := Merge(w.st, ReadRequirement(env.requirementText))), "")
  }

  /** Generate asks the model with call index `calls`. */
  function GenerateStep(env: Env, w: World): Out<World> {
    var st := Merge(w.st, GenerateTests(w.st, env.llm(w.calls), env.decode));
    Out(w.(st := st, calls := w.calls + 1), "")
  }

  function ValidateStep(w: World): Result<Out<World>, Fault> {
    match ValidateTests(w.st)
    case Failure(f) => Failure(f)
    case Success(u) =>
      var st := Merge(w.st, u);
      Success(Out(w.(st := st), RouteAfterValidation(st.validationStatus, st.retryCount)))
  }

  function RetryStep(env: Env, w: World): Out<World> {
    var st := Merge(w.st, RetryGenerate(w.st, env.llm(w.calls), env.decode));
    Out(w.(st := st, calls := w.calls + 1), "")
  }

  function PreviewStep(w: World): Result<Out<World>, Fault> {
    match ShowPreview(w.st)
    case Failure(f) => Failure(f)
    case Success(u) => Success(Out(w.(st := Merge(w.st, u)), ""))
  }

  /** Approval consumes the lines the dialogue read. */
  function ApprovalStep(w: World): Result<Out<World>, Fault> {
    match HumanApprovalNode(w.st, w.input)
    case Failure(f) => Failure(f)
    case Success(res) =>
      var st := Merge(w.st, res.0);
      Success(Out(w.(st := st, input := w.input[res.1..]), RouteAfterApproval(st.humanApproval)))
  }

  /** Save records the batch it wrote, if any. */
  function SaveStep(w: World): Result<Out<World>, Fault> {
    match SaveOutputs(w.st)
    case Failure(f) => Failure(f)
    case Success(saved) =>
      Success(Out(w.(written := w.written + (if saved.Wrote? then [saved.cases] else [])), ""))
  }

  function Exec(env: Env): (Node, World) -> Result<Out<World>, Fault> {
    (n, w) => ExecNode(env, n, w)
  }

  /** A bounded run of the compiled graph from `at`. */
  function RunFrom(env: Env, at: Node, w: World, fuel: nat): Outcome<Node, World> {
    Run(Wiring, Exec(env), at, w, fuel)
  }

  // ---------------------------------------------------------------------------
  // The wiring
  // ---------------------------------------------------------------------------

  /** The label tables hold every label the routers return. */
  lemma TablesCoverRouters(status: Option<string>, count: Option<int>, approval: Option<string>)
    ensures Covers(Wiring(Validate), {"preview", "retry"})
    ensures Covers(Wiring(Approval), {"save", "retry"})
    ensures Route(Wiring(Validate), RouteAfterValidation(status, count)).Success?
    ensures Route(Wiring(Approval), RouteAfterApproval(approval)).Success?
  {
  }

  /** Who leads where: retry always returns to validate, preview always goes to
      approval, only read leads to generate, only approval leads to save, only save
      leads to the end, and nothing leads back to read. */
  lemma WiringShape(n: Node)
    ensures Successors(Wiring(Retry)) == {To(Validate)}
    ensures Successors(Wiring(Preview)) == {To(Approval)}
    ensures To(Generate) in Successors(Wiring(n)) <==> n == Read
    ensures To(Save) in Successors(Wiring(n)) <==> n == Approval
    ensures End in Successors(Wiring(n)) <==> n == Save
    ensures To(Read) !in Successors(Wiring(n))
  {
    TwoWaySuccessors("preview", To(Preview), "retry", To(Retry));
    TwoWaySuccessors("save", To(Save), "retry", To(Retry));
  }

  /** On every path from the entry, generate occurs only as the second node: it runs
      at most once. */
  lemma {:induction false} GenerateOnlySecond(p: seq<Node>)
    requires |p| > 0 && p[0] == Entry && IsPath(Wiring, p)
    ensures forall i :: 0 <= i < |p| && p[i] == Generate ==> i == 1
    ensures forall i :: 0 < i < |p| ==> p[i] != Read
  {
    forall i | 0 < i < |p| ensures p[i] != Read {
      WiringShape(p[i - 1]);
    }
    forall i | 0 <= i < |p| && p[i] == Generate ensures i == 1 {
      WiringShape(p[i - 1]);
    }
  }

  /** On every path, save is entered only straight from approval. */
  lemma SaveOnlyAfterApproval(p: seq<Node>)
    requires IsPath(Wiring, p)
    ensures forall i :: 0 < i < |p| && p[i] == Save ==> p[i - 1] == Approval
  {
    forall i | 0 < i < |p| && p[i] == Save ensures p[i - 1] == Approval {
      WiringShape(p[i - 1]);
    }
  }

  // ---------------------------------------------------------------------------
  // Steps
  // ---------------------------------------------------------------------------

  /** No step ends in an unknown-label fault: every router label is in its table. */
  lemma StepRoutes(env: Env, n: Node, w: World)
    ensures ExecNode(env, n, w).Success? ==> Route(Wiring(n), ExecNode(env, n, w).value.choice).Success?
  {
    if n == Validate && ExecNode(env, n, w).Success? {
      var st' := ExecNode(env, n, w).value.state.st;
      TablesCoverRouters(st'.validationStatus, st'.retryCount, None);
    } else if n == Approval && ExecNode(env, n, w).Success? {
      TablesCoverRouters(None, None, ExecNode(env, n, w).value.state.st.humanApproval);
    }
  }

  /** Each step keeps `retry_count`, except retry, which adds exactly one; retry itself
      never raises. */
  lemma StepRetryCount(env: Env, n: Node, w: World)
    ensures n == Retry ==> ExecNode(env, n, w).Success?
    ensures ExecNode(env, n, w).Success? ==>
      RetryCountOf(ExecNode(env, n, w).value.state.st) == RetryCountOf(w.st) + (if n == Retry then 1 else 0)
  {
  }

  /** A step that leads into save comes from approval with the decision "approved". */
  lemma SaveNeedsApproval(w: World)
    requires ApprovalStep(w).Success?
    requires Route(Wiring(Approval), ApprovalStep(w).value.choice) == Success(To(Save))
    ensures ApprovalStep(w).value.state.st.humanApproval == Some("approved")
  {
    SaveLabel(ApprovalStep(w).value.choice);
    ApprovalSaves(w);
  }

  lemma SaveLabel(choice: string)
    requires Route(Wiring(Approval), choice) == Success(To(Save))
    ensures choice == "save"
  {
  }

  lemma ApprovalSaves(w: World)
    requires ApprovalStep(w).Success? && ApprovalStep(w).value.choice == "save"
    ensures ApprovalStep(w).value.state.st.humanApproval == Some("approved")
  {
  }

  // ---------------------------------------------------------------------------
  // Runs
  // ---------------------------------------------------------------------------

  /** A step that leads on: the run is the node followed by the run from its successor. */
  lemma Through(env: Env, at: Node, w: World, fuel: nat, o: Out<World>, next: Node)
    requires fuel > 0 && ExecNode(env, at, w) == Success(o)
    requires Route(Wiring(at), o.choice) == Success(To(next))
    ensures RunFrom(env, at, w, fuel).trace == [at] + RunFrom(env, next, o.state, fuel - 1).trace
    ensures RunFrom(env, at, w, fuel).state == RunFrom(env, next, o.state, fuel - 1).state
    ensures RunFrom(env, at, w, fuel).Crashed? == RunFrom(env, next, o.state, fuel - 1).Crashed?
    ensures RunFrom(env, at, w, fuel).Crashed? ==>
      RunFrom(env, at, w, fuel).fault == RunFrom(env, next, o.state, fuel - 1).fault
  {
    assert Exec(env)(at, w) == ExecNode(env, at, w);
    RunThrough(Wiring, Exec(env), at, w, fuel, o, next);
  }

  /** A step that faults or ends the run is its last. */
  lemma Stops(env: Env, at: Node, w: World, fuel: nat)
    requires fuel > 0
    requires ExecNode(env, at, w).Success? ==>
      var route := Route(Wiring(at), ExecNode(env, at, w).value.choice);
      route.Failure? || route.value == End
    ensures RunFrom(env, at, w, fuel).trace == [at]
    ensures ExecNode(env, at, w).Failure? ==>
      RunFrom(env, at, w, fuel) == Crashed(ExecNode(env, at, w).error, w, [at])
    ensures ExecNode(env, at, w).Success? ==>
      RunFrom(env, at, w, fuel).state == ExecNode(env, at, w).value.state
  {
    assert Exec(env)(at, w) == ExecNode(env, at, w);
    RunStops(Wiring, Exec(env), at, w, fuel);
  }

  /** Where each step leads, as a run: the node, then the run from its successor. */
  lemma ReadLeads(env: Env, w: World, fuel: nat)
    requires fuel > 0
    ensures RunFrom(env, Read, w, fuel).trace == [Read] + RunFrom(env, Generate, ReadStep(env, w).state, fuel - 1).trace
  {
    Through(env, Read, w, fuel, ReadStep(env, w), Generate);
  }

  lemma GenerateLeads(env: Env, w: World, fuel: nat)
    requires fuel > 0
    ensures RunFrom(env, Generate, w, fuel).trace
      == [Generate] + RunFrom(env, Validate, GenerateStep(env, w).state, fuel - 1).trace
  {
    Through(env, Generate, w, fuel, GenerateStep(env, w), Validate);
  }

  lemma RetryLeads(env: Env, w: World, fuel: nat)
    requires fuel > 0
    ensures RunFrom(env, Retry, w, fuel).trace
      == [Retry] + RunFrom(env, Validate, RetryStep(env, w).state, fuel - 1).trace
  {
    Through(env, Retry, w, fuel, RetryStep(env, w), Validate);
  }

  lemma ValidateLeads(env: Env, w: World, fuel: nat)
    requires fuel > 0 && ValidateStep(w).Success?
    ensures var o := ValidateStep(w).value;
      RunFrom(env, Validate, w, fuel).trace
        == [Validate] + RunFrom(env, if o.choice == "retry" then Retry else Preview, o.state, fuel - 1).trace
  {
    var o := ValidateStep(w).value;
    Through(env, Validate, w, fuel, o, if o.choice == "retry" then Retry else Preview);
  }

  lemma ApprovalLeads(env: Env, w: World, fuel: nat)
    requires fuel > 0 && ApprovalStep(w).Success?
    ensures var o := ApprovalStep(w).value;
      RunFrom(env, Approval, w, fuel).trace
        == [Approval] + RunFrom(env, if o.choice == "retry" then Retry else Save, o.state, fuel - 1).trace
  {
    var o := ApprovalStep(w).value;
    Through(env, Approval, w, fuel, o, if o.choice == "retry" then Retry else Save);
  }

  /** With one step of fuel left, the run enters exactly the node it starts at. */
  lemma LastStep(env: Env, at: Node, w: World)
    ensures RunFrom(env, at, w, 1).trace == [at]
  {
  }

  /** No run ever stops with an unknown router label. */
  lemma RunNeverUnknownLabel(env: Env, at: Node, w: World, fuel: nat)
    ensures var r := RunFrom(env, at, w, fuel); r.Crashed? ==> !r.fault.UnknownLabel?
  {
    forall n, t | Exec(env)(n, t).Failure? ensures !Exec(env)(n, t).error.UnknownLabel? {
      NodeFaults(env, n, t);
    }
    forall n, t | Exec(env)(n, t).Success?
      ensures Route(Wiring(n), Exec(env)(n, t).value.choice).Success?
    {
      StepRoutes(env, n, t);
    }
    RunNeverMisroutes(Wiring, Exec(env), at, w, fuel);
  }

  /** The faults a node raises itself: exhausted input, a type error, or a missing key. */
  lemma NodeFaults(env: Env, n: Node, w: World)
    ensures ExecNode(env, n, w).Failure? ==> !ExecNode(env, n, w).error.UnknownLabel?
  {
    match n
    case Preview =>
    case Approval =>
    case Save =>
    case _ =>
  }

  /** Along every run, `retry_count` grows by exactly the number of retry steps taken:
      it never decreases. */
  lemma RunCountsRetries(env: Env, at: Node, w: World, fuel: nat)
    ensures var r := RunFrom(env, at, w, fuel);
      RetryCountOf(r.state.st) == RetryCountOf(w.st) + Count(r.trace, Retry)
    ensures RetryCountOf(RunFrom(env, at, w, fuel).state.st) >= RetryCountOf(w.st)
  {
    var measure := (t: World) => RetryCountOf(t.st);
    forall t ensures Exec(env)(Retry, t).Success? {
      StepRetryCount(env, Retry, t);
    }
    forall n, t | Exec(env)(n, t).Success?
      ensures measure(Exec(env)(n, t).value.state) == measure(t) + (if n == Retry then 1 else 0)
    {
      StepRetryCount(env, n, t);
    }
    RunTallies(Wiring, Exec(env), measure, Retry, at, w, fuel);
  }

  /** Every run from the entry generates at most once, enters save only from approval,
      and, when it halts, halts right after save. */
  lemma RunShape(env: Env, w: World, fuel: nat)
    ensures var r := RunFrom(env, Entry, w, fuel);
      && Count(r.trace, Generate) <= 1
      && (forall i :: 0 < i < |r.trace| && r.trace[i] == Save ==> r.trace[i - 1] == Approval)
      && (r.Halted? ==> r.trace[|r.trace| - 1] == Save)
  {
    var r := RunFrom(env, Entry, w, fuel);
    RunFollowsWiring(Wiring, Exec(env), Entry, w, fuel);
    SaveOnlyAfterApproval(r.trace);
    if fuel > 0 {
      GenerateOnlySecond(r.trace);
      AtMostOnceAt(r.trace, Generate, 1);
      if r.Halted? {
        WiringShape(r.trace[|r.trace| - 1]);
      }
    }
  }

  /** The call `i` of the model, as generate or retry makes it with the requirement text. */
  function AttemptAt(env: Env, i: nat): Attempt {
    AttemptOf(env.llm(i)(env.requirementText), env.decode)
  }

  /** The nodes entered from validate when `k` more retries remain and every attempt
      fails validation: `k` rounds of validate and retry, then validate and preview. */
  function FailingLoop(k: nat): (t: seq<Node>)
    ensures |t| == 2 * k + 2
  {
    if k == 0 then [Validate, Preview] else [Validate, Retry] + FailingLoop(k - 1)
  }

  /** From validate with `retry_count = r <= 3`, when the batch at hand and every later
      attempt fail validation, the run retries exactly `3 - r` times and then previews. */
  lemma {:induction false} FailingLoopRun(env: Env, w: World, r: nat)
    requires r <= 3 && w.st.retryCount == Some(r) && w.calls == r + 1
    requires w.st.requirement == Some(env.requirementText)
    requires TestCaseRules.Validate(BatchIn(w.st)) == Success(Fail)
    requires forall i :: r + 1 <= i <= 3 ==> TestCaseRules.Validate(BatchOf(AttemptAt(env, i))) == Success(Fail)
    ensures RunFrom(env, Validate, w, 2 * (3 - r) + 2).trace == FailingLoop(3 - r)
    decreases 3 - r, 1
  {
    if r == 3 {
      assert 2 * (3 - r) + 2 == 2;
      FailingEnd(env, w);
    } else {
      FailingLoopStep(env, w, r);
    }
  }

  /** Below the limit: one failing round, then the rest of the loop. */
  lemma {:induction false} FailingLoopStep(env: Env, w: World, r: nat)
    requires r < 3 && w.st.retryCount == Some(r) && w.calls == r + 1
    requires w.st.requirement == Some(env.requirementText)
    requires TestCaseRules.Validate(BatchIn(w.st)) == Success(Fail)
    requires forall i :: r + 1 <= i <= 3 ==> TestCaseRules.Validate(BatchOf(AttemptAt(env, i))) == Success(Fail)
    ensures RunFrom(env, Validate, w, 2 * (3 - r) + 2).trace == FailingLoop(3 - r)
    decreases 3 - r, 0
  {
    var fuel := 2 * (3 - r) + 2;
    var w2 := FailingRound(env, w, r, fuel);
    assert fuel - 2 == 2 * (3 - (r + 1)) + 2;
    assert TestCaseRules.Validate(BatchOf(AttemptAt(env, r + 1))) == Success(Fail);
    FailingLoopRun(env, w2, r + 1);
    var rest := RunFrom(env, Validate, w2, fuel - 2).trace;
    FailingLoopCons(RunFrom(env, Validate, w, fuel).trace, rest, r);
  }

  /** One more failing round in front of the rest of the loop. */
  lemma FailingLoopCons(t: seq<Node>, rest: seq<Node>, r: nat)
    requires r < 3 && t == [Validate, Retry] + rest && rest == FailingLoop(3 - (r + 1))
    ensures t == FailingLoop(3 - r)
  {
  }

  /** One failed validation below the limit: validate, retry, and back to validate with
      the next attempt's batch. */
  lemma FailingRound(env: Env, w: World, r: nat, fuel: nat) returns (w2: World)
    requires r < 3 && w.st.retryCount == Some(r) && w.calls == r + 1 && fuel >= 2
    requires w.st.requirement == Some(env.requirementText)
    requires TestCaseRules.Validate(BatchIn(w.st)) == Success(Fail)
    ensures RunFrom(env, Validate, w, fuel).trace == [Validate, Retry] + RunFrom(env, Validate, w2, fuel - 2).trace
    ensures BatchIn(w2.st) == BatchOf(AttemptAt(env, r + 1))
    ensures w2.st.retryCount == Some(r + 1) && w2.calls == r + 2
    ensures w2.st.requirement == Some(env.requirementText)
  {
    var o1 := ValidateStep(w).value;
    assert o1.choice == "retry";
    ValidateLeads(env, w, fuel);
    RetryLeads(env, o1.state, fuel - 1);
    w2 := RetryStep(env, o1.state).state;
    PrependTwo(Validate, Retry, RunFrom(env, Validate, w2, fuel - 2).trace);
    RetryAfterFail(env, w, r);
  }

  lemma PrependTwo(a: Node, b: Node, rest: seq<Node>)
    ensures [a] + ([b] + rest) == [a, b] + rest
  {
  }

  /** The retry after a failed validation asks the model once more for the same
      requirement and counts the attempt. */
  lemma RetryAfterFail(env: Env, w: World, r: nat)
    requires w.st.retryCount == Some(r) && w.calls == r + 1
    requires w.st.requirement == Some(env.requirementText)
    requires ValidateStep(w).Success?
    ensures var w2 := RetryStep(env, ValidateStep(w).value.state).state;
      && BatchIn(w2.st) == BatchOf(AttemptAt(env, r + 1))
      && w2.st.retryCount == Some(r + 1) && w2.calls == r + 2
      && w2.st.requirement == Some(env.requirementText)
  {
    assert ValidateStep(w).value.state.st.requirement == w.st.requirement;
  }

  /** A failed validation at the limit goes to preview. */
  lemma FailingEnd(env: Env, w: World)
    requires w.st.retryCount == Some(3) && TestCaseRules.Validate(BatchIn(w.st)) == Success(Fail)
    ensures RunFrom(env, Validate, w, 2).trace == [Validate, Preview] == FailingLoop(0)
  {
    var o1 := ValidateStep(w).value;
    assert o1.choice == "preview";
    ValidateLeads(env, w, 2);
    LastStep(env, Preview, o1.state);
  }

  /** From the driver's initial state, when every attempt fails validation, the run
      validates four times and retries three times before the first preview. */
  lemma FourAttemptsBeforePreview(env: Env, input: seq<string>)
    requires forall i :: 0 <= i <= 3 ==> TestCaseRules.Validate(BatchOf(AttemptAt(env, i))) == Success(Fail)
    ensures RunFrom(env, Entry, InitWorld(input), 10).trace
      == [Read, Generate, Validate, Retry, Validate, Retry, Validate, Retry, Validate, Preview]
  {
    var w2 := GenerateStep(env, ReadStep(env, InitWorld(input)).state).state;
    EntryReachesLoop(env, input);
    FailingLoopRun(env, w2, 0);
    assert RunFrom(env, Entry, InitWorld(input), 10).trace == [Read] + ([Generate] + FailingLoop(3));
    FailingLoopThree();
  }

  /** From the driver's initial state, read and generate lead to validate with the
      first attempt's batch. */
  lemma EntryReachesLoop(env: Env, input: seq<string>)
    ensures var w2 := GenerateStep(env, ReadStep(env, InitWorld(input)).state).state;
      && RunFrom(env, Entry, InitWorld(input), 10).trace
           == [Read] + ([Generate] + RunFrom(env, Validate, w2, 8).trace)
      && BatchIn(w2.st) == BatchOf(AttemptAt(env, 0))
      && w2.st.retryCount == Some(0) && w2.calls == 1
      && w2.st.requirement == Some(env.requirementText)
  {
    var w0 := InitWorld(input);
    var w1 := ReadStep(env, w0).state;
    ReadLeads(env, w0, 10);
    GenerateLeads(env, w1, 9);
  }

  lemma FailingLoopThree()
    ensures [Read] + ([Generate] + FailingLoop(3))
      == [Read, Generate, Validate, Retry, Validate, Retry, Validate, Retry, Validate, Preview]
  {
  }

  /** The batch the next generation or retry produces from `w`: the model's answer to
      call `calls` on the state's requirement. */
  function NextBatch(env: Env, w: World): Batch {
    BatchOf(Generation(w.st.requirement, env.llm(w.calls), env.decode))
  }

  /** A rejection once `retry_count` is two or more leads to exactly one retry, then
      validate, then preview, whatever cases the new batch holds; a batch of a shape
      validation cannot index stops the run at validate instead. */
  lemma RejectionNearLimit(env: Env, w: World)
    requires RetryCountOf(w.st) >= 2
    requires |w.input| >= 2 && Strip(w.input[0]) == "2"
    ensures TestCaseRules.Validate(NextBatch(env, w)).Success? ==>
      RunFrom(env, Approval, w, 4).trace == [Approval, Retry, Validate, Preview]
    ensures TestCaseRules.Validate(NextBatch(env, w)).Failure? ==>
      RunFrom(env, Approval, w, 4).trace == [Approval, Retry, Validate]
      && RunFrom(env, Approval, w, 4).Crashed?
    ensures IsRecords(NextBatch(env, w)) ==>
      RunFrom(env, Approval, w, 4).trace == [Approval, Retry, Validate, Preview]
  {
    var w1 := RejectionLeadsToRetry(env, w);
    RetryAtLimit(env, w1);
    PrependFour(Approval, Retry, Validate, Preview);
    PrependThree(Approval, Retry, Validate);
  }

  /** A rejection is approval followed by the run from retry, in a world that keeps
      the count, the requirement and the call cursor. */
  lemma RejectionLeadsToRetry(env: Env, w: World) returns (w1: World)
    requires |w.input| >= 2 && Strip(w.input[0]) == "2"
    ensures RunFrom(env, Approval, w, 4).trace == [Approval] + RunFrom(env, Retry, w1, 3).trace
    ensures RunFrom(env, Approval, w, 4).Crashed? == RunFrom(env, Retry, w1, 3).Crashed?
    ensures RetryCountOf(w1.st) == RetryCountOf(w.st) && NextBatch(env, w1) == NextBatch(env, w)
  {
    RejectionRetries(w);
    var o := ApprovalStep(w).value;
    assert Route(Wiring(Approval), o.choice) == Success(To(Retry));
    Through(env, Approval, w, 4, o, Retry);
    w1 := o.state;
    assert w1.st.requirement == w.st.requirement && w1.calls == w.calls;
  }

  lemma PrependFour(a: Node, b: Node, c: Node, d: Node)
    ensures [a] + [b, c, d] == [a, b, c, d]
  {
  }

  lemma PrependThree(a: Node, b: Node, c: Node)
    ensures [a] + [b, c] == [a, b, c]
  {
  }

  /** A retry once `retry_count` is two or more is the last one: validate then sends
      the new batch to preview, or raises on a batch it cannot index. */
  lemma RetryAtLimit(env: Env, w: World)
    requires RetryCountOf(w.st) >= 2
    ensures TestCaseRules.Validate(NextBatch(env, w)).Success? ==>
      RunFrom(env, Retry, w, 3).trace == [Retry, Validate, Preview]
    ensures TestCaseRules.Validate(NextBatch(env, w)).Failure? ==>
      RunFrom(env, Retry, w, 3).trace == [Retry, Validate] && RunFrom(env, Retry, w, 3).Crashed?
    ensures IsRecords(NextBatch(env, w)) ==> RunFrom(env, Retry, w, 3).trace == [Retry, Validate, Preview]
  {
    var w2 := RetryStep(env, w).state;
    RetryLeads(env, w, 3);
    Through(env, Retry, w, 3, RetryStep(env, w), Validate);
    assert RetryCountOf(w2.st) >= 3;
    assert BatchIn(w2.st) == NextBatch(env, w);
    if ValidateStep(w2).Success? {
      ValidateLeads(env, w2, 2);
      assert ValidateStep(w2).value.choice == "preview";
      LastStep(env, Preview, ValidateStep(w2).value.state);
    } else {
      Stops(env, Validate, w2, 2);
    }
  }

  /** A first line "2" followed by any feedback line makes approval route to retry and
      leaves `retry_count` alone. */
  lemma RejectionRetries(w: World)
    requires |w.input| >= 2 && Strip(w.input[0]) == "2"
    ensures ApprovalStep(w).Success?
    ensures ApprovalStep(w).value.choice == "retry"
    ensures RetryCountOf(ApprovalStep(w).value.state.st) == RetryCountOf(w.st)
    ensures ApprovalStep(w).value.state.st.requirement == w.st.requirement
    ensures ApprovalStep(w).value.state.calls == w.calls
  {
    var lines := StripAll(w.input);
    ClassifyMeans(lines[0]);
    var ans := HumanApproval(BatchIn(w.st), lines);
    assert ans.Success? && ans.value.decision == Rejected;
  }
}

=== FILE: testcase_memory.dfy ===
/** The nodes of the memory-aware test-case pipeline (src/graph/testcase_memory/nodes.py
    and state.py). Besides the state, the nodes read and write two module-level
    singletons: a conversation buffer of at most 20 messages and a long-term store.
    Both are threaded through the nodes here as values. The model call, the decoder,
    the two similarity searches and the clock are parameters. The validator and the
    routers are the shared ones of `TestCaseRules`. */
module TestCaseMemory {
  import opened Wrappers
  import opened PyStr
  import opened Json
  import opened Workflow
  import opened Memory
  import opened Retrieval
  import opened TestCaseRules

  /** `TestCaseState`: every key may be absent. */
  datatype State = State(
    requirement: Option<string>,
    retrievedContext: Option<string>,
    conversationHistory: Option<seq<Message>>,
    pastPatterns: Option<string>,
    testCases: Option<Batch>,
    errors: Option<seq<string>>,
    validationStatus: Option<string>,
    retryCount: Option<int>,
    humanApproval: Option<string>,
    humanFeedback: Option<string>)

  /** `{}`: the empty update. */
  const Blank: State := State(None, None, None, None, None, None, None, None, None, None)

  /** The runtime's shallow merge: every key the update holds overwrites the state's. */
  function Merge(s: State, u: State): State {
    State(
      s.requirement.Overwrite(u.requirement),
      s.retrievedContext.Overwrite(u.retrievedContext),
      s.conversationHistory.Overwrite(u.conversationHistory),
      s.pastPatterns.Overwrite(u.pastPatterns),
      s.testCases.Overwrite(u.testCases),
      s.errors.Overwrite(u.errors),
      s.validationStatus.Overwrite(u.validationStatus),
      s.retryCount.Overwrite(u.retryCount),
      s.humanApproval.Overwrite(u.humanApproval),
      s.humanFeedback.Overwrite(u.humanFeedback))
  }

  /** The cap of the shared conversation buffer and the store's collection name. */
  const ConversationCap: int := 20
  const CollectionName: string := "testcase_memory"

  /** The two singletons as the module creates them. */
  const InitConversation: ConversationMemory := NewConversationMemory(ConversationCap)
  const InitStore: PersistentMemory := PersistentMemory(CollectionName, [])

  /** A similarity search: the hits for a query and a `top_k`. */
  type Search = string -> nat -> seq<Hit>

  function RetryCountOf(s: State): int {
    s.retryCount.GetOr(0)
  }

  /** `read_requirement`, with the picked file's text as a parameter. */
  function ReadRequirement(text: string): (u: State)
    ensures Merge(Blank, u).requirement == Some(text)
    ensures u.(requirement := None) == Blank
  {
    Blank.(requirement := Some(text))
  }

  // ---------------------------------------------------------------------------
  // load_memories and retrieve_context
  // ---------------------------------------------------------------------------

  /** The long-term query: the lead and the first 200 characters of the requirement. */
  function PatternQuery(requirement: string): string {
    Query("test case patterns for: ", requirement, 200)
  }

  /** The knowledge-base query: the lead and the first 200 characters. */
  function GuidelineQuery(requirement: string): string {
    Query("test case guidelines for: ", requirement, 200)
  }

  const PatternTopK: nat := 2
  const GuidelineTopK: nat := 3

  /** `load_memories`: `state["requirement"]` must exist; the update holds only the
      conversation buffer's messages and the formatted past patterns, empty exactly when
      the long-term search for the requirement's preview found nothing. */
  function LoadMemories(s: State, conv: ConversationMemory, recall: Search): (r: Result<State, Fault>)
    ensures r.Failure? <==> s.requirement.None?
    ensures r.Failure? ==> r.error == MissingKey("requirement")
    ensures r.Success? ==>
      && r.value.(conversationHistory := None, pastPatterns := None) == Blank
      && r.value.conversationHistory == Some(GetHistory(conv))
      && r.value.pastPatterns.Some?
      && (r.value.pastPatterns.value == "" <==> |recall(PatternQuery(s.requirement.value))(PatternTopK)| == 0)
    ensures r.Success? ==>
      r.value.pastPatterns == Some(PersistentContext(recall(PatternQuery(s.requirement.value))(PatternTopK)))
  {
    match s.requirement
    case None => Failure(MissingKey("requirement"))
    case Some(req) =>
      var past := PersistentContext(recall(PatternQuery(req))(PatternTopK));
      Success(Blank.(conversationHistory := Some(GetHistory(conv)), pastPatterns := Some(past)))
  }

  /** `retrieve_context`: `state["requirement"]` must exist and every hit's source must
      be a string; the update holds only the formatted context, empty exactly when the
      search found nothing. */
  function RetrieveContext(s: State, search: Search): (r: Result<State, Fault>)
    ensures s.requirement.None? ==> r == Failure(MissingKey("requirement"))
    ensures s.requirement.Some? ==>
      var hits := search(GuidelineQuery(s.requirement.value))(GuidelineTopK);
      && (r.Success? <==> SourcesReadable(hits))
      && (r.Failure? ==> r.error.TypeError?)
      && (r.Success? ==> r.value.(retrievedContext := None) == Blank
                         && r.value.retrievedContext.Some?
                         && (r.value.retrievedContext.value == "" <==> |hits| == 0)
                         && r.value.retrievedContext == Some(RetrievedContext(hits).value))
  {
    match s.requirement
    case None => Failure(MissingKey("requirement"))
    case Some(req) =>
      match RetrievedContext(search(GuidelineQuery(req))(GuidelineTopK))
      case Failure(f) => Failure(f)
      case Success(ctx) => Success(Blank.(retrievedContext := Some(ctx)))
  }

  // ---------------------------------------------------------------------------
  // generate_tests
  // ---------------------------------------------------------------------------

  const FirstInteraction: string := "First interaction"
  const NoPastPatterns: string := "No past patterns yet"
  const RequestHeader: string := "Now generate test cases for this requirement:\n"

  /** The four sections of the prompt, in order: conversation, guidelines, past
      patterns, requirement. Absent keys read as empty. */
  function PromptSections(requirement: string, s: State): (ps: seq<string>)
    ensures |ps| == 4
  {
    [ "Context from our conversation:\n"
        + OrPlaceholder(ConversationContext(s.conversationHistory.GetOr([])), FirstInteraction),
      "Company testing guidelines:\n" + s.retrievedContext.GetOr(""),
      "Past test case patterns you've used:\n" + OrPlaceholder(s.pastPatterns.GetOr(""), NoPastPatterns),
      RequestHeader + requirement ]
  }

  /** The user message of `generate_tests`: the sections separated by rules. */
  function GenerationPrompt(requirement: string, s: State): string {
    Join(SectionBreak, PromptSections(requirement, s))
  }

  /** The layout of the prompt: it opens with the conversation section, closes with
      the requirement, and holds the guidelines and past-patterns sections. */
  lemma PromptLayout(requirement: string, s: State)
    ensures var p := GenerationPrompt(requirement, s); var ps := PromptSections(requirement, s);
      && ps[0] <= p
      && |RequestHeader + requirement| <= |p| && p[|p| - |RequestHeader + requirement|..] == RequestHeader + requirement
      && (exists k: nat :: IsAt(p, ps[1], k))
      && (exists k: nat :: IsAt(p, ps[2], k))
  {
    var ps := PromptSections(requirement, s);
    assert ps[3] == RequestHeader + requirement;
    FourSections(SectionBreak, ps);
  }

  /** The placeholders: "First interaction" stands for the conversation exactly when
      there is no history, and "No past patterns yet" replaces empty past patterns. */
  lemma PromptPlaceholders(s: State)
    ensures OrPlaceholder(ConversationContext(s.conversationHistory.GetOr([])), FirstInteraction) == FirstInteraction
      <==> |s.conversationHistory.GetOr([])| == 0
    ensures s.pastPatterns.GetOr("") == "" ==> OrPlaceholder(s.pastPatterns.GetOr(""), NoPastPatterns) == NoPastPatterns
    ensures s.pastPatterns.GetOr("") != "" ==> OrPlaceholder(s.pastPatterns.GetOr(""), NoPastPatterns) == s.pastPatterns.value
  {
    assert FirstInteraction[|FirstInteraction| - 3..] == "ion";
    ConversationSection(s.conversationHistory.GetOr([]), FirstInteraction);
  }

  /** The prompt reads only the requirement, the retrieved context, the past patterns
      and the history: the batch, the errors and the operator's feedback never reach
      the model. */
  lemma PromptReadsOnlyContext(requirement: string, s: State, t: State)
    requires s.retrievedContext == t.retrievedContext && s.pastPatterns == t.pastPatterns
    requires s.conversationHistory == t.conversationHistory
    ensures GenerationPrompt(requirement, s) == GenerationPrompt(requirement, t)
  {
  }

  /** After `read_requirement`, `load_memories` and `retrieve_context`, the prompt is
      built from the buffer's messages, the past patterns recalled for the requirement
      and the guidelines found for it, whatever the state held before: its guidelines
      section holds the formatted hits, and its past-patterns section the formatted
      recall or the placeholder. */
  lemma PromptSeesMemories(s: State, req: string, conv: ConversationMemory,
                           recall: Search, search: Search)
    requires SourcesReadable(search(GuidelineQuery(req))(GuidelineTopK))
    ensures var s1 := Merge(s, ReadRequirement(req));
      var s2 := Merge(s1, LoadMemories(s1, conv, recall).value);
      var s3 := Merge(s2, RetrieveContext(s2, search).value);
      var guidelines := RetrievedContext(search(GuidelineQuery(req))(GuidelineTopK)).value;
      var past := PersistentContext(recall(PatternQuery(req))(PatternTopK));
      var ps := PromptSections(req, s3);
      && s3.requirement == Some(req)
      && s3.conversationHistory == Some(GetHistory(conv))
      && s3.pastPatterns == Some(past)
      && s3.retrievedContext == Some(guidelines)
      && ps[1] == "Company testing guidelines:\n" + guidelines
      && ps[2] == "Past test case patterns you've used:\n" + OrPlaceholder(past, NoPastPatterns)
  {
  }

  /** The two messages a successful generation leaves in the conversation buffer. */
  function RequestNote(requirement: string): string {
    "Generate tests: " + Prefix(requirement, 100) + "..."
  }

  function ResultNote(count: nat): string {
    "Generated " + NatToString(count) + " test cases"
  }

  /** The outcome of one attempt as the update of `generate_tests` and `retry_generate`
      writes it: the batch, the errors, and "pending" or "fail". */
  function AttemptUpdate(a: Attempt, retryCount: int): (u: State)
    ensures u.testCases == Some(BatchOf(a)) && u.errors == Some(ErrorsOf(a))
    ensures u.retryCount == Some(retryCount)
    ensures u.validationStatus == Some(if a.Produced? then Pending else Fail)
    ensures u.(testCases := None, errors := None, retryCount := None, validationStatus := None) == Blank
  {
    Blank.(testCases := Some(BatchOf(a)), errors := Some(ErrorsOf(a)),
           retryCount := Some(retryCount), validationStatus := Some(if a.Produced? then Pending else Fail))
  }

  /** `generate_tests`: `state["requirement"]` must exist (it is read before the
      `try`). The update copies `retry_count` (default 0), holds the decoded batch with
      no error and "pending" on success, and an empty batch with one prefixed error and
      "fail" otherwise; a reply that decodes to an atom fails at `len()`. Only a success
      writes to the conversation buffer: the request, then the batch's length, each
      stamped by the clock. */
  function GenerateTests(s: State, conv: ConversationMemory, call: string -> LlmOutcome,
                         decode: string -> Decoded, t1: string, t2: string)
    : (r: Result<(State, ConversationMemory), Fault>)
    ensures r.Failure? <==> s.requirement.None?
    ensures r.Failure? ==> r.error == MissingKey("requirement")
    ensures r.Success? ==>
      var u := r.value.0;
      var answer := call(GenerationPrompt(s.requirement.value, s));
      && u.retryCount == Some(RetryCountOf(s))
      && u.testCases.Some? && u.errors.Some? && |u.errors.value| <= 1
      && (u.errors.value == [] <==>
            answer.Reply? && decode(answer.text).Loaded? && !decode(answer.text).batch.Scalar?)
      && (u.errors.value == [] ==> u.testCases.value == decode(answer.text).batch)
      && (u.errors.value != [] ==>
            |u.errors.value| == 1 && u.testCases.value == NoCases
            && (LlmErrorPrefix <= u.errors.value[0] || JsonErrorPrefix <= u.errors.value[0]))
      && u.validationStatus == Some(if u.errors.value == [] then Pending else Fail)
      && u.(testCases := None, errors := None, retryCount := None, validationStatus := None) == Blank
    ensures r.Success? && r.value.0.errors.value != [] ==> r.value.1 == conv
    ensures r.Success? && r.value.0.errors.value == [] ==>
      !r.value.0.testCases.value.Scalar?
      && r.value.1 == AddAll(conv, [Message("user", RequestNote(s.requirement.value), t1),
                                    Message("agent", ResultNote(|Elements(r.value.0.testCases.value)|), t2)])
  {
    match s.requirement
    case None => Failure(MissingKey("requirement"))
    case Some(req) =>
      var a := AttemptOf(call(GenerationPrompt(req, s)), decode);
      var u := AttemptUpdate(a, RetryCountOf(s));
      match a
      case Failed(_) => Success((u, conv))
      case Produced(b) =>
        var msgs := [Message("user", RequestNote(req), t1), Message("agent", ResultNote(|Elements(b)|), t2)];
        assert msgs[..1] == [msgs[0]] && msgs[..1][..0] == [];
        Success((u, AddAll(conv, msgs)))
  }

  /** A successful generation leaves the buffer holding its newest messages with the
      request and the count as the last two; a failed one leaves the buffer as it was. */
  lemma GenerationMemory(s: State, conv: ConversationMemory, call: string -> LlmOutcome,
                         decode: string -> Decoded, t1: string, t2: string)
    requires conv.maxMessages >= 2 && |conv.messages| <= conv.maxMessages
    requires GenerateTests(s, conv, call, decode, t1, t2).Success?
    ensures var (u, conv') := GenerateTests(s, conv, call, decode, t1, t2).value;
      && conv'.maxMessages == conv.maxMessages
      && |conv'.messages| <= conv.maxMessages
      && (u.errors.value != [] ==> conv' == conv)
      && (u.errors.value == [] ==>
            && |conv'.messages| == (if |conv.messages| + 2 <= conv.maxMessages then |conv.messages| + 2 else conv.maxMessages)
            && conv'.messages[|conv'.messages| - 2] == Message("user", RequestNote(s.requirement.value), t1)
            && conv'.messages[|conv'.messages| - 1].role == "agent"
            && conv'.messages[|conv'.messages| - 1].timestamp == t2)
  {
    var (u, conv') := GenerateTests(s, conv, call, decode, t1, t2).value;
    if u.errors.value == [] {
      AddPairKeepsNewest(conv, Message("user", RequestNote(s.requirement.value), t1),
                         Message("agent", ResultNote(|Elements(u.testCases.value)|), t2));
    }
  }

  // ---------------------------------------------------------------------------
  // retry_generate
  // ---------------------------------------------------------------------------

  /** The user message of `retry_generate`: the guidelines and the requirement only. */
  function RetryPrompt(requirement: string, context: string): string {
    "Based on the following company testing guidelines:\n\n" + context
      + "\n\n---\n\nNow generate test cases for this requirement:\n\n" + requirement
  }

  /** `retry_generate`: `state["requirement"]` must exist. The update sets `retry_count`
      one above the old value (default 0) in every branch; the batch and errors are the
      attempt's, with "pending" on success and "fail" otherwise. It does not touch the
      conversation buffer. */
  function RetryGenerate(s: State, call: string -> LlmOutcome, decode: string -> Decoded)
    : (r: Result<State, Fault>)
    ensures r.Failure? <==> s.requirement.None?
    ensures r.Failure? ==> r.error == MissingKey("requirement")
    ensures r.Success? ==>
      var u := r.value;
      var answer := call(RetryPrompt(s.requirement.value, s.retrievedContext.GetOr("")));
      && u.retryCount == Some(RetryCountOf(s) + 1)
      && u.testCases.Some? && u.errors.Some? && |u.errors.value| <= 1
      && (u.errors.value == [] <==>
            answer.Reply? && decode(answer.text).Loaded? && !decode(answer.text).batch.Scalar?)
      && (u.errors.value == [] ==> u.testCases.value == decode(answer.text).batch)
      && (u.errors.value != [] ==> |u.errors.value| == 1 && u.testCases.value == NoCases)
      && u.validationStatus == Some(if u.errors.value == [] then Pending else Fail)
  {
    match s.requirement
    case None => Failure(MissingKey("requirement"))
    case Some(req) =>
      var a := AttemptOf(call(RetryPrompt(req, s.retrievedContext.GetOr(""))), decode);
      Success(AttemptUpdate(a, RetryCountOf(s) + 1))
  }

  /** Two states that agree on the requirement and the retrieved context retry alike,
      apart from the count: feedback, memories and the old batch are not read. */
  lemma RetryReadsOnlyRequirementAndContext(s: State, t: State, call: string -> LlmOutcome,
                                            decode: string -> Decoded)
    requires s.requirement == t.requirement && s.retrievedContext == t.retrievedContext
    requires RetryCountOf(s) == RetryCountOf(t)
    ensures RetryGenerate(s, call, decode) == RetryGenerate(t, call, decode)
  {
  }

  /** Generation copies the count and retrying adds one, so from any state a retry
      leaves it exactly one higher than a generation would. */
  lemma RetryCountsOneMore(s: State, conv: ConversationMemory, call: string -> LlmOutcome,
                           decode: string -> Decoded, t1: string, t2: string)
    requires s.requirement.Some?
    ensures GenerateTests(s, conv, call, decode, t1, t2).value.0.retryCount.value + 1
      == RetryGenerate(s, call, decode).value.retryCount.value
  {
  }

  // ---------------------------------------------------------------------------
  // validate_tests
  // ---------------------------------------------------------------------------

  /** The batch the nodes after generation read: `state.get("test_cases", [])`. */
  function BatchIn(s: State): Batch {
    s.testCases.GetOr(NoCases)
  }

  /** `validate_tests`: the shared schema check on `state.get("test_cases", [])`;
      "pass" exactly for a valid list of cases, and a list of objects never raises. */
  function ValidateTests(s: State): (r: Result<State, Fault>)
    ensures r.Success? ==> Merge(s, r.value) == s.(validationStatus := r.value.validationStatus)
    ensures r.Success? ==> r.value.validationStatus == Some(Pass) || r.value.validationStatus == Some(Fail)
    ensures r.Success? && r.value.validationStatus == Some(Pass) <==> AllValid(BatchIn(s))
    ensures IsRecords(BatchIn(s)) ==> r.Success?
    ensures r.Failure? ==> r.error.TypeError?
    ensures r.Success? <==> Validate(BatchIn(s)).Success?
    ensures r.Success? ==> r.value.validationStatus == Some(Validate(BatchIn(s)).value)
    ensures r.Failure? ==> r.error == Validate(BatchIn(s)).error
  {
    match Validate(BatchIn(s))
    case Success(v) => Success(Blank.(validationStatus := Some(v)))
    case Failure(f) => Failure(f)
  }

  // ---------------------------------------------------------------------------
  // save_outputs
  // ---------------------------------------------------------------------------

  /** `tc.get(key, 'N/A')` where `', '.join` needs a string. */
  function TextField(tc: Record, key: string): Option<string> {
    match Get(tc, key, JStr("N/A"))
    case JStr(t) => Some(t)
    case _ => None
  }

  /** The interaction text can be built: the first five ids and every priority are
      strings (`set` of a list or dict raises, `join` of a non-string raises). */
  predicate Summarizable(cases: seq<Record>) {
    && (forall i :: 0 <= i < |cases| && i < 5 ==> TextField(cases[i], "id").Some?)
    && (forall i :: 0 <= i < |cases| ==> TextField(cases[i], "priority").Some?)
  }

  /** The distinct priorities, `set([...])`: every case's priority, and nothing else. */
  function Priorities(cases: seq<Record>): (ps: set<string>)
    requires Summarizable(cases)
    ensures forall i :: 0 <= i < |cases| ==> TextField(cases[i], "priority").value in ps
    ensures forall p :: p in ps ==> exists i :: 0 <= i < |cases| && TextField(cases[i], "priority").value == p
  {
    set i | 0 <= i < |cases| :: TextField(cases[i], "priority").value
  }

  /** The ids of the first five cases, in order. */
  function LeadingIds(cases: seq<Record>): (ids: seq<string>)
    requires Summarizable(cases)
    ensures |ids| == if |cases| < 5 then |cases| else 5
    ensures forall i :: 0 <= i < |ids| ==> ids[i] == TextField(cases[i], "id").value
  {
    var n := if |cases| < 5 then |cases| else 5;
    seq(n, i requires 0 <= i < n => TextField(cases[i], "id").value)
  }

  /** The text stored in long-term memory. `order` is the iteration order Python gives
      the priority set, which the language leaves unspecified. */
  function Interaction(requirement: string, cases: seq<Record>, order: set<string> -> seq<string>): string
    requires Summarizable(cases)
  {
    SummaryHead(requirement, |cases|) + Join(", ", LeadingIds(cases))
      + PrioritiesLead + Join(", ", order(Priorities(cases)))
  }

  /** The summary's opening: the count and the requirement's first 100 characters. */
  function SummaryHead(requirement: string, count: nat): string {
    "Generated " + NatToString(count) + " test cases for: " + Prefix(requirement, 100)
      + "\n\nTest cases included:\n"
  }

  const PrioritiesLead: string := "\n\nPriorities: "

  /** The stored text names the id of each of the first five cases. */
  lemma IdNamed(requirement: string, cases: seq<Record>, order: set<string> -> seq<string>, i: nat)
    requires Summarizable(cases) && i < |cases| && i < 5
    ensures Contains(Interaction(requirement, cases, order), TextField(cases[i], "id").value)
  {
    var ids := LeadingIds(cases);
    var head, tail := SummaryHead(requirement, |cases|), PrioritiesLead + Join(", ", order(Priorities(cases)));
    assert Interaction(requirement, cases, order) == head + Join(", ", ids) + tail;
    assert ids[i] == TextField(cases[i], "id").value;
    JoinedPartIn(head, ", ", ids, tail, i);
  }

  /** The stored text names every priority that `order` lists. */
  lemma PriorityNamed(requirement: string, cases: seq<Record>, order: set<string> -> seq<string>, j: nat)
    requires Summarizable(cases) && j < |order(Priorities(cases))|
    ensures Contains(Interaction(requirement, cases, order), order(Priorities(cases))[j])
  {
    var ps := order(Priorities(cases));
    var front := SummaryHead(requirement, |cases|) + Join(", ", LeadingIds(cases)) + PrioritiesLead;
    assert Interaction(requirement, cases, order) == front + Join(", ", ps) + "";
    JoinedPartIn(front, ", ", ps, "", j);
  }

  /** The stored text names each of the first five ids and, when `order` lists the
      whole priority set, every priority of the batch: `id in interaction` holds for
      each. */
  lemma InteractionNames(requirement: string, cases: seq<Record>, order: set<string> -> seq<string>)
    requires Summarizable(cases)
    requires forall p :: p in Priorities(cases) ==> p in order(Priorities(cases))
    ensures forall i :: 0 <= i < |cases| && i < 5 ==>
      Contains(Interaction(requirement, cases, order), TextField(cases[i], "id").value)
    ensures forall i :: 0 <= i < |cases| ==>
      Contains(Interaction(requirement, cases, order), TextField(cases[i], "priority").value)
  {
    forall i | 0 <= i < |cases| && i < 5
      ensures Contains(Interaction(requirement, cases, order), TextField(cases[i], "id").value)
    {
      IdNamed(requirement, cases, order, i);
    }
    var ps := order(Priorities(cases));
    forall i | 0 <= i < |cases|
      ensures Contains(Interaction(requirement, cases, order), TextField(cases[i], "priority").value)
    {
      var p := TextField(cases[i], "priority").value;
      assert p in ps;
      var j :| 0 <= j < |ps| && ps[j] == p;
      PriorityNamed(requirement, cases, order, j);
    }
  }

  /** The metadata `save_outputs` attaches. */
  function SaveMetadata(cases: seq<Record>): map<string, Json> {
    map["agent" := JStr("testcase_generator"), "type" := JStr("test_generation"), "count" := JInt(|cases|)]
  }

  /** `save_outputs`: `state["test_cases"]` must exist; a falsy batch returns `{}`
      and stores nothing. A list of cases is written out (the CSV export needs string
      steps) and stored as exactly one interaction, whose metadata names the agent, the
      kind, the batch size and the time. Any other truthy batch raises: the table
      constructor rejects it, or the summary's `tc.get` or slice does. The update is
      always empty. */
  function SaveOutputs(s: State, store: PersistentMemory, now: string, order: set<string> -> seq<string>)
    : (r: Result<PersistentMemory, Fault>)
    ensures s.testCases.None? <==> r == Failure(MissingKey("test_cases"))
    ensures s.testCases.Some? && !BatchTruthy(s.testCases.value) ==> r == Success(store)
    ensures r.Failure? ==> r.error == MissingKey("test_cases") || r.error.TypeError? || r.error.OtherError?
    ensures s.testCases.Some? && BatchTruthy(s.testCases.value) && !IsRecords(s.testCases.value) ==> r.Failure?
    ensures s.testCases.Some? && BatchTruthy(s.testCases.value) && IsRecords(s.testCases.value) ==>
      var cases := RecordsOf(s.testCases.value);
      && (r.Success? <==> CsvExportable(cases) && Summarizable(cases))
      && (r.Success? ==>
            && |r.value.records| == |store.records| + 1
            && r.value.records[..|store.records|] == store.records
            && r.value.collectionName == store.collectionName
            && var md := r.value.records[|store.records|].metadata;
               && md.Keys == {"agent", "type", "count", "timestamp"}
               && md["agent"] == JStr("testcase_generator")
               && md["type"] == JStr("test_generation")
               && md["count"] == JInt(|cases|)
               && md["timestamp"] == JStr(now))
  {
    match s.testCases
    case None => Failure(MissingKey("test_cases"))
    case Some(b) =>
      if !BatchTruthy(b) then Success(store)
      else if !IsRecords(b) then Failure(OtherError("test_cases shape"))
      else
        var cases := RecordsOf(b);
        if !CsvExportable(cases) then Failure(TypeError("steps join"))
        else if !Summarizable(cases) then Failure(TypeError("summary join"))
        else
          var text := Interaction(s.requirement.GetOr(""), cases, order);
          Success(StoreInteraction(store, text, Some(SaveMetadata(cases)), now))
  }
}

=== FILE: testcase_rag_graph.dfy ===
/** The wiring of the retrieval-augmented test-case pipeline
    (src/graph/testcase_rag/graph.py): the same machine as the plain one, with a
    retrieve node between read and generate. The nodes of that pipeline are not part
    of this model, so every result here holds for any node behaviour `exec` over any
    state type. */
module TestCaseRagGraph {
  import opened Wrappers
  import opened Workflow

  datatype Node = Read | Retrieve | Generate | Validate | Retry | Preview | Approval | Save

  const Entry: Node := Read

  /** The edge table of `build_graph`. */
  function Wiring(n: Node): Edge<Node> {
    match n
    case Read => Static(To(Retrieve))
    case Retrieve => Static(To(Generate))
    case Generate => Static(To(Validate))
    case Validate => Conditional(map["preview" := To(Preview), "retry" := To(Retry)])
    case Preview => Static(To(Approval))
    case Approval => Conditional(map["save" := To(Save), "retry" := To(Retry)])
    case Retry => Static(To(Validate))
    case Save => Static(End)
  }

  /** The two label tables. */
  lemma Tables()
    ensures Wiring(Validate).table.Keys == {"preview", "retry"}
    ensures Wiring(Approval).table.Keys == {"save", "retry"}
    ensures Wiring(Validate).table["preview"] == To(Preview) && Wiring(Validate).table["retry"] == To(Retry)
    ensures Wiring(Approval).table["save"] == To(Save) && Wiring(Approval).table["retry"] == To(Retry)
  {
  }

  /** Who leads where: read only to retrieve, retrieve only to generate, retry only back
      to validate; only read leads to retrieve, only retrieve to generate, only approval
      to save, and only save to the end; nothing leads back to read. */
  lemma WiringShape(n: Node)
    ensures Successors(Wiring(Read)) == {To(Retrieve)}
    ensures Successors(Wiring(Retrieve)) == {To(Generate)}
    ensures Successors(Wiring(Retry)) == {To(Validate)}
    ensures To(Retrieve) in Successors(Wiring(n)) <==> n == Read
    ensures To(Generate) in Successors(Wiring(n)) <==> n == Retrieve
    ensures To(Save) in Successors(Wiring(n)) <==> n == Approval
    ensures End in Successors(Wiring(n)) <==> n == Save
    ensures To(Read) !in Successors(Wiring(n))
  {
    TwoWaySuccessors("preview", To(Preview), "retry", To(Retry));
    TwoWaySuccessors("save", To(Save), "retry", To(Retry));
  }

  /** Every path from the entry starts read, retrieve, generate, and never enters any of
      the three again. */
  lemma {:induction false} FixedPrefix(p: seq<Node>)
    requires |p| > 0 && p[0] == Entry && IsPath(Wiring, p)
    ensures |p| > 1 ==> p[1] == Retrieve
    ensures |p| > 2 ==> p[2] == Generate
    ensures forall i :: 0 <= i < |p| && p[i] == Read ==> i == 0
    ensures forall i :: 0 <= i < |p| && p[i] == Retrieve ==> i == 1
    ensures forall i :: 0 <= i < |p| && p[i] == Generate ==> i == 2
  {
    WiringShape(Read);
    WiringShape(Retrieve);
    forall i | 0 < i < |p| ensures p[i] != Read {
      WiringShape(p[i - 1]);
    }
    forall i | 0 <= i < |p| && p[i] == Retrieve ensures i == 1 {
      WiringShape(p[i - 1]);
    }
    forall i | 0 <= i < |p| && p[i] == Generate ensures i == 2 {
      WiringShape(p[i - 1]);
      WiringShape(p[i - 2]);
    }
  }

  /** Every run from the entry, whatever the nodes do: it enters retrieve and generate
      at most once each, and exactly once each, in the order read, retrieve, generate,
      once it gets that far. */
  lemma RunShape<S>(exec: (Node, S) -> Result<Out<S>, Fault>, s: S, fuel: nat)
    ensures var t := Run(Wiring, exec, Entry, s, fuel).trace;
      && Count(t, Retrieve) <= 1 && Count(t, Generate) <= 1
      && (|t| > 2 ==> t[..3] == [Read, Retrieve, Generate] && Count(t, Retrieve) == 1 && Count(t, Generate) == 1)
  {
    var t := Run(Wiring, exec, Entry, s, fuel).trace;
    RunFollowsWiring(Wiring, exec, Entry, s, fuel);
    if fuel > 0 {
      PathCounts(t);
    } else {
      assert t == [];
    }
  }

  /** Every run, whatever the nodes do: it enters save only from approval, and when it
      halts, it halts right after save. */
  lemma RunSaves<S>(exec: (Node, S) -> Result<Out<S>, Fault>, s: S, fuel: nat)
    ensures var r := Run(Wiring, exec, Entry, s, fuel);
      && (forall i :: 0 < i < |r.trace| && r.trace[i] == Save ==> r.trace[i - 1] == Approval)
      && (r.Halted? ==> r.trace[|r.trace| - 1] == Save)
  {
    var r := Run(Wiring, exec, Entry, s, fuel);
    RunFollowsWiring(Wiring, exec, Entry, s, fuel);
    SaveOnlyAfterApproval(r.trace);
    if r.Halted? {
      WiringShape(r.trace[|r.trace| - 1]);
    }
  }

  /** On every path from the entry, retrieve and generate occur at most once, and
      exactly once when the path reaches the third node. */
  lemma PathCounts(p: seq<Node>)
    requires |p| > 0 && p[0] == Entry && IsPath(Wiring, p)
    ensures Count(p, Retrieve) <= 1 && Count(p, Generate) <= 1
    ensures |p| > 2 ==> p[..3] == [Read, Retrieve, Generate] && Count(p, Retrieve) == 1 && Count(p, Generate) == 1
  {
    FixedPrefix(p);
    AtMostOnceAt(p, Retrieve, 1);
    AtMostOnceAt(p, Generate, 2);
    if |p| > 2 {
      assert p[1] in p && p[2] in p;
      assert p[..3] == [p[0], p[1], p[2]];
    }
  }

  /** On every path, save is entered only straight from approval. */
  lemma SaveOnlyAfterApproval(p: seq<Node>)
    requires IsPath(Wiring, p)
    ensures forall i :: 0 < i < |p| && p[i] == Save ==> p[i - 1] == Approval
  {
    forall i | 0 < i < |p| && p[i] == Save ensures p[i - 1] == Approval {
      WiringShape(p[i - 1]);
    }
  }

  /** No run stops with an unknown label as long as validate's router answers "preview"
      or "retry" and approval's router "save" or "retry": the two routers of the
      pipeline never return anything else. */
  lemma RunNeverUnknownLabel<S>(exec: (Node, S) -> Result<Out<S>, Fault>, at: Node, s: S, fuel: nat)
    requires forall n, t :: exec(n, t).Failure? ==> !exec(n, t).error.UnknownLabel?
    requires forall t :: exec(Validate, t).Success? ==>
      exec(Validate, t).value.choice == "preview" || exec(Validate, t).value.choice == "retry"
    requires forall t :: exec(Approval, t).Success? ==>
      exec(Approval, t).value.choice == "save" || exec(Approval, t).value.choice == "retry"
    ensures var r := Run(Wiring, exec, at, s, fuel); r.Crashed? ==> !r.fault.UnknownLabel?
  {
    forall n, t | exec(n, t).Success? ensures Route(Wiring(n), exec(n, t).value.choice).Success? {
      if n == Validate || n == Approval {
        Tables();
      }
    }
    RunNeverMisroutes(Wiring, exec, at, s, fuel);
  }
}

=== FILE: testcase_rules.dfy ===
/** The rules the two test-case pipelines share, written once: what `json.loads` may
    hand back for a batch, the schema check of `validate_tests`, the two routers, the
    outcome of one generation attempt, and the operator's approval dialogue. The plain
    pipeline (src/graph/test_case_generator/nodes.py) and the memory-aware one
    (src/graph/testcase_memory/nodes.py) carry identical copies of these. */
module TestCaseRules {
  import opened Wrappers
  import opened PyStr
  import opened Json
  import opened Workflow

  /** One generated test case: a decoded JSON object. */
  type Record = map<string, Json>

  /** A JSON value that has no `len()`: null, a boolean or a number. */
  type Atom = j: Json | j.JNull? || j.JBool? || j.JInt? witness JNull

  /** Python's name for an atom's type, as its error messages print it. */
  function TypeName(a: Atom): string {
    if a.JNull? then "NoneType" else if a.JBool? then "bool" else "int"
  }

  /** What `json.loads` returned for a batch, as far as the nodes look at it. A list is
      iterated over its items, a string over its characters and an object over its keys
      in the order the reply wrote them, so an object is kept as that key sequence. */
  datatype Batch =
    | Items(items: seq<Json>)
    | Text(text: string)
    | Keys(keys: seq<string>)
    | Scalar(atom: Atom)

  /** `[]`, the batch a failed attempt leaves. */
  const NoCases: Batch := Items([])

  /** What `for tc in test_cases` visits; an atom cannot be iterated. */
  function Elements(b: Batch): (es: seq<Json>)
    requires !b.Scalar?
    ensures b.Items? ==> es == b.items
    ensures b.Text? ==> |es| == |b.text| && forall i :: 0 <= i < |es| ==> es[i] == JStr([b.text[i]])
    ensures b.Keys? ==> |es| == |b.keys| && forall i :: 0 <= i < |es| ==> es[i] == JStr(b.keys[i])
  {
    match b
    case Items(xs) => xs
    case Text(t) => seq(|t|, i requires 0 <= i < |t| => JStr([t[i]]))
    case Keys(ks) => seq(|ks|, i requires 0 <= i < |ks| => JStr(ks[i]))
  }

  /** `bool(test_cases)`: an empty list, string or object is false, an atom by its value. */
  predicate BatchTruthy(b: Batch) {
    if b.Scalar? then Truthy(b.atom) else |Elements(b)| > 0
  }

  /** The batch is a list of objects: the shape the prompts ask the model for. */
  predicate IsRecords(b: Batch) {
    b.Items? && forall i :: 0 <= i < |b.items| ==> b.items[i].JObject?
  }

  /** The cases of a list of objects. */
  function RecordsOf(b: Batch): (cases: seq<Record>)
    requires IsRecords(b)
    ensures |cases| == |b.items|
    ensures forall i :: 0 <= i < |cases| ==> b.items[i] == JObject(cases[i])
  {
    seq(|b.items|, i requires 0 <= i < |b.items| => b.items[i].fields)
  }

  /** A list of objects holding the given cases. */
  function Batched(cases: seq<Record>): (b: Batch)
    ensures IsRecords(b) && RecordsOf(b) == cases
  {
    Items(seq(|cases|, i requires 0 <= i < |cases| => JObject(cases[i])))
  }

  /** What the decoder makes of a model reply: a batch, or the message of the
      `JSONDecodeError` it raised. */
  datatype Decoded = Loaded(batch: Batch) | DecodeError(msg: string)

  const RequiredFields: seq<string> := ["id", "title", "steps", "expected", "priority"]
  const MinCases: nat := 3
  const MinSteps: nat := 2
  const MaxRetries: int := 3

  const Pass: string := "pass"
  const Fail: string := "fail"
  const Pending: string := "pending"

  // ---------------------------------------------------------------------------
  // validate_tests
  // ---------------------------------------------------------------------------

  /** `f in tc and tc[f]`. */
  predicate HasField(tc: Record, f: string) {
    f in tc && Truthy(tc[f])
  }

  /** A well-formed case: all five fields present and truthy, and two or more steps. */
  predicate CaseOk(tc: Record) {
    && (forall f :: f in RequiredFields ==> HasField(tc, f))
    && "steps" in tc && tc["steps"].JList? && |tc["steps"].items| >= MinSteps
  }

  /** What a passing batch is: a list of at least three objects, each well formed. */
  predicate AllValid(b: Batch) {
    && IsRecords(b) && |b.items| >= MinCases
    && forall i :: 0 <= i < |b.items| ==> CaseOk(b.items[i].fields)
  }

  /** `[f for f in required_fields if f not in tc or not tc[f]]`, in field order. */
  function Missing(fields: seq<string>, tc: Record): (r: seq<string>)
    ensures forall f :: f in r <==> f in fields && !HasField(tc, f)
  {
    if |fields| == 0 then []
    else (if HasField(tc, fields[0]) then [] else [fields[0]]) + Missing(fields[1..], tc)
  }

  /** No field is reported missing exactly when all five are present and truthy. */
  lemma NoneMissing(tc: Record)
    ensures |Missing(RequiredFields, tc)| == 0 <==> forall f :: f in RequiredFields ==> HasField(tc, f)
  {
    if |Missing(RequiredFields, tc)| > 0 {
      assert Missing(RequiredFields, tc)[0] in Missing(RequiredFields, tc);
    }
  }

  /** What checking one element does to the loop: it moves on, fails the batch, or
      raises the `TypeError` with the given message. */
  datatype Check = Passes | Fails | Raises(msg: string)

  /** `f in tc` followed by `tc[f]` goes wrong on a non-object: for a string, `in` is a
      substring test and indexing by a string raises; for a list, `in` compares items
      and indexing by a string raises; an atom cannot be searched at all. Only a case
      that none of the five names is "in" escapes, and it fails the batch. */
  predicate Unindexable(tc: Json) {
    match tc
    case JStr(s) => exists f :: f in RequiredFields && Contains(s, f)
    case JList(xs) => exists f :: f in RequiredFields && JStr(f) in xs
    case JObject(_) => false
    case _ => true
  }

  /** One pass of the loop body of `validate_tests` over the case `tc`. */
  function CheckCase(tc: Json): (c: Check)
    ensures c == Passes <==> tc.JObject? && CaseOk(tc.fields)
    ensures c.Raises? <==> Unindexable(tc)
  {
    match tc
    case JObject(rec) =>
      NoneMissing(rec);
      assert RequiredFields[2] == "steps";
      if |Missing(RequiredFields, rec)| > 0 then Fails
      else
        assert RequiredFields[2] in RequiredFields;
        if !(rec["steps"].JList? && |rec["steps"].items| >= MinSteps) then Fails
      else Passes
    case JStr(s) =>
      if exists f :: f in RequiredFields && Contains(s, f) then Raises("string indices must be integers, not 'str'")
      else Fails
    case JList(xs) =>
      if exists f :: f in RequiredFields && JStr(f) in xs then Raises("list indices must be integers or slices, not str")
      else Fails
    case _ => Raises("argument of type '" + TypeName(tc) + "' is not iterable")
  }

  /** What a non-passing check makes of the whole node. */
  function Verdict(c: Check): Result<string, Fault> {
    match c
    case Passes => Success(Pass)
    case Fails => Success(Fail)
    case Raises(m) => Failure(TypeError(m))
  }

  /** The loop of `validate_tests`: the first case that does not pass decides. */
  function Scan(cases: seq<Json>): (r: Result<string, Fault>)
    ensures r.Success? ==> r.value == Pass || r.value == Fail
    ensures r.Failure? ==> r.error.TypeError?
  {
    if |cases| == 0 then Success(Pass)
    else
      var c := CheckCase(cases[0]);
      if c == Passes then Scan(cases[1..]) else Verdict(c)
  }

  /** `k` is the first case of the loop that does not pass. */
  predicate FirstNonPassing(cases: seq<Json>, k: nat) {
    && k < |cases| && CheckCase(cases[k]) != Passes
    && forall j :: 0 <= j < k ==> CheckCase(cases[j]) == Passes
  }

  /** The loop passes a batch exactly when every case passes. */
  lemma {:induction false} ScanAllPass(cases: seq<Json>)
    ensures Scan(cases) == Success(Pass) <==> forall i :: 0 <= i < |cases| ==> CheckCase(cases[i]) == Passes
  {
    if |cases| > 0 {
      ScanAllPass(cases[1..]);
      assert forall i :: 1 <= i < |cases| ==> cases[i] == cases[1..][i - 1];
    }
  }

  /** Otherwise the first case that does not pass decides: it fails the batch or raises. */
  lemma {:induction false} ScanFirst(cases: seq<Json>, k: nat)
    requires FirstNonPassing(cases, k)
    ensures Scan(cases) == Verdict(CheckCase(cases[k]))
    decreases k
  {
    if k > 0 {
      assert forall j :: 0 <= j < k - 1 ==> cases[1..][j] == cases[j + 1];
      ScanFirst(cases[1..], k - 1);
    }
  }

  /** A list of objects never makes the loop raise. */
  lemma {:induction false} ScanObjects(cases: seq<Json>)
    ensures (forall i :: 0 <= i < |cases| ==> cases[i].JObject?) ==> Scan(cases).Success?
  {
    if |cases| > 0 {
      ScanObjects(cases[1..]);
      assert forall i :: 1 <= i < |cases| ==> cases[i] == cases[1..][i - 1];
    }
  }

  /** `len(v)` on an atom. */
  function NoLen(a: Atom): string {
    "object of type '" + TypeName(a) + "' has no len()"
  }

  /** `validate_tests`' verdict on the batch `state.get("test_cases", [])`: "pass",
      "fail", or the `TypeError` the loop raises. Fewer than three elements fail
      before the loop; an atom has no `len()`; a list of objects never raises. */
  function Validate(b: Batch): (r: Result<string, Fault>)
    ensures r.Success? ==> r.value == Pass || r.value == Fail
    ensures r.Failure? ==> r.error.TypeError?
    ensures r == Success(Pass) <==> AllValid(b)
    ensures b.Scalar? ==> r == Failure(TypeError(NoLen(b.atom)))
    ensures !b.Scalar? && |Elements(b)| < MinCases ==> r == Success(Fail)
    ensures IsRecords(b) ==> r.Success?
  {
    match b
    case Scalar(a) => Failure(TypeError(NoLen(a)))
    case _ =>
      var es := Elements(b);
      ScanAllPass(es);
      ScanObjects(es);
      if |es| < MinCases then Success(Fail)
      else Scan(es)
  }

  /** A list of three or more atoms raises in the loop: `"id" in 1` is a `TypeError`. */
  lemma ScalarListRaises()
    ensures Validate(Items([JInt(1), JInt(2), JInt(3)]))
      == Failure(TypeError("argument of type 'int' is not iterable"))
  {
    var es := [JInt(1), JInt(2), JInt(3)];
    assert TypeName(JInt(1)) == "int";
    assert CheckCase(es[0]) == Raises("argument of type 'int' is not iterable");
    ScanFirst(es, 0);
  }

  /** A reply that is one object with three or more keys is iterated over its keys:
      the batch raises exactly when the first key holds one of the five names (as
      "id" holds "id"), and fails otherwise. It never passes. */
  lemma ObjectBatch(keys: seq<string>)
    requires |keys| >= MinCases
    ensures Validate(Keys(keys)).Failure? <==> exists f :: f in RequiredFields && Contains(keys[0], f)
    ensures Validate(Keys(keys)).Success? ==> Validate(Keys(keys)) == Success(Fail)
  {
    ScanFirst(Elements(Keys(keys)), 0);
  }

  /** A reply that is a string of three or more characters fails validation without
      raising: no one-character element holds any of the five names. */
  lemma TextBatch(t: string)
    requires |t| >= MinCases
    ensures Validate(Text(t)) == Success(Fail)
  {
    var es := Elements(Text(t));
    assert forall f :: f in RequiredFields ==> |f| >= 2;
    assert !Unindexable(es[0]);
    ScanFirst(es, 0);
  }

  // ---------------------------------------------------------------------------
  // The routers
  // ---------------------------------------------------------------------------

  /** `route_after_validation` on `validation_status` (default "pending") and
      `retry_count` (default 0): only a failure with retries left goes back. */
  function RouteAfterValidation(status: Option<string>, retryCount: Option<int>): (choice: string)
    ensures choice == "preview" || choice == "retry"
    ensures choice == "retry" <==> status == Some(Fail) && retryCount.GetOr(0) < MaxRetries
  {
    var s := status.GetOr(Pending);
    var n := retryCount.GetOr(0);
    if s == Pass then "preview"
    else if s == Fail && n < MaxRetries then "retry"
    else "preview"
  }

  /** `route_after_human_approval` on `human_approval` (default "pending"): only a
      rejection goes back; every other value, known or not, saves. */
  function RouteAfterApproval(approval: Option<string>): (choice: string)
    ensures choice == "save" || choice == "retry"
    ensures choice == "retry" <==> approval == Some("rejected")
  {
    var a := approval.GetOr(Pending);
    if a == "approved" then "save"
    else if a == "rejected" then "retry"
    else "save"
  }

  /** A passing batch previews whatever the retry count, and a failing one stops
      retrying once the count reaches three. */
  lemma ValidationRoutes(status: Option<string>, retryCount: Option<int>)
    ensures status == Some(Pass) ==> RouteAfterValidation(status, retryCount) == "preview"
    ensures status.None? || status == Some(Pending) ==> RouteAfterValidation(status, retryCount) == "preview"
    ensures retryCount.GetOr(0) >= MaxRetries ==> RouteAfterValidation(status, retryCount) == "preview"
    ensures status == Some(Fail) && retryCount.GetOr(0) < MaxRetries ==>
      RouteAfterValidation(status, retryCount) == "retry"
  {
  }

  // ---------------------------------------------------------------------------
  // One generation attempt
  // ---------------------------------------------------------------------------

  /** What one call of the model plus `json.loads` and the `len()` of the log line
      produced. */
  datatype Attempt = Produced(batch: Batch) | Failed(error: string)

  const JsonErrorPrefix: string := "JSON parse error: "
  const LlmErrorPrefix: string := "LLM error: "

  /** The `try` around `chain.invoke`, `json.loads` and the `len()` the log line takes:
      a decode error and any other exception are caught separately, each with its own
      prefix. A reply that decodes to an atom gets past `json.loads` and is caught at
      `len()` as an "LLM error". */
  function AttemptOf(outcome: LlmOutcome, decode: string -> Decoded): (a: Attempt)
    ensures a.Failed? <==> outcome.Raised? || decode(outcome.text).DecodeError? || decode(outcome.text).batch.Scalar?
    ensures outcome.Raised? ==> a == Failed(LlmErrorPrefix + outcome.msg)
    ensures outcome.Reply? && decode(outcome.text).DecodeError? ==>
      a == Failed(JsonErrorPrefix + decode(outcome.text).msg)
    ensures outcome.Reply? && decode(outcome.text).Loaded? && decode(outcome.text).batch.Scalar? ==>
      a == Failed(LlmErrorPrefix + NoLen(decode(outcome.text).batch.atom))
    ensures a.Produced? ==> a.batch == decode(outcome.text).batch
  {
    match outcome
    case Raised(m) => Failed(LlmErrorPrefix + m)
    case Reply(text) =>
      match decode(text)
      case DecodeError(m) => Failed(JsonErrorPrefix + m)
      case Loaded(b) =>
        if b.Scalar? then Failed(LlmErrorPrefix + NoLen(b.atom)) else Produced(b)
  }

  /** The batch an attempt leaves in `test_cases`: what was decoded, or `[]`. */
  function BatchOf(a: Attempt): Batch {
    match a
    case Produced(b) => b
    case Failed(_) => NoCases
  }

  /** The `errors` an attempt leaves: none, or exactly its one message. */
  function ErrorsOf(a: Attempt): seq<string> {
    match a
    case Produced(_) => []
    case Failed(e) => [e]
  }

  /** A failed attempt always fails validation, without raising: it leaves an empty
      batch, and exactly one error. */
  lemma FailedAttemptFailsValidation(a: Attempt)
    requires a.Failed?
    ensures Validate(BatchOf(a)) == Success(Fail) && |ErrorsOf(a)| == 1
  {
  }

  /** A successful attempt never leaves an atom, so its batch has a length. */
  lemma ProducedHasLength(outcome: LlmOutcome, decode: string -> Decoded)
    requires AttemptOf(outcome, decode).Produced?
    ensures !BatchOf(AttemptOf(outcome, decode)).Scalar?
  {
  }

  // ---------------------------------------------------------------------------
  // What the preview and the details view need of a batch
  // ---------------------------------------------------------------------------

  /** `len(v)` is defined: strings, lists and objects. */
  predicate Sized(j: Json) {
    j.JStr? || j.JList? || j.JObject?
  }

  /** `v[:50]` is defined: strings and lists. */
  predicate Sliceable(j: Json) {
    j.JStr? || j.JList?
  }

  /** `show_preview` calls `tc.get` on every element, prints
      `len(tc.get('steps', []))` and `tc.get('expected', 'N/A')[:50]`; an element
      that is not an object, or any other shape, raises, and so does an atom batch,
      which cannot be enumerated. */
  predicate PreviewPrintable(b: Batch) {
    && !b.Scalar?
    && forall i :: 0 <= i < |Elements(b)| ==>
         var tc := Elements(b)[i];
         && tc.JObject?
         && ("steps" in tc.fields ==> Sized(tc.fields["steps"]))
         && ("expected" in tc.fields ==> Sliceable(tc.fields["expected"]))
  }

  /** `_show_full_details` calls `tc.get` on every element and iterates
      `tc.get('steps', [])`; a non-object element or a scalar there raises. */
  predicate DetailsPrintable(b: Batch) {
    && !b.Scalar?
    && forall i :: 0 <= i < |Elements(b)| ==>
         var tc := Elements(b)[i];
         tc.JObject? && ("steps" in tc.fields ==> Sized(tc.fields["steps"]))
  }

  /** A passing batch never breaks the details view: its steps are lists. */
  lemma ValidBatchDetailsPrintable(b: Batch)
    requires AllValid(b)
    ensures DetailsPrintable(b)
  {
  }

  /** The preview lets through only lists of objects, apart from empty batches: a
      non-empty string, object or non-object element raises there first. */
  lemma PreviewGuardsSave(b: Batch)
    requires PreviewPrintable(b) && BatchTruthy(b)
    ensures IsRecords(b)
  {
    var es := Elements(b);
    assert es[0].JObject?;
  }

  /** The CSV export of `save_outputs` joins each list of steps with " | ", which
      raises on an item that is not a string. */
  predicate CsvExportable(cases: seq<Record>) {
    forall i :: 0 <= i < |cases| && "steps" in cases[i] && cases[i]["steps"].JList? ==>
      forall j :: 0 <= j < |cases[i]["steps"].items| ==> cases[i]["steps"].items[j].JStr?
  }

  /** Validation does not look inside the steps: a batch can pass it and still break
      the export, with steps that are numbers. */
  lemma ValidBatchMayNotExport()
    ensures exists cases :: AllValid(Batched(cases)) && !CsvExportable(cases)
  {
    var tc: Record := map["id" := JStr("T1"), "title" := JStr("t"), "steps" := JList([JInt(1), JInt(2)]),
                          "expected" := JStr("e"), "priority" := JStr("High")];
    assert forall f :: f in RequiredFields ==> HasField(tc, f);
    var cases := [tc, tc, tc];
    assert CaseOk(tc);
    var b := Batched(cases);
    assert b.items[0] == JObject(tc) && b.items[1] == JObject(tc) && b.items[2] == JObject(tc);
    assert AllValid(b);
    assert !cases[0]["steps"].items[0].JStr?;
  }

  // ---------------------------------------------------------------------------
  // human_approval
  // ---------------------------------------------------------------------------

  /** The operator's decision and how many input lines the dialogue read. */
  datatype Answer = Answer(decision: Decision, feedback: string, consumed: nat)

  datatype Decision = Approved | Rejected

  /** The text `human_approval` stores for a decision. */
  function DecisionText(d: Decision): string {
    match d
    case Approved => "approved"
    case Rejected => "rejected"
  }

  const ApprovedFeedback: string := "Approved by user"
  const NoFeedback: string := "No feedback provided"

  /** Every line the operator types, as `input().strip()` hands it to the dialogue. */
  function StripAll(input: seq<string>): (lines: seq<string>)
    ensures |lines| == |input|
    ensures forall i :: 0 <= i < |input| ==> lines[i] == Strip(input[i])
  {
    seq(|input|, i requires 0 <= i < |input| => Strip(input[i]))
  }

  /** What one stripped line asks for: "1", "2", "3" or anything else. */
  datatype Choice = Approve | Reject | Details | Other

  function Classify(line: string): Choice {
    if |line| != 1 then Other
    else if line[0] == '1' then Approve
    else if line[0] == '2' then Reject
    else if line[0] == '3' then Details
    else Other
  }

  /** Each choice is exactly one text. */
  lemma ClassifyMeans(line: string)
    ensures Classify(line) == Approve <==> line == "1"
    ensures Classify(line) == Reject <==> line == "2"
    ensures Classify(line) == Details <==> line == "3"
  {
    if |line| == 1 {
      assert line == [line[0]];
    }
  }

  /** `human_approval`'s loop over the operator's stripped lines: "1" approves, "2"
      takes the next line as the feedback and rejects, "3" shows the details and asks
      again, anything else asks again. Running out of input raises `EOFError`. */
  function HumanApproval(batch: Batch, lines: seq<string>): (r: Result<Answer, Fault>)
    ensures r.Success? ==> 1 <= r.value.consumed <= |lines|
    ensures r.Success? && r.value.decision == Rejected ==> r.value.consumed >= 2
    ensures |lines| == 0 ==> r == Failure(InputExhausted)
    decreases |lines|
  {
    if |lines| == 0 then Failure(InputExhausted)
    else
      match Classify(lines[0])
      case Approve => Success(Answer(Approved, ApprovedFeedback, 1))
      case Reject =>
        if |lines| == 1 then Failure(InputExhausted)
        else Success(Answer(Rejected, FeedbackOf(lines[1]), 2))
      case Details =>
        if !DetailsPrintable(batch) then Failure(TypeError("steps not iterable"))
        else Skipped(HumanApproval(batch, lines[1..]))
      case Other => Skipped(HumanApproval(batch, lines[1..]))
  }

  /** `feedback or "No feedback provided"`: the placeholder replaces only the empty line. */
  function FeedbackOf(line: string): (fb: string)
    ensures fb != ""
    ensures line != "" ==> fb == line
  {
    if |line| == 0 then NoFeedback else line
  }

  /** The answer after a line that only asks again: the rest's answer, one line later. */
  function Skipped(r: Result<Answer, Fault>): Result<Answer, Fault> {
    match r
    case Failure(f) => Failure(f)
    case Success(a) => Success(a.(consumed := a.consumed + 1))
  }

  /** The dialogue raises only `EOFError` or the details view's type error, and the
      feedback it returns is never empty. */
  lemma {:induction false} ApprovalFaults(batch: Batch, lines: seq<string>)
    ensures var r := HumanApproval(batch, lines);
      r.Failure? ==> r.error == InputExhausted || r.error.TypeError?
    ensures var r := HumanApproval(batch, lines);
      r.Success? ==> r.value.feedback != ""
    decreases |lines|
  {
    if |lines| > 0 {
      ApprovalFaults(batch, lines[1..]);
    }
  }

  /** A line that is neither "1" nor "2" (a "3" whose details print, or an invalid
      choice) changes nothing: the dialogue continues as if the line were not there. */
  lemma {:induction false} IgnoredLine(batch: Batch, line: string, rest: seq<string>)
    requires Classify(line) == Other || (Classify(line) == Details && DetailsPrintable(batch))
    ensures var r := HumanApproval(batch, [line] + rest);
      var r' := HumanApproval(batch, rest);
      (r.Failure? <==> r'.Failure?)
      && (r.Failure? ==> r == r')
      && (r.Success? ==> r.value == r'.value.(consumed := r'.value.consumed + 1))
  {
    var lines := [line] + rest;
    assert lines[1..] == rest && lines[0] == line;
    assert HumanApproval(batch, lines) == Skipped(HumanApproval(batch, rest));
  }

  /** No line before index `k` is "1" or "2". */
  predicate Undecided(lines: seq<string>, k: nat)
    requires k <= |lines|
  {
    forall j :: 0 <= j < k ==> Classify(lines[j]) != Approve && Classify(lines[j]) != Reject
  }

  /** Dropping an undecided first line keeps the rest undecided. */
  lemma UndecidedTail(lines: seq<string>, k: nat)
    requires 0 < k <= |lines| && Undecided(lines, k)
    ensures Undecided(lines[1..], k - 1)
    ensures Classify(lines[0]) != Approve && Classify(lines[0]) != Reject
  {
    assert forall j :: 0 <= j < k - 1 ==> lines[1..][j] == lines[j + 1];
  }

  /** An ignored first line only adds one to the lines read. */
  lemma ShiftAnswer(batch: Batch, lines: seq<string>, a: Answer)
    requires 0 < |lines| && Classify(lines[0]) != Approve && Classify(lines[0]) != Reject
    requires DetailsPrintable(batch)
    requires HumanApproval(batch, lines[1..]) == Success(a)
    ensures HumanApproval(batch, lines) == Success(a.(consumed := a.consumed + 1))
  {
    assert HumanApproval(batch, lines) == Skipped(HumanApproval(batch, lines[1..]));
  }

  /** The decision is made by the first line that is "1" or "2"; when it is "1", the
      operator approved with the fixed feedback. */
  lemma {:induction false} FirstDecisiveApproves(batch: Batch, lines: seq<string>, k: nat)
    requires k < |lines| && Undecided(lines, k) && DetailsPrintable(batch)
    requires lines[k] == "1"
    ensures HumanApproval(batch, lines) == Success(Answer(Approved, ApprovedFeedback, k + 1))
    decreases k
  {
    ClassifyMeans(lines[k]);
    if k > 0 {
      UndecidedTail(lines, k);
      assert lines[1..][k - 1] == lines[k];
      FirstDecisiveApproves(batch, lines[1..], k - 1);
      ShiftAnswer(batch, lines, Answer(Approved, ApprovedFeedback, k));
    }
  }

  /** When the first decisive line is "2", the operator rejected, with the next line as
      feedback (the placeholder when that line is empty). */
  lemma {:induction false} FirstDecisiveRejects(batch: Batch, lines: seq<string>, k: nat)
    requires k + 1 < |lines| && Undecided(lines, k) && DetailsPrintable(batch)
    requires lines[k] == "2"
    ensures HumanApproval(batch, lines)
      == Success(Answer(Rejected, if lines[k + 1] == "" then NoFeedback else lines[k + 1], k + 2))
    decreases k
  {
    ClassifyMeans(lines[k]);
    if k > 0 {
      UndecidedTail(lines, k);
      assert lines[1..][k - 1] == lines[k] && lines[1..][k] == lines[k + 1];
      FirstDecisiveRejects(batch, lines[1..], k - 1);
      ShiftAnswer(batch, lines, Answer(Rejected, FeedbackOf(lines[k + 1]), k + 1));
    }
  }

  /** A "2" on the last line leaves the feedback prompt without input. */
  lemma {:induction false} RejectWithoutFeedbackExhausts(batch: Batch, lines: seq<string>)
    requires |lines| > 0 && Undecided(lines, |lines| - 1) && DetailsPrintable(batch)
    requires lines[|lines| - 1] == "2"
    ensures HumanApproval(batch, lines) == Failure(InputExhausted)
    decreases |lines|
  {
    ClassifyMeans(lines[|lines| - 1]);
    if |lines| > 1 {
      UndecidedTail(lines, |lines| - 1);
      assert lines[1..][|lines| - 2] == lines[|lines| - 1];
      RejectWithoutFeedbackExhausts(batch, lines[1..]);
      assert HumanApproval(batch, lines) == Skipped(HumanApproval(batch, lines[1..]));
    }
  }
}

=== FILE: workflow.dfy ===
/** The graph runtime the workflows are assembled on, reduced to what the wiring tables
    say: a node runs, its partial update is merged into the state, and the node's edge
    picks the next node, either fixed or through a router label looked up in a table.
    The runtime library itself is not part of this model; its merge is a shallow
    key-overwrite and its executor follows one edge per step. */
module Workflow {
  import opened Wrappers

  /** Where an edge leads: a node, or the end of the run. */
  datatype Target<N> = To(node: N) | End

  /** `add_edge(from, to)` or `add_conditional_edges(from, router, table)`. */
  datatype Edge<N> = Static(next: Target<N>) | Conditional(table: map<string, Target<N>>)

  /** One call of the language model: the text it returned, or the message of the
      exception it raised. */
  datatype LlmOutcome = Reply(text: string) | Raised(msg: string)

  /** Why a run stopped with an exception. */
  datatype Fault =
    | UnknownLabel(name: string)    // a router returned a label its table lacks
    | MissingKey(key: string)       // `state[key]` on a key the state does not hold
    | InputExhausted                // `input()` at the end of the operator's input
    | TypeError(what: string)       // a Python type error inside a node
    | OtherError(what: string)      // another exception inside a node (ValueError, AttributeError)

  /** What a node hands back to the executor: the merged state and, for a conditional
      edge, the router's label (ignored on a static edge). */
  datatype Out<S> = Out(state: S, choice: string)

  /** The edge's choice for a router label. */
  function Route<N(==)>(e: Edge<N>, choice: string): (r: Result<Target<N>, Fault>)
    ensures r.Failure? <==> e.Conditional? && choice !in e.table
    ensures r.Success? ==> r.value in Successors(e)
  {
    match e
    case Static(t) => Success(t)
    case Conditional(table) =>
      if choice in table then Success(table[choice]) else Failure(UnknownLabel(choice))
  }

  /** Every target an edge can lead to. */
  function Successors<N(==)>(e: Edge<N>): set<Target<N>> {
    match e
    case Static(t) => {t}
    case Conditional(table) => table.Values
  }

  /** A two-way conditional edge leads exactly to its two targets. */
  lemma TwoWaySuccessors<N>(k1: string, t1: Target<N>, k2: string, t2: Target<N>)
    requires k1 != k2
    ensures Successors(Conditional(map[k1 := t1, k2 := t2])) == {t1, t2}
  {
    var m := map[k1 := t1, k2 := t2];
    assert m[k1] == t1 && m[k2] == t2;
    forall t | t in m.Values ensures t == t1 || t == t2 {
      var k :| k in m && m[k] == t;
    }
  }

  /** A conditional edge accepts every label its router can return. */
  predicate Covers<N(==)>(e: Edge<N>, labels: set<string>) {
    e.Conditional? ==> labels <= e.table.Keys
  }

  /** A covered label never faults. */
  lemma CoveredRoutes<N>(e: Edge<N>, labels: set<string>, choice: string)
    requires Covers(e, labels) && choice in labels
    ensures Route(e, choice).Success?
  {
  }

  /** `p` follows the wiring: each node is a successor of the one before. */
  predicate IsPath<N(==)>(wiring: N -> Edge<N>, p: seq<N>) {
    forall i :: 0 <= i < |p| - 1 ==> To(p[i + 1]) in Successors(wiring(p[i]))
  }

  /** How a bounded run stopped: it reached the end, ran out of steps while about to
      run `at`, or a node (or a router label) faulted. The trace lists the nodes
      entered, in order, including the one that faulted. */
  datatype Outcome<N, S> =
    | Halted(state: S, trace: seq<N>)
    | Paused(at: N, state: S, trace: seq<N>)
    | Crashed(fault: Fault, state: S, trace: seq<N>)

  /** The executor: run at most `fuel` nodes starting at `at`. */
  function Run<N(==), S>(wiring: N -> Edge<N>, exec: (N, S) -> Result<Out<S>, Fault>,
                     at: N, s: S, fuel: nat): (r: Outcome<N, S>)
    ensures |r.trace| <= fuel
    ensures r.Paused? ==> |r.trace| == fuel
    ensures !r.Paused? ==> |r.trace| >= 1
    ensures fuel > 0 ==> |r.trace| > 0 && r.trace[0] == at
    decreases fuel
  {
    if fuel == 0 then Paused(at, s, [])
    else
      match exec(at, s)
      case Failure(f) => Crashed(f, s, [at])
      case Success(o) =>
        match Route(wiring(at), o.choice)
        case Failure(f) => Crashed(f, o.state, [at])
        case Success(End) => Halted(o.state, [at])
        case Success(To(next)) =>
          var rest := Run(wiring, exec, next, o.state, fuel - 1);
          rest.(trace := [at] + rest.trace)
  }

  /** Every run follows the wiring, and a run that halted ends with a node whose edge
      can lead to the end. */
  lemma {:induction false} RunFollowsWiring<N, S>(wiring: N -> Edge<N>,
                                                  exec: (N, S) -> Result<Out<S>, Fault>,
                                                  at: N, s: S, fuel: nat)
    ensures IsPath(wiring, Run(wiring, exec, at, s, fuel).trace)
    ensures var r := Run(wiring, exec, at, s, fuel);
      r.Halted? ==> End in Successors(wiring(r.trace[|r.trace| - 1]))
    ensures var r := Run(wiring, exec, at, s, fuel);
      r.Paused? && fuel > 0 ==> To(r.at) in Successors(wiring(r.trace[|r.trace| - 1]))
    decreases fuel
  {
    if fuel > 0 {
      if exec(at, s).Success? {
        var o := exec(at, s).value;
        var route := Route(wiring(at), o.choice);
        if route.Success? && route.value.To? {
          RunFollowsWiring(wiring, exec, route.value.node, o.state, fuel - 1);
          PathThrough(wiring, exec, at, s, fuel, o, route.value.node);
        } else {
          RunStops(wiring, exec, at, s, fuel);
        }
      } else {
        RunStops(wiring, exec, at, s, fuel);
      }
    }
  }

  /** The inductive step of `RunFollowsWiring`: a path with one more node in front. */
  lemma PathThrough<N, S>(wiring: N -> Edge<N>, exec: (N, S) -> Result<Out<S>, Fault>,
                          at: N, s: S, fuel: nat, o: Out<S>, next: N)
    requires fuel > 0 && exec(at, s) == Success(o) && Route(wiring(at), o.choice) == Success(To(next))
    requires var rest := Run(wiring, exec, next, o.state, fuel - 1);
      && IsPath(wiring, rest.trace)
      && (rest.Halted? ==> End in Successors(wiring(rest.trace[|rest.trace| - 1])))
      && (rest.Paused? && fuel - 1 > 0 ==> To(rest.at) in Successors(wiring(rest.trace[|rest.trace| - 1])))
    ensures var r := Run(wiring, exec, at, s, fuel);
      && IsPath(wiring, r.trace)
      && (r.Halted? ==> End in Successors(wiring(r.trace[|r.trace| - 1])))
      && (r.Paused? ==> To(r.at) in Successors(wiring(r.trace[|r.trace| - 1])))
  {
    RunThrough(wiring, exec, at, s, fuel, o, next);
    var rest := Run(wiring, exec, next, o.state, fuel - 1);
    var r := Run(wiring, exec, at, s, fuel);
    forall i | 0 <= i < |r.trace| - 1
      ensures To(r.trace[i + 1]) in Successors(wiring(r.trace[i]))
    {
      if i > 0 {
        assert r.trace[i] == rest.trace[i - 1] && r.trace[i + 1] == rest.trace[i];
      }
    }
    if |rest.trace| > 0 {
      assert r.trace[|r.trace| - 1] == rest.trace[|rest.trace| - 1];
    }
  }

  /** A step that leads on to another node: the run is that node followed by the run
      from the next one. */
  lemma RunThrough<N, S>(wiring: N -> Edge<N>, exec: (N, S) -> Result<Out<S>, Fault>,
                         at: N, s: S, fuel: nat, o: Out<S>, next: N)
    requires fuel > 0 && exec(at, s) == Success(o) && Route(wiring(at), o.choice) == Success(To(next))
    ensures var r := Run(wiring, exec, at, s, fuel);
      var rest := Run(wiring, exec, next, o.state, fuel - 1);
      && r.trace == [at] + rest.trace && r.state == rest.state
      && r.Halted? == rest.Halted? && r.Paused? == rest.Paused? && r.Crashed? == rest.Crashed?
      && (r.Paused? ==> r.at == rest.at)
      && (r.Crashed? ==> r.fault == rest.fault)
  {
  }

  /** A step that faults or ends the run is the last one. */
  lemma RunStops<N, S>(wiring: N -> Edge<N>, exec: (N, S) -> Result<Out<S>, Fault>,
                       at: N, s: S, fuel: nat)
    requires fuel > 0
    requires exec(at, s).Success? ==>
      var route := Route(wiring(at), exec(at, s).value.choice);
      route.Failure? || route.value == End
    ensures var r := Run(wiring, exec, at, s, fuel);
      && r.trace == [at]
      && !r.Paused?
      && (exec(at, s).Failure? ==> r == Crashed(exec(at, s).error, s, [at]))
      && (exec(at, s).Success? ==> r.state == exec(at, s).value.state)
  {
  }

  /** When every node's own faults are not label faults and every label a successful
      node returns is in its table, no run stops with an unknown label. */
  lemma {:induction false} RunNeverMisroutes<N, S>(wiring: N -> Edge<N>,
                                                   exec: (N, S) -> Result<Out<S>, Fault>,
                                                   at: N, s: S, fuel: nat)
    requires forall n, t :: exec(n, t).Failure? ==> !exec(n, t).error.UnknownLabel?
    requires forall n, t :: exec(n, t).Success? ==> Route(wiring(n), exec(n, t).value.choice).Success?
    ensures var r := Run(wiring, exec, at, s, fuel); r.Crashed? ==> !r.fault.UnknownLabel?
    decreases fuel
  {
    if fuel > 0 && exec(at, s).Success? {
      var o := exec(at, s).value;
      var route := Route(wiring(at), o.choice);
      if route.value.To? {
        RunNeverMisroutes(wiring, exec, route.value.node, o.state, fuel - 1);
      }
    }
  }

  /** A quantity of the state that a step raises by one at node `x`, and leaves alone
      elsewhere, ends up raised by the number of times the run entered `x`. A node `x`
      that could fault would break this, because the faulting node is in the trace. */
  lemma {:induction false} RunTallies<N, S>(wiring: N -> Edge<N>,
                                            exec: (N, S) -> Result<Out<S>, Fault>,
                                            measure: S -> int, x: N, at: N, s: S, fuel: nat)
    requires forall t :: exec(x, t).Success?
    requires forall n, t :: exec(n, t).Success? ==>
      measure(exec(n, t).value.state) == measure(t) + (if n == x then 1 else 0)
    ensures var r := Run(wiring, exec, at, s, fuel); measure(r.state) == measure(s) + Count(r.trace, x)
    decreases fuel
  {
    if fuel > 0 {
      if exec(at, s).Success? {
        var o := exec(at, s).value;
        assert measure(o.state) == measure(s) + (if at == x then 1 else 0);
        var route := Route(wiring(at), o.choice);
        if route.Success? && route.value.To? {
          RunTallies(wiring, exec, measure, x, route.value.node, o.state, fuel - 1);
          TallyThrough(wiring, exec, measure, x, at, s, fuel, o, route.value.node);
        } else {
          TallyStops(wiring, exec, measure, x, at, s, fuel);
        }
      } else {
        assert at != x;
        TallyStops(wiring, exec, measure, x, at, s, fuel);
      }
    }
  }

  /** The last step of a tallied run. */
  lemma TallyStops<N, S>(wiring: N -> Edge<N>, exec: (N, S) -> Result<Out<S>, Fault>,
                         measure: S -> int, x: N, at: N, s: S, fuel: nat)
    requires fuel > 0
    requires exec(at, s).Failure? ==> at != x
    requires exec(at, s).Success? ==>
      && measure(exec(at, s).value.state) == measure(s) + (if at == x then 1 else 0)
      && var route := Route(wiring(at), exec(at, s).value.choice);
         route.Failure? || route.value == End
    ensures var r := Run(wiring, exec, at, s, fuel); measure(r.state) == measure(s) + Count(r.trace, x)
  {
    RunStops(wiring, exec, at, s, fuel);
    assert Count([at], x) == if at == x then 1 else 0;
  }

  /** The inductive step of `RunTallies`: one more node in front of a tallied run. */
  lemma TallyThrough<N, S>(wiring: N -> Edge<N>, exec: (N, S) -> Result<Out<S>, Fault>,
                           measure: S -> int, x: N, at: N, s: S, fuel: nat, o: Out<S>, next: N)
    requires fuel > 0 && exec(at, s) == Success(o) && Route(wiring(at), o.choice) == Success(To(next))
    requires measure(o.state) == measure(s) + (if at == x then 1 else 0)
    requires var rest := Run(wiring, exec, next, o.state, fuel - 1);
      measure(rest.state) == measure(o.state) + Count(rest.trace, x)
    ensures var r := Run(wiring, exec, at, s, fuel); measure(r.state) == measure(s) + Count(r.trace, x)
  {
    RunThrough(wiring, exec, at, s, fuel, o, next);
    CountAppend([at], Run(wiring, exec, next, o.state, fuel - 1).trace, x);
  }

  /** A chain of nodes: each node's only edge leads to the next one, and the last one's
      to the end. */
  predicate IsChain<N(==)>(wiring: N -> Edge<N>, order: seq<N>) {
    && |order| > 0
    && (forall i :: 0 <= i < |order| - 1 ==> wiring(order[i]) == Static(To(order[i + 1])))
    && wiring(order[|order| - 1]) == Static(End)
  }

  /** A run that starts at the `k`-th node of a chain, whatever the nodes do, enters the
      rest of the chain in order and nothing else; it halts only after the last node;
      it pauses only when the fuel is shorter than the rest of the chain; and when it
      crashes, the fault is one a node raised. */
  lemma {:induction false} ChainRun<N, S>(wiring: N -> Edge<N>, exec: (N, S) -> Result<Out<S>, Fault>,
                                          order: seq<N>, k: nat, s: S, fuel: nat)
    requires IsChain(wiring, order) && k < |order|
    ensures ChainRunShape(exec, order, k, fuel, Run(wiring, exec, order[k], s, fuel))
    decreases fuel
  {
    var at := order[k];
    if fuel > 0 {
      if exec(at, s).Success? && k < |order| - 1 {
        var o := exec(at, s).value;
        assert Route(wiring(at), o.choice) == Success(To(order[k + 1]));
        ChainRun(wiring, exec, order, k + 1, o.state, fuel - 1);
        ChainThrough(wiring, exec, order, k, s, fuel, o);
      } else {
        ChainStops(wiring, exec, order, k, s, fuel);
      }
    }
  }

  /** What `ChainRun` promises of a run from the `k`-th node. */
  predicate ChainRunShape<N(==), S>(exec: (N, S) -> Result<Out<S>, Fault>, order: seq<N>, k: nat,
                                    fuel: nat, r: Outcome<N, S>)
    requires k < |order|
  {
    && r.trace <= order[k..]
    && (r.Halted? ==> r.trace == order[k..])
    && (r.Paused? ==> fuel < |order| - k)
    && (r.Crashed? ==> |r.trace| > 0 && exec(r.trace[|r.trace| - 1], r.state) == Failure(r.fault))
  }

  /** The inductive step of `ChainRun`. */
  lemma ChainThrough<N, S>(wiring: N -> Edge<N>, exec: (N, S) -> Result<Out<S>, Fault>,
                           order: seq<N>, k: nat, s: S, fuel: nat, o: Out<S>)
    requires IsChain(wiring, order) && k < |order| - 1 && fuel > 0
    requires exec(order[k], s) == Success(o)
    requires ChainRunShape(exec, order, k + 1, fuel - 1, Run(wiring, exec, order[k + 1], o.state, fuel - 1))
    ensures ChainRunShape(exec, order, k, fuel, Run(wiring, exec, order[k], s, fuel))
  {
    RunThrough(wiring, exec, order[k], s, fuel, o, order[k + 1]);
    assert order[k..] == [order[k]] + order[k + 1..];
  }

  /** The last step of a run on a chain: a fault, or the end after the last node. */
  lemma ChainStops<N, S>(wiring: N -> Edge<N>, exec: (N, S) -> Result<Out<S>, Fault>,
                         order: seq<N>, k: nat, s: S, fuel: nat)
    requires IsChain(wiring, order) && k < |order| && fuel > 0
    requires exec(order[k], s).Success? ==> k == |order| - 1
    ensures ChainRunShape(exec, order, k, fuel, Run(wiring, exec, order[k], s, fuel))
  {
    assert order[k..][..1] == [order[k]];
    if k == |order| - 1 {
      assert order[k..] == [order[k]];
    }
  }

  /** The entries the nodes of a trace contribute, in trace order. */
  function Records<N, L>(trace: seq<N>, entry: N -> seq<L>): seq<L> {
    if |trace| == 0 then [] else entry(trace[0]) + Records(trace[1..], entry)
  }

  /** A log in the state that every step extends by its node's entry ends up extended
      by the entries of the whole trace, in order, as long as an invariant that the
      steps keep rules out faults at nodes with a non-empty entry. */
  lemma {:induction false} RunRecords<N, S, L>(wiring: N -> Edge<N>, exec: (N, S) -> Result<Out<S>, Fault>,
                                               inv: S -> bool, log: S -> seq<L>, entry: N -> seq<L>,
                                               at: N, s: S, fuel: nat)
    requires inv(s)
    requires forall n, t :: inv(t) && exec(n, t).Success? ==>
      inv(exec(n, t).value.state) && log(exec(n, t).value.state) == log(t) + entry(n)
    requires forall n, t :: inv(t) && exec(n, t).Failure? ==> entry(n) == []
    ensures var r := Run(wiring, exec, at, s, fuel); log(r.state) == log(s) + Records(r.trace, entry)
    decreases fuel
  {
    if fuel > 0 {
      if exec(at, s).Success? {
        var o := exec(at, s).value;
        var route := Route(wiring(at), o.choice);
        if route.Success? && route.value.To? {
          RunRecords(wiring, exec, inv, log, entry, route.value.node, o.state, fuel - 1);
          RecordThrough(wiring, exec, log, entry, at, s, fuel, o, route.value.node);
        } else {
          RecordStops(wiring, exec, log, entry, at, s, fuel);
        }
      } else {
        RecordStops(wiring, exec, log, entry, at, s, fuel);
      }
    }
  }

  /** The last step of a recorded run. */
  lemma RecordStops<N, S, L>(wiring: N -> Edge<N>, exec: (N, S) -> Result<Out<S>, Fault>,
                             log: S -> seq<L>, entry: N -> seq<L>, at: N, s: S, fuel: nat)
    requires fuel > 0
    requires exec(at, s).Failure? ==> entry(at) == []
    requires exec(at, s).Success? ==>
      && log(exec(at, s).value.state) == log(s) + entry(at)
      && var route := Route(wiring(at), exec(at, s).value.choice);
         route.Failure? || route.value == End
    ensures var r := Run(wiring, exec, at, s, fuel); log(r.state) == log(s) + Records(r.trace, entry)
  {
    RunStops(wiring, exec, at, s, fuel);
    assert Records([at], entry) == entry(at) + Records([at][1..], entry);
    assert log(s) + [] == log(s);
  }

  /** The inductive step of `RunRecords`: one more node in front of a recorded run. */
  lemma RecordThrough<N, S, L>(wiring: N -> Edge<N>, exec: (N, S) -> Result<Out<S>, Fault>,
                               log: S -> seq<L>, entry: N -> seq<L>, at: N, s: S, fuel: nat,
                               o: Out<S>, next: N)
    requires fuel > 0 && exec(at, s) == Success(o) && Route(wiring(at), o.choice) == Success(To(next))
    requires log(o.state) == log(s) + entry(at)
    requires var rest := Run(wiring, exec, next, o.state, fuel - 1);
      log(rest.state) == log(o.state) + Records(rest.trace, entry)
    ensures var r := Run(wiring, exec, at, s, fuel); log(r.state) == log(s) + Records(r.trace, entry)
  {
    RunThrough(wiring, exec, at, s, fuel, o, next);
    var rest := Run(wiring, exec, next, o.state, fuel - 1);
    assert ([at] + rest.trace)[1..] == rest.trace;
  }

  /** How often `x` occurs in `s`. */
  function Count<T(==)>(s: seq<T>, x: T): (n: nat)
    ensures n <= |s|
    ensures n == 0 <==> x !in s
  {
    if |s| == 0 then 0 else (if s[0] == x then 1 else 0) + Count(s[1..], x)
  }

  lemma CountAppend<T>(a: seq<T>, b: seq<T>, x: T)
    ensures Count(a + b, x) == Count(a, x) + Count(b, x)
  {
    if |a| > 0 {
      assert (a + b)[1..] == a[1..] + b;
    } else {
      assert a + b == b;
    }
  }

  /** A value that can occur only at index `k` occurs at most once. */
  lemma {:induction false} AtMostOnceAt<T>(s: seq<T>, x: T, k: nat)
    requires forall i :: 0 <= i < |s| && s[i] == x ==> i == k
    ensures Count(s, x) <= 1
  {
    if |s| > 0 {
      if s[0] == x {
        assert forall i :: 0 <= i < |s| - 1 ==> s[1..][i] != x;
        NotInCountZero(s[1..], x);
      } else if k > 0 {
        AtMostOnceAt(s[1..], x, k - 1);
      } else {
        assert forall i :: 0 <= i < |s| - 1 ==> s[1..][i] != x;
        NotInCountZero(s[1..], x);
      }
    }
  }

  lemma NotInCountZero<T>(s: seq<T>, x: T)
    requires forall i :: 0 <= i < |s| ==> s[i] != x
    ensures Count(s, x) == 0
  {
  }
}

=== FILE: wrappers.dfy ===
/** Failure-compatible wrappers shared by the whole model. */
module Wrappers {

  /** A value that may be absent: a missing dictionary key, a search miss. */
  datatype Option<+T> = None | Some(value: T) {

    /** The value, or `default` when absent (Python's `d.get(k, default)`). */
    function GetOr(default: T): T {
      match this
      case Some(v) => v
      case None => default
    }

    /** `other` when it is present, this value otherwise: shallow overwrite of one key. */
    function Overwrite(other: Option<T>): Option<T> {
      if other.Some? then other else this
    }
  }

  /** The outcome of a step that may raise. */
  datatype Result<+R, +E> = Success(value: R) | Failure(error: E)
}
